=== FILE: README.md ===
# Turn-and-combat core of a grid roguelike, in Dafny

This project models the turn and combat core of a Unity grid roguelike
and proves properties of that model. The game alternates three phases:

- the player's move phase;
- the player's action phase (throw or melee attack);
- the enemy phase, in which every enemy takes one step or attack and
  then every eligible trap may fire.

The model covers:

- **GameManager.** The phase machine. The player's hit points and the
  game-over latch. The enemy and trap registries. The per-phase trap
  countdown. The enemy turn.
- **TrapBaseSequenced.** The trap's arm latch and countdown. The ray
  geometry of its two kinds, orthogonal and diagonal. One fire and its
  once-per-fire damage.
- **EnemyAIBase / EnemyAI / EnemyAIX.** One enemy turn: attack if
  adjacent, else break a neighbouring bullet, else step closer. Also the
  attack-cell preview.
- **EnemyHealth.** Clamped enemy hit points and death.
- **AttackProfile.** The cells a shaped attack covers.
- **AttackTileDirector / AttackTileService.** The threat overlays:
  - enemy counts, stacked one layer per threat;
  - trap arrows, one direction per layer in a fixed rank order.
- **PlayerMover.cs and Player.cs.** Two revisions of the player
  controller, modelled side by side:
  - the single-phase revision (PlayerMover.cs), where one click moves or
    attacks;
  - the two-phase revision (Player.cs), with separate move and action
    phases, a search/attack mode toggle and a different attack
    resolution.

Everything is a pure function on immutable datatypes. Physics overlap
queries and tilemap lookups become finite cell sets or parameters of the
operations. A coroutine that waits is split at its wait into the part
before and the part after. Module `Seqs` holds the sequence helpers
(duplicate-freedom, counting, first-occurrence removal). `Grid` holds
integer cells and Unity's `Mathf` helpers.

## Model

| member | source | states |
|---|---|---|
| Phases.NextPhase | Assets/Scripts/GameManager.cs:81-87 | The successor table: move → action → enemy → move, and the fallback value goes to move; no phase leads to the fallback value |
| Phases.NextPhaseCycle | Assets/Scripts/GameManager.cs:81-87 | Three successor steps return to any managed phase, and no phase is its own successor |
| TrapCycle.EligiblePhases | Assets/Scripts/Trap/TrapBaseSequenced.cs:69-73 | A trap is eligible only in the player-move phase (iff actOnPlayerTurn) or the enemy phase (iff actOnEnemyTurn) |
| TrapCycle.SetTurnsRemaining | Assets/Scripts/Trap/TrapBaseSequenced.cs:121-124 | Every counter write stores the value clamped at zero, so the counter never goes negative; the arm latch is kept |
| TrapCycle.ResetCycle | Assets/Scripts/Trap/TrapBaseSequenced.cs:109-112 | The countdown restarts at max(0, initialOffset); the latch is untouched |
| TrapCycle.Initial | Assets/Scripts/Trap/TrapBaseSequenced.cs:88-101 | A trap starts disarmed with its countdown at max(0, initialOffset) |
| TrapCycle.OnTurnAdvanced | Assets/Scripts/Trap/TrapBaseSequenced.cs:115-119 | In an eligible phase a positive counter drops by exactly one; in every other case the state is unchanged; non-negativity is preserved |
| TrapCycle.ReloadCycleAfterAct | Assets/Scripts/Trap/TrapBaseSequenced.cs:126-131 | After a fire the counter is intervalTurns − 1, or 0 for an interval below 1 |
| TrapCycle.OnTriggerEnter | Assets/Scripts/Trap/TrapBaseSequenced.cs:134-174 | The trap ends armed iff it was armed or the collider matches the vision layer or one of the non-empty vision tags; an armed trap ignores triggers; the countdown is never touched |
| TrapCycle.TriggerLatched | Assets/Scripts/Trap/TrapBaseSequenced.cs:156-174 | Arming is idempotent and no later trigger disarms the trap |
| TrapCycle.ForceArm | Assets/Scripts/PlayerMover.cs:234-238 | Forcing arms the trap and leaves the countdown alone |
| TrapCycle.Act | Assets/Scripts/Trap/TrapBaseSequenced.cs:183-206 | Fires iff the phase is eligible, the counter is zero, the trap is ready and it is armed or needs no arming; a call that does not fire changes nothing; a fire reloads the counter and disarms iff disarmAfterAct |
| TrapCycle.NoFireWhenDisarmedOrCounting | Assets/Scripts/Trap/TrapBaseSequenced.cs:185-188 | A disarmed trap that needs arming never fires, nor does a trap whose counter is positive, and such a call leaves the state alone |
| TrapCycle.EnemyPhase | Assets/Scripts/GameManager.cs:122-123 | One enemy phase of a trap (tick at phase start, then Act) keeps the counter valid and fires only for an enemy-phase trap that is ready |
| TrapCycle.PlayerTicks | Assets/Scripts/GameManager.cs:118-123 | Between two enemy phases the move and action phases each tick the trap at their start; only a trap acting on the player turn loses one from its counter (never below zero), any other is unchanged |
| TrapCycle.Round | Assets/Scripts/GameManager.cs:118-217 | One round is the player's ticks, then the enemy phase; for a trap not acting on the player turn it is exactly the enemy phase, and it can fire only for a trap acting on the enemy turn |
| TrapCycle.CountdownAsWritten | Assets/Scripts/Trap/TrapBaseSequenced.cs:115-131 | As written, a counter of k gives the first fire in round max(k, 1) for a trap not acting on the player turn (the default, TrapBaseSequenced.cs:14) and in round max(⌈k/2⌉, 1) for one that does, with silence before it |
| TrapCycle.IntervalThreeFiresEverySecondPhase | Assets/Scripts/Trap/TrapBaseSequenced.cs:126-131 | Counterexample: with interval 3 a default trap fires again in the second round after a fire, not the third; one also acting on the player turn fires again in the first |
| TrapCycle.AsWrittenPeriod | Assets/Scripts/GameManager.cs:118-217 | As written, after a fire interval K ≥ 1 gives the next fire in round max(K − 1, 1) for a default trap, and in round max(⌊K/2⌋, 1) for one also acting on the player turn |
| TrapCycle.EnemyPhaseIntended | Assets/Scripts/Trap/TrapBaseSequenced.cs:126-131 | Corrected phase: a positive counter is only consumed by a silent phase, so firing needs a zero counter |
| TrapCycle.RoundIntended | Assets/Scripts/Trap/TrapBaseSequenced.cs:115-131 | Corrected round: the player's ticks are kept and the enemy phase is the corrected one; for a default trap it is exactly the corrected enemy phase |
| TrapCycle.CountdownIntended | Assets/Scripts/Trap/TrapBaseSequenced.cs:115-131 | Corrected round: a counter of k gives exactly k silent rounds, then a fire, for a default trap; one also acting on the player turn counts its move phases too and fires in round ⌊k/2⌋ + 1 |
| TrapCycle.IntendedPeriod | Assets/Scripts/Trap/TrapBaseSequenced.cs:126-131 | Corrected round: after a fire, interval K gives K − 1 silent rounds and a fire in the K-th for a default trap, and a fire in round ⌊(K − 1)/2⌋ + 1 for one also acting on the player turn |
| Rays.FiniteFloorHasExtent | Assets/Scripts/Trap/TrapBaseSequenced.cs:260-272 | Any finite floor tilemap fits in some extent square, so every ray is finite |
| Rays.RayFrom | Assets/Scripts/Trap/TrapBaseSequenced.cs:260-272 | The ray from step `from` holds consecutive multiples of the direction, none stopping the ray, and the next cell stops it |
| Rays.RayCells | Assets/Scripts/Trap/TrapBaseSequenced.cs:260-272 | A ray is origin + k·dir for k = 1, 2, … up to, and excluding, the first cell that is off the floor, a wall, or (when enabled) another trap |
| Rays.RayUnique | Assets/Scripts/Trap/TrapBaseSequenced.cs:260-272 | Any contiguous stop-free run ending just before a stop cell is the ray, so the stop rule determines the ray |
| Rays.StopIsFirst | Assets/Scripts/Trap/TrapBaseSequenced.cs:264-269 | A stop cell lies beyond every stop-free prefix |
| Rays.RayOffOrigin | Assets/Scripts/Trap/TrapBaseSequenced.cs:262-270 | A ray never contains the trap's own cell, and every cell lies on its line |
| Rays.StepNotOrigin | Assets/Scripts/Trap/TrapBaseSequenced.cs:262-270 | A positive step along a king-move direction leaves the origin |
| Rays.RayNoDup | Assets/Scripts/Trap/TrapBaseSequenced.cs:260-272 | A ray names no cell twice |
| Rays.StepInjective | Assets/Scripts/Trap/TrapBaseSequenced.cs:262-270 | Distinct step counts along one direction give distinct cells |
| Rays.RaysDisjoint | Assets/Scripts/Trap/TrapBaseSequenced.cs:260-272 | Rays along two different directions share no cell |
| Rays.StepsOnDistinctRays | Assets/Scripts/Trap/TrapBaseSequenced.cs:260-272 | Positive multiples of two distinct king-move directions differ |
| Rays.AttackCells | Assets/Scripts/Trap/TrapBaseSequenced.cs:310-317 | A trap's attack cells, of either kind, exclude its own cell, repeat no cell and contain no stop cell |
| Rays.OrthoAttackCellsShape | Assets/Scripts/Trap/TrapRayOrthoTrap.cs:8-11 | Every orthogonal attack cell shares exactly one coordinate with the origin and passes the stop test |
| Rays.OrthoRaysPairwiseDisjoint | Assets/Scripts/Trap/TrapRayOrthoTrap.cs:8-11 | The up, down, left and right rays are pairwise disjoint |
| Rays.FourRaysNoDup | Assets/Scripts/Trap/TrapRayOrthoTrap.cs:8-11 | Four rays along distinct directions concatenate without repetition |
| Rays.OrthoAttackCellsNoDup | Assets/Scripts/Trap/TrapRayOrthoTrap.cs:8-11 | The orthogonal trap's attack list repeats no cell |
| Rays.DiagonalAttackCellsNoDup | Assets/Scripts/Trap/TrapRayDiagonalTrap.cs:8-11 | The diagonal trap's attack list repeats no cell |
| Rays.DiagonalAttackCellsShape | Assets/Scripts/Trap/TrapRayDiagonalTrap.cs:8-11 | Every diagonal attack cell lies on a diagonal through the origin, at distance at least one |
| Rays.DiagonalRaysPairwiseDisjoint | Assets/Scripts/Trap/TrapRayDiagonalTrap.cs:8-11 | The four diagonal rays are pairwise disjoint |
| Rays.RayStopsBeforeTrap | Assets/Scripts/Trap/TrapBaseSequenced.cs:274-299 | With stopRayOnTrap, another trap k steps along the ray cuts the ray to fewer than k cells |
| TrapAttack.ProcessHit | Assets/Scripts/Trap/TrapBaseSequenced.cs:227-254 | One collider handled: a bullet joins the destroyed set and an enemy the damaged set only if not already there, the player flag is set at most once, and earlier records are kept in order |
| TrapAttack.ProcessHits | Assets/Scripts/Trap/TrapBaseSequenced.cs:225-255 | The hit loop's records only grow, stay duplicate-free and end up holding exactly the bullets, enemies and player hit seen so far |
| TrapAttack.AllHits | Assets/Scripts/Trap/TrapBaseSequenced.cs:219-223 | The probed hits are exactly those found in some attack cell |
| TrapAttack.DoAttackOn | Assets/Scripts/Trap/TrapBaseSequenced.cs:209-257 | Without both tilemaps a fire does nothing; otherwise it destroys exactly the bullets and damages exactly the enemies on its cells, each once, and hits the player iff the player is on one of them |
| TrapAttack.DoAttack | Assets/Scripts/Trap/TrapBaseSequenced.cs:209-257 | A fire over the trap's own rays never damages an enemy or destroys a bullet twice |
| TrapAttack.OncePerFire | Assets/Scripts/Trap/TrapBaseSequenced.cs:215-247 | An enemy reached from several attack cells is damaged exactly once per fire |
| TrapAttack.EnemiesOfHas | Assets/Scripts/Trap/TrapBaseSequenced.cs:238-246 | Every enemy among the hits is in the reference set of enemies reached |
| EnemyAI.Directions | Assets/Scripts/Enemy/EnemyAI.cs:19-28 | Each variant has four distinct unit directions: orthogonal ones for EnemyAI, diagonal ones for EnemyAIX |
| EnemyAI.OrthogonalAdjacency | Assets/Scripts/Enemy/EnemyAI.cs:30-35 | The orthogonal enemy attacks exactly at Manhattan distance 1, symmetrically, never at its own cell or a diagonal neighbour |
| EnemyAI.DiagonalAdjacency | Assets/Scripts/Enemy/EnemyAIX.cs:32-37 | The diagonal enemy attacks exactly its four diagonal neighbours, symmetrically, never an orthogonal one |
| EnemyAI.BulletDir | Assets/Scripts/Enemy/EnemyAIBase.cs:125-161 | The bullet broken is in the first direction whose neighbour holds one; none iff no neighbour does |
| EnemyAI.StepDir | Assets/Scripts/Enemy/EnemyAIBase.cs:103-121 | The step taken is the first direction that qualifies; none iff no direction does |
| EnemyAI.TryMoveTowardPlayer | Assets/Scripts/Enemy/EnemyAIBase.cs:66-122 | Idle without a player or tilemap; attacks for attackPower iff adjacent; otherwise breaks a neighbouring bullet; otherwise takes a qualifying step along one of its directions, or stays when none qualifies |
| EnemyAI.TurnPriority | Assets/Scripts/Enemy/EnemyAIBase.cs:66-122 | Once a player and tilemap exist and the player is not adjacent, a bullet is broken iff one neighbours the enemy, and otherwise it moves or stays |
| EnemyAI.StepMakesProgress | Assets/Scripts/Enemy/EnemyAIBase.cs:104-120 | A step lands on a unit-direction neighbour strictly closer to the player, with no player, obstacle or bullet on it |
| EnemyAI.AdjacentEnemyAttacks | Assets/Scripts/Enemy/EnemyAIBase.cs:74-95 | An orthogonal enemy beside the player attacks it for its attack power |
| EnemyAI.DiagonalAttackSameParity | Assets/Scripts/Enemy/EnemyAIX.cs:32-37 | A diagonal enemy attacks only a player whose x + y has its own parity |
| EnemyAI.DiagonalStepKeepsParity | Assets/Scripts/Enemy/EnemyAIX.cs:20-29 | A diagonal enemy's step keeps the parity of x + y |
| EnemyAI.DiagonalOffsetKeepsParity | Assets/Scripts/Enemy/EnemyAIX.cs:20-29 | Every diagonal direction keeps the parity of x + y |
| EnemyAI.DiagonalStuckBesidePlayer | Assets/Scripts/Enemy/EnemyAIBase.cs:66-122 | A diagonal enemy orthogonally beside the player, with no bullet around, can neither attack nor get closer, so it stays |
| EnemyAI.PreviewOver | Assets/Scripts/Enemy/EnemyAIBase.cs:210-216 | The preview over a direction list keeps exactly the neighbours the enemy could attack |
| EnemyAI.GetAttackCellsPreview | Assets/Scripts/Enemy/EnemyAIBase.cs:203-217 | No preview without a tilemap; every previewed cell is one the enemy could attack |
| EnemyAI.PreviewIsNeighbours | Assets/Scripts/Enemy/EnemyAIBase.cs:203-217 | For both variants the preview is exactly the four neighbours in direction order, so the direction list and the attack test agree |
| EnemyHealth.Awake | Assets/Scripts/EnemyHealth.cs:17-22 | An unset current HP starts full, any other value is clamped to [0, max], and the result is valid for a non-negative max |
| EnemyHealth.TakeDamage | Assets/Scripts/EnemyHealth.cs:24-37 | A non-positive amount is ignored; otherwise HP drops by the amount, not below zero, and the enemy dies iff HP reaches zero; validity is kept |
| EnemyHealth.Heal | Assets/Scripts/EnemyHealth.cs:39-44 | A non-positive amount is ignored; otherwise HP rises by the amount, not above max; validity is kept |
| EnemyHealth.HealUndoesDamage | Assets/Scripts/EnemyHealth.cs:24-44 | A non-lethal hit is undone by a heal of the same amount |
| EnemyHealth.DeathThreshold | Assets/Scripts/EnemyHealth.cs:24-37 | A valid enemy dies iff the positive amount is at least its remaining HP |
| GameManager.BeginSwitch | Assets/Scripts/GameManager.cs:92-116 | Refused while a switch is in flight or after game over; otherwise locks input and sets a pending target; entering the move phase with a banner counts a cycle, except the very first time |
| GameManager.CompleteSwitch | Assets/Scripts/GameManager.cs:118-143 | After the wait: game over aborts the switch; otherwise enters the pending phase, ticks exactly the registered traps (without repeats) by `OnTurnAdvanced` for that phase and leaves every other trap, the registries and enemy HP alone, and unlocks input for the two player phases |
| GameManager.SwitchPhase | Assets/Scripts/GameManager.cs:92-143 | A whole switch is a no-op while advancing or after game over; otherwise it enters the target phase with exactly the registered traps ticked for it, HP, registries and enemy HP unchanged, and the correct input lock |
| GameManager.NextState | Assets/Scripts/GameManager.cs:77-90 | Refused while advancing or after game over; otherwise starts a switch to the successor phase |
| GameManager.NextStateGuarded | Assets/Scripts/GameManager.cs:79 | A second NextState or any SwitchPhase issued during a switch does nothing |
| GameManager.Start | Assets/Scripts/GameManager.cs:58-123 | The game begins in the move phase with full HP, unlocked input, cycle 1 and the given enemy HP; the scene's enemies and traps, which register during the switch's wait, are registered once each, and every registered trap has had the move phase's countdown tick |
| GameManager.RegisterEnemies | Assets/Scripts/Enemy/EnemyAIBase.cs:55-64 | Each enemy's Start registers it once; the registry holds exactly the earlier and the new enemies, without repeats |
| GameManager.RegisterTraps | Assets/Scripts/Trap/TrapBaseSequenced.cs:88-101 | Each trap's Start registers it once; the registry holds exactly the earlier and the new traps, without repeats |
| GameManager.OffsetTwoFiresInFirstEnemyPhase | Assets/Scripts/GameManager.cs:92-123 | A scene trap acting in both phases with initialOffset 2 and no arming needed is ticked to 1 by the opening move phase and fires in the first enemy phase |
| GameManager.CycleIndexCountsPlayerPhases | Assets/Scripts/GameManager.cs:99-111 | With a banner, the cycle index grows by the number of switches into the move phase; without one it never changes |
| GameManager.FullRound | Assets/Scripts/GameManager.cs:77-143 | Three NextState switches from a settled move phase return to the move phase one cycle later |
| GameManager.TickTrap | Assets/Scripts/GameManager.cs:151-155 | One live trap is ticked for the phase and the other traps are untouched |
| GameManager.AdvanceTraps | Assets/Scripts/GameManager.cs:146-158 | Every registered live trap is ticked once, in order; an unregistered trap is untouched; settings never change |
| GameManager.TakeDamage | Assets/Scripts/GameManager.cs:227-244 | Ignored after game over; otherwise HP drops to max(hp − damage, 0), the game ends iff HP is zero, and ending locks input; nothing else changes |
| GameManager.Heal | Assets/Scripts/GameManager.cs:246-251 | Ignored after game over; otherwise HP becomes min(hp + amount, maxHP); nothing else changes |
| GameManager.HealUndoesDamage | Assets/Scripts/GameManager.cs:227-251 | Damage below the remaining HP is undone by the same heal |
| GameManager.DamageSeries | Assets/Scripts/GameManager.cs:227-244 | A series of hits keeps the game-over latch set once set |
| GameManager.GameOverOnce | Assets/Scripts/GameManager.cs:281-285 | Over any series of hits the game-over routine starts at most once, and exactly once iff the series ends the game |
| GameManager.GameOverStays | Assets/Scripts/GameManager.cs:229 | After game over every hit is ignored |
| GameManager.RegisterEnemy | Assets/Scripts/GameManager.cs:258-261 | The enemy is present afterwards, added once; re-registration changes nothing |
| GameManager.UnregisterEnemy | Assets/Scripts/GameManager.cs:263-269 | The first occurrence is removed (multiset difference); an absent enemy changes nothing |
| GameManager.RegisterTrap | Assets/Scripts/GameManager.cs:271-274 | The trap is present afterwards, added once; re-registration changes nothing |
| GameManager.UnregisterTrap | Assets/Scripts/GameManager.cs:276-279 | The first occurrence is removed; an absent trap changes nothing |
| GameManager.RemoveFirstNoDupIfNoDup | Assets/Scripts/GameManager.cs:263-279 | Removing from a duplicate-free registry leaves no copy behind |
| GameManager.RegisterRoundTrip | Assets/Scripts/GameManager.cs:258-279 | Unregistering undoes a fresh registration, for enemies and traps |
| GameManager.DamageEnemy | Assets/Scripts/EnemyHealth.cs:46-54 | An enemy hit changes its health as EnemyHealth does; a lethal hit unregisters it and a non-lethal one leaves the manager alone |
| GameManager.DamageEnemies | Assets/Scripts/Trap/TrapBaseSequenced.cs:238-246 | Each listed enemy takes the power once; others keep their health; the registry only loses the dead |
| GameManager.ApplyTrapFire | Assets/Scripts/Trap/TrapBaseSequenced.cs:238-254 | Each enemy the fire reached takes the power once and leaves the registry if that kills it (EnemyHealth.cs:46-54); no other enemy changes and none is added; a fire reaching the player lowers HP to max(HP − power, 0), ending the game at zero; a fire missing the player leaves HP and the latch alone |
| GameManager.TrapFireHitsEachEnemyOnce | Assets/Scripts/Trap/TrapBaseSequenced.cs:238-246 | Within one fire each enemy on the rays takes the trap's power exactly once |
| GameManager.EnemyActors | Assets/Scripts/GameManager.cs:180-189 | The enemy log names the enemies in order |
| GameManager.TrapActors | Assets/Scripts/GameManager.cs:205-225 | The trap log names the traps in order |
| GameManager.Offered | Assets/Scripts/GameManager.cs:210-219 | The offered traps are exactly the registered ones that are live, eligible for the enemy phase and ready, in order |
| GameManager.OfferedIgnoresState | Assets/Scripts/GameManager.cs:210-219 | Which traps are offered depends only on registration and settings, not on the countdown ticked before |
| GameManager.RunEnemies | Assets/Scripts/GameManager.cs:180-191 | Enemies act in snapshot order; the log is a prefix of the list and all of it unless the game ended |
| GameManager.OfferAct | Assets/Scripts/Trap/TrapBaseSequenced.cs:183-206 | An offered trap's state follows Act; other traps are untouched; a trap that does not fire changes nothing else, and one that fires applies its fire to the player and the enemies it reaches; only a fire reaching the player can cost HP, and only a fire can remove an enemy |
| GameManager.RunTraps | Assets/Scripts/GameManager.cs:205-225 | Offered traps act in snapshot order; the log is a prefix of the offered list and all of it unless the game ended; unoffered traps are untouched; enemies only leave the registry, and only those some offered fire reached |
| GameManager.HandleEnemyTurn | Assets/Scripts/GameManager.cs:160-202 | The turn's log is a prefix of enemies-then-traps, all of it unless the game ended, and the turn hands back to an unlocked move phase unless the game ended; the enemy registry only shrinks, keeps no repeats, and loses only enemies reached by the fire of a trap in the log |
| GameManager.EnemyActorsPrefix | Assets/Scripts/GameManager.cs:180-189 | A prefix of the enemy list gives a prefix of the log |
| GameManager.TrapActorsPrefix | Assets/Scripts/GameManager.cs:205-225 | A prefix of the trap list gives a prefix of the log |
| GameManager.EnemiesBeforeTraps | Assets/Scripts/GameManager.cs:160-202 | In the turn's log every enemy comes before every trap |
| GameManager.EnemyPhaseAsRun | Assets/Scripts/GameManager.cs:122-123 | In the manager's own flow an offered trap's enemy phase is the countdown tick at phase start followed by Act, the order the finding below is about |
| GameManager.PlayerPhaseTrapNeverActs | Assets/Scripts/GameManager.cs:210-219 | A trap not set to act in the enemy phase is never offered Act in it |
| AttackProfile.Rings | Assets/Scripts/AttackProfile.cs:18-36 | The arm loop yields exactly the cells on the arms at distance r..range, four per iteration, without repetition |
| AttackProfile.Column | Assets/Scripts/AttackProfile.cs:38-51 | One column of an area loop yields exactly its cells, once each |
| AttackProfile.Columns | Assets/Scripts/AttackProfile.cs:38-51 | The area loops yield exactly the cells within the per-column bound, once each |
| AttackProfile.ShapeCells | Assets/Scripts/AttackProfile.cs:16-52 | After the origin, each shape yields exactly its own distance ball (Chebyshev for Square, Manhattan for Diamond, arms for Cross and DiagonalsOnly), once each |
| AttackProfile.EnumerateCells | Assets/Scripts/AttackProfile.cs:12-53 | The origin comes first; a cell is yielded iff it is the origin or in the shape; an arm shape yields 1 + 4·range cells |
| AttackProfile.ArmsNoDup | Assets/Scripts/AttackProfile.cs:18-36 | Cross and DiagonalsOnly never yield a cell twice |
| AttackProfile.AreaCounts | Assets/Scripts/AttackProfile.cs:38-51 | Square and Diamond yield the origin twice and every other cell of their ball once |
| AttackTileService.ArrowFor | Assets/Scripts/AttackTileService.cs:31-41 | The direction table has an arrow for exactly the eight unit directions |
| AttackTileService.ArrowDir | Assets/Scripts/AttackTileService.cs:31-41 | Every arrow points along a unit direction |
| AttackTileService.ArrowTableBijective | Assets/Scripts/AttackTileService.cs:31-41 | The table and the arrow's direction are inverse, so no two directions share an arrow |
| AttackTileService.ClearAll | Assets/Scripts/AttackTileService.cs:44-50 | Every assigned overlay is emptied, unassigned ones stay unassigned, and the tile references are kept |
| AttackTileService.EnemyLayersNested | Assets/Scripts/AttackTileService.cs:53-78 | A cell on enemy layer L + 1 is also on layer L |
| AttackTileService.PaintEnemyLayer | Assets/Scripts/AttackTileService.cs:60-77 | A layer gets the enemy symbol on exactly the cells counted more than L times, and keeps its other tiles |
| AttackTileService.PaintEnemyStaticLayered | Assets/Scripts/AttackTileService.cs:53-78 | Nothing without overlays or the symbol tile; otherwise layer L is painted by its threshold and only the enemy overlays change |
| AttackTileService.ArrowAt | Assets/Scripts/AttackTileService.cs:92-100 | A layer gets an arrow at a cell iff the cell's list reaches that layer and its direction has an assigned arrow, which points that way |
| AttackTileService.PaintTrapLayer | Assets/Scripts/AttackTileService.cs:87-102 | Every arrow due on the layer is painted and every other tile is kept |
| AttackTileService.PaintTrapArrowsLayered | Assets/Scripts/AttackTileService.cs:81-103 | Nothing without overlays; otherwise layer L gets each cell's L-th arrow and only the trap overlays change |
| AttackTileService.ClearedEnemyLayerExact | Assets/Scripts/AttackTileService.cs:60-77 | On a cleared overlay, enemy layer L shows exactly the cells counted more than L times |
| AttackTileService.ClearedTrapLayerExact | Assets/Scripts/AttackTileService.cs:87-102 | On a cleared overlay, trap layer L shows exactly the L-th arrows |
| AttackTileDirector.CountInto | Assets/Scripts/AttackTileDirector.cs:86-90 | Each cell's count grows by its number of occurrences, and only named cells become keys |
| AttackTileDirector.BuildEnemyCounts | Assets/Scripts/AttackTileDirector.cs:78-94 | A cell is a key iff some enemy previews it, and its count is the number of (enemy, preview cell) pairs naming it |
| AttackTileDirector.EnemyPreviews | Assets/Scripts/AttackTileDirector.cs:82-91 | The director gathers each enemy's own preview, in order |
| AttackTileDirector.FlattenCount | Assets/Scripts/AttackTileDirector.cs:82-91 | A cell's count over all enemies is the sum of its per-enemy counts |
| AttackTileDirector.DirOf | Assets/Scripts/AttackTileDirector.cs:108-111 | The clamped offset is a unit direction for every cell but the origin, and zero exactly there |
| AttackTileDirector.Rank | Assets/Scripts/AttackTileDirector.cs:128-139 | The display rank lies in 0..7 |
| AttackTileDirector.RankInjective | Assets/Scripts/AttackTileDirector.cs:128-139 | The rank is a bijection on the eight unit directions |
| AttackTileDirector.PairsOf | Assets/Scripts/AttackTileDirector.cs:105-120 | One trap contributes exactly its preview cells, each with its clamped non-zero direction |
| AttackTileDirector.Contributions | Assets/Scripts/AttackTileDirector.cs:101-121 | A (cell, direction) pair is collected iff some armed trap with a floor contributes it |
| AttackTileDirector.ContributionsStep | Assets/Scripts/AttackTileDirector.cs:101-121 | The pairs of the first trap and the rest make up the pairs of all traps |
| AttackTileDirector.AddDir | Assets/Scripts/AttackTileDirector.cs:113-119 | Adding a direction to a cell's list keeps the list duplicate-free and touches no other cell |
| AttackTileDirector.Collect | Assets/Scripts/AttackTileDirector.cs:101-121 | The lists hold exactly the collected directions per cell, without repetition |
| AttackTileDirector.Insert | Assets/Scripts/AttackTileDirector.cs:124-141 | Insertion adds exactly the one element |
| AttackTileDirector.InsertSorted | Assets/Scripts/AttackTileDirector.cs:124-141 | Insertion keeps a rank-sorted list sorted |
| AttackTileDirector.SortByRank | Assets/Scripts/AttackTileDirector.cs:124-141 | The sort is a permutation, sorted by rank when ranks are distinct |
| AttackTileDirector.SortStep | Assets/Scripts/AttackTileDirector.cs:124-141 | One insertion step keeps the permutation and the order |
| AttackTileDirector.UnitDirsRanksDistinct | Assets/Scripts/AttackTileDirector.cs:113-141 | Duplicate-free unit directions have distinct ranks |
| AttackTileDirector.SortedList | Assets/Scripts/AttackTileDirector.cs:124-141 | A collected list sorts into a non-empty, strictly rank-ordered list of the same directions |
| AttackTileDirector.BuildTrapDirs | Assets/Scripts/AttackTileDirector.cs:97-144 | A cell is a key iff some active trap threatens it; its list holds exactly the directions of those traps, each once, in rank order |
| AttackTileDirector.SortEachList | Assets/Scripts/AttackTileDirector.cs:124-141 | Sorting every collected list keeps its directions and orders it |
| AttackTileDirector.TrapDirsExact | Assets/Scripts/AttackTileDirector.cs:97-144 | A cell shows a direction iff an armed trap with a floor threatens it from that direction |
| AttackTileDirector.RayArrowsAlongRay | Assets/Scripts/AttackTileDirector.cs:108-111 | Every cell of a trap's ray records the ray's own direction |
| AttackTileDirector.InactiveTrapIgnored | Assets/Scripts/AttackTileDirector.cs:103 | A disarmed trap, or one without a floor, adds nothing to the overlays |
| AttackTileDirector.RefreshAll | Assets/Scripts/AttackTileDirector.cs:43-112 | Without a service nothing happens; when an armed trap with a floor but no wall tilemap makes its preview throw, the overlays are left as they were; otherwise every overlay slot and tile reference is kept, enemy layer L shows the enemy symbol exactly at the cells more than L enemy previews name (none without the symbol tile), and trap layer L shows exactly each threatened cell's L-th direction arrow, so nothing painted earlier survives |
| AttackTileDirector.RepaintExact | Assets/Scripts/AttackTileService.cs:60-102 | Clearing and then painting both kinds leaves each layer holding exactly its threshold cells and its L-th arrows, whatever was shown before |
| AttackTileDirector.RefreshForgetsOldTiles | Assets/Scripts/AttackTileDirector.cs:43-58 | A refresh that runs to the end depends only on which overlays exist, not on what they showed before; one stopped by a throwing preview keeps the old tiles |
| PlayerMover.Resolve | Assets/Scripts/PlayerMover.cs:41-116 | A click is ignored unless every gate is open and the action began; own cell stays; out of reach cancels; an attack or move goes to the clicked unit neighbour |
| PlayerMover.Consumes | Assets/Scripts/PlayerMover.cs:64-248 | A click leads to at most one ConsumeAction: stay consumes at once (line 71), a move when it lands (line 164), an attack after its delay (line 188, reached from the `finally` at line 248); an ignored or cancelled click consumes none |
| PlayerMover.ReachAndConsume | Assets/Scripts/PlayerMover.cs:64-114 | Every accepted click ends the turn with exactly one consumed action, and cancel consumes none |
| PlayerMover.AttackBeforeMove | Assets/Scripts/PlayerMover.cs:86-106 | An attackable neighbour is attacked even when it is open floor |
| PlayerMover.BlockedNeighbourCancels | Assets/Scripts/PlayerMover.cs:96-114 | A non-attackable neighbour cancels iff it is off the floor or blocked |
| PlayerMover.PerformAttack | Assets/Scripts/PlayerMover.cs:197-251 | An enemy takes exactly the attack power; otherwise a trap is force-armed with its countdown kept; bullets are not destroyed |
| PlayerMover.ForceArmEnablesFire | Assets/Scripts/PlayerMover.cs:234-238 | A force-armed trap due to fire fires at its next enemy phase even when it needs arming |
| Player.Toggle | Assets/Scripts/Player.cs:88-92 | A right click switches the mode |
| Player.ToggleInvolution | Assets/Scripts/Player.cs:88-92 | Two toggles restore the mode |
| Player.MoveClick | Assets/Scripts/Player.cs:48-80 | A move-phase click on the player's own floor cell stays, and on an open reachable floor cell moves; it never throws or attacks |
| Player.ActionClick | Assets/Scripts/Player.cs:105-142 | Search mode always throws; attack mode attacks iff the click is a unit neighbour |
| Player.Update | Assets/Scripts/Player.cs:36-145 | Gated on manager, input lock, movement and phase; with the gates open, the move phase does exactly the move-phase click for a left click and nothing otherwise, and the action phase, unless locked, toggles the mode on a right click and then does the action-phase click in the new mode for a left click |
| Player.AttackOnlyNeighbours | Assets/Scripts/Player.cs:132-142 | Attack mode never targets the player's own cell, only a unit neighbour |
| Player.ToggleBeforeClick | Assets/Scripts/Player.cs:87-105 | A right and a left click in one frame act in the toggled mode |
| Player.PerformAttack | Assets/Scripts/Player.cs:225-273 | A bullet-tagged target is destroyed; otherwise an enemy takes exactly the attack power; traps are never armed |
| Player.RevisionsCompared | Assets/Scripts/Player.cs:255-265 | The two revisions agree on an untagged enemy and differ on a trap, which only the single-phase revision arms |
| Player.ActionAdvancesPhase | Assets/Scripts/Player.cs:199-217 | An action followed by its NextState advances move → action and action → enemy |

## Left out

- Coroutine timing: the banner wait, move animations, delays and `WaitForSeconds` are left out. A coroutine becomes its state change. The phase switch is split at its wait into `BeginSwitch` and `CompleteSwitch`. With a banner, the switch into PlayerAction has no wait (GameManager.cs:99-112 yields only for PlayerMove and EnemyTurn), yet the model still splits it; a caller must then apply `CompleteSwitch` directly after `BeginSwitch`, with nothing in between.
- Physics, tilemaps and rendering: overlap queries, layer masks, `WorldToCell`, sprites, animators, audio, click effects, the HP user interface and the damage flash. They appear only as cell sets or parameters.
- Floating point: the enemy's "closer" test compares squared integer distances. These order cells the same way as the source's float distances.
- GameManager's `Update`, `Retry` and the time-scale and scene reload in `GameOverRoutine` are left out: they only restart the scene. The rest of `GameOverRoutine` is modelled as the game-over latch and the input lock.
- `TrapBaseSequenced.IsReadyToAct`: it returns true in TrapBaseSequenced.cs (line 74) and neither TrapRayOrthoTrap nor TrapRayDiagonalTrap overrides it; it is kept as a parameter so that a trap kind overriding it is covered.
- `TryBeginAction` and `ConsumeAction` of the single-phase revision are not defined in GameManager.cs, so what they do is not part of this model. `TryBeginAction`'s answer is a parameter. The number of `ConsumeAction` calls is stated by `PlayerMover.Consumes`.
- Whether a cancelled click gives its `TryBeginAction` reservation back is not modelled: `CancelBegunAction` (PlayerMover.cs:127-136) only ignores input for one frame and calls nothing on GameManager, and the release, if any, would be inside `TryBeginAction`.
- `ForceArm` is called by the single-phase revision (PlayerMover.cs:236), but TrapBaseSequenced.cs defines no `ForceArm`. It is modelled as arming without the trigger test.
- The `TurnState` declaration is not modelled: its values are taken from their uses in GameManager.cs, PlayerMover.cs and TurnSignal.cs, and the fourth value is `PlayerTurn`.
- Rays.TrapBlocks: a blocking trap is any other trap whose cell is in the board's trap positions. With a trap block layer set, the source asks only the one collider the overlap returns on the cell (TrapBaseSequenced.cs:276-286). The model assumes that layer holds only trap colliders and never this trap's own. The fallback scan also skips traps without a floor tilemap (line 294); such traps are simply absent from the trap positions.
- The exception a trap preview throws when its trap has a floor but no wall tilemap is modelled only as `AttackTileDirector.PreviewThrows` stopping `RefreshAll` before it clears anything. What the exception does to the caller is not modelled. For the manager's switch, that caller is the `SwitchPhase` coroutine.
- The enemy turn takes what each actor does as a parameter:
  - an enemy's damage to the player is the outcome of `TryMoveTowardPlayer`;
  - a trap's fire is a `GameManager.Fire`: the `TrapAttack.DoAttack` effects over the board of that moment, and the trap's power.

  The manager does not track the board (positions after the enemies moved, bullets), so the model does not tie a fire to its trap's rays; `GameManager.TrapFireHitsEachEnemyOnce` connects one fire's `DoAttack` to its damage. Bullets a fire destroys are not tracked by the manager.

  An enemy or trap destroyed while the enemy loop runs is not modelled: no code in the game destroys a trap, and during the enemy turn an enemy dies only from trap fire, which comes after the enemy loop; an enemy killed by a fire leaves the registry as `GameManager.DamageEnemies` states.
- `ApplyTrapFire` applies a fire's enemy damage, then its player damage, not interleaved per cell. Within one fire the two are independent.
- Null and empty overlay arrays are one case (an empty sequence). An unassigned overlay slot is `None`.
- The overlay slots are assumed to be distinct Tilemaps: each slot has its own tile set. The inspector arrays (AttackTileService.cs:10 and 14) may name one Tilemap in two slots, or in both arrays; then it would show the union of what each slot is painted, and clearing one slot would clear the other. That aliasing is not modelled.
- Enemy movement does not check the floor or walls: the code tests only for the player, obstacles and bullets (EnemyAIBase.cs:103-121), and the model does the same.
- GameManager.TakeDamage: states HP bounds only for non-negative damage within [0, maxHP], because the source does not validate its argument and a negative hit raises HP.
- GameManager.Heal: a negative amount is passed through as in the source, which can lower HP without ending the game. The contract states the bound only for non-negative amounts.

## Findings

| source | as written | input that shows it | evidently intended | confidence | as-written member | corrected member |
|---|---|---|---|---|---|---|
| Assets/Scripts/Trap/TrapBaseSequenced.cs:126-131 | The countdown is ticked when an enemy phase starts (GameManager.cs:122-123), before that phase's `Act`. After a fire it is reloaded to intervalTurns − 1, so the tick of the next phase already counts. | A trap that acts on the enemy turn and not on the player turn (the default, TrapBaseSequenced.cs:14), needing no arming, intervalTurns = 3: after a fire it fires again in the 2nd round (a trap also acting on the player turn, whose move phases tick it too, in the 1st) | Fires once every intervalTurns enemy phases, i.e. in the 3rd, as the field's tooltip (line 53) and the reload's comment (line 128) describe | not executed | TrapCycle.IntervalThreeFiresEverySecondPhase | TrapCycle.IntendedPeriod |

The manager model keeps the code's order (`GameManager.EnemyPhaseAsRun` proves that an offered trap's enemy phase is exactly `TrapCycle.EnemyPhase`), so the manager's rows stay faithful to GameManager.cs. The corrected per-phase step is `TrapCycle.EnemyPhaseIntended`: the countdown is consumed only by phases in which the trap does not fire. A round is one move phase, one action phase and one enemy phase (`TrapCycle.Round`); only the enemy phase offers `Act`, and the player's phases tick only a trap that also acts on the player turn. With the corrected step, a counter of k means k silent rounds for a trap that does not act on the player turn (`TrapCycle.CountdownIntended`), which also gives initialOffset its documented meaning. For a trap that does, the tooltip does not say whether its move phases count as turns; the corrected step keeps the source's move-phase tick, so they do.

=== FILE: attack_profile.dfy ===
/** AttackProfile.EnumerateCells: the cells an attack of a given shape and
    range covers around an origin. The origin always comes first; the
    Square and Diamond loops then yield it a second time. */
module AttackProfile {
  import opened Grid
  import opened Seqs

  datatype Shape = Cross | DiagonalsOnly | Square | Diamond

  /** A cell on the plus-shaped arms at a distance in [lo, hi]. */
  predicate OnCross(o: Cell, c: Cell, lo: int, hi: int) {
    (c.y == o.y && lo <= Abs(c.x - o.x) <= hi) || (c.x == o.x && lo <= Abs(c.y - o.y) <= hi)
  }

  /** A cell on the X-shaped arms at a distance in [lo, hi]. */
  predicate OnDiagonals(o: Cell, c: Cell, lo: int, hi: int) {
    Abs(c.x - o.x) == Abs(c.y - o.y) && lo <= Abs(c.x - o.x) <= hi
  }

  /** The four cells yielded by one iteration of the Cross or the
      DiagonalsOnly loop. */
  function Ring(diagonal: bool, o: Cell, r: int): seq<Cell> {
    if diagonal then [Cell(o.x + r, o.y + r), Cell(o.x + r, o.y - r), Cell(o.x - r, o.y + r), Cell(o.x - r, o.y - r)]
    else [Cell(o.x + r, o.y), Cell(o.x - r, o.y), Cell(o.x, o.y + r), Cell(o.x, o.y - r)]
  }

  /** The iterations `r..range` of the Cross (or DiagonalsOnly) loop. */
  function Rings(diagonal: bool, o: Cell, r: int, range: int): (s: seq<Cell>)
    requires r >= 1
    ensures |s| == 4 * Max(range - r + 1, 0)
    ensures forall c :: c in s <==> if diagonal then OnDiagonals(o, c, r, range) else OnCross(o, c, r, range)
    ensures NoDup(s)
    decreases range - r + 1
  {
    if r > range then []
    else
      var ring := Ring(diagonal, o, r);
      var rest := Rings(diagonal, o, r + 1, range);
      assert forall c :: c in ring <==> if diagonal then OnDiagonals(o, c, r, r) else OnCross(o, c, r, r);
      NoDupAppend(ring, rest);
      ring + rest
  }

  /** One column of the Square or Diamond loop: offset `x`, offsets
      `y..yHi` upwards. */
  function Column(o: Cell, x: int, y: int, yHi: int): (s: seq<Cell>)
    ensures |s| == Max(yHi - y + 1, 0)
    ensures forall c :: c in s <==> c.x == o.x + x && y <= c.y - o.y <= yHi
    ensures NoDup(s)
    decreases yHi - y + 1
  {
    if y > yHi then []
    else
      var rest := Column(o, x, y + 1, yHi);
      NoDupAppend([Cell(o.x + x, o.y + y)], rest);
      [Cell(o.x + x, o.y + y)] + rest
  }

  /** Columns `x..xHi` of the Square or Diamond loop, column `k` spanning
      the offsets `-bound(k)..bound(k)`. */
  function Columns(o: Cell, x: int, xHi: int, bound: int -> int): (s: seq<Cell>)
    ensures forall c :: c in s <==>
              x <= c.x - o.x <= xHi && -bound(c.x - o.x) <= c.y - o.y <= bound(c.x - o.x)
    ensures NoDup(s)
    decreases xHi - x + 1
  {
    if x > xHi then []
    else
      var col := Column(o, x, -bound(x), bound(x));
      var rest := Columns(o, x + 1, xHi, bound);
      NoDupAppend(col, rest);
      col + rest
  }

  /** The column heights of the two area shapes: constant for Square,
      `range - |x|` for Diamond. */
  function AreaBound(shape: Shape, range: int): int -> int {
    if shape == Square then x => range else x => range - Abs(x)
  }

  /** The shape's own distance bound, as its comment in the source names
      it; the origin itself is excluded for the two arm shapes. */
  predicate InShape(shape: Shape, o: Cell, c: Cell, range: int) {
    match shape
    case Cross => OnCross(o, c, 1, range)
    case DiagonalsOnly => OnDiagonals(o, c, 1, range)
    case Square => Chebyshev(o, c) <= range
    case Diamond => Manhattan(o, c) <= range
  }

  /** What the switch yields after the origin. */
  function ShapeCells(shape: Shape, range: int, o: Cell): (s: seq<Cell>)
    ensures forall c :: c in s <==> InShape(shape, o, c, range)
    ensures NoDup(s)
  {
    match shape
    case Cross => Rings(false, o, 1, range)
    case DiagonalsOnly => Rings(true, o, 1, range)
    case Square =>
      var s := Columns(o, -range, range, AreaBound(Square, range));
      forall c ensures c in s <==> Chebyshev(o, c) <= range {
        assert Abs(o.x - c.x) == Abs(c.x - o.x) && Abs(o.y - c.y) == Abs(c.y - o.y);
      }
      s
    case Diamond =>
      var s := Columns(o, -range, range, AreaBound(Diamond, range));
      forall c ensures c in s <==> Manhattan(o, c) <= range {
        assert Abs(o.x - c.x) == Abs(c.x - o.x) && Abs(o.y - c.y) == Abs(c.y - o.y);
      }
      s
  }

  /** EnumerateCells: the origin, then the shape's cells. */
  function EnumerateCells(shape: Shape, range: int, o: Cell): (s: seq<Cell>)
    ensures |s| >= 1 && s[0] == o
    ensures forall c :: c in s <==> c == o || InShape(shape, o, c, range)
    ensures forall i :: 1 <= i < |s| ==> InShape(shape, o, s[i], range)
    ensures (shape == Cross || shape == DiagonalsOnly) ==> |s| == 1 + 4 * Max(range, 0)
  {
    var body := ShapeCells(shape, range, o);
    assert forall i :: 1 <= i < |[o] + body| ==> ([o] + body)[i] == body[i - 1];
    [o] + body
  }

  /** Cross and DiagonalsOnly never repeat a cell: the origin is at
      distance zero and every ring at its own positive distance. */
  lemma ArmsNoDup(shape: Shape, range: int, o: Cell)
    requires shape == Cross || shape == DiagonalsOnly
    ensures NoDup(EnumerateCells(shape, range, o))
    ensures forall c :: c in EnumerateCells(shape, range, o) ==> Count(EnumerateCells(shape, range, o), c) == 1
  {
    var body := ShapeCells(shape, range, o);
    assert !InShape(shape, o, o, range);
    NoDupAppend([o], body);
    forall c | c in EnumerateCells(shape, range, o)
      ensures Count(EnumerateCells(shape, range, o), c) == 1
    {
      NoDupCountOne(EnumerateCells(shape, range, o), c);
    }
  }

  /** Square and Diamond cover exactly their distance ball, every cell
      once except the origin, which is yielded twice. */
  lemma AreaCounts(shape: Shape, range: int, o: Cell, c: Cell)
    requires shape == Square || shape == Diamond
    requires range >= 0
    ensures c in EnumerateCells(shape, range, o) <==> InShape(shape, o, c, range)
    ensures c == o ==> Count(EnumerateCells(shape, range, o), c) == 2
    ensures c != o && InShape(shape, o, c, range) ==> Count(EnumerateCells(shape, range, o), c) == 1
    ensures !InShape(shape, o, c, range) ==> Count(EnumerateCells(shape, range, o), c) == 0
  {
    var body := ShapeCells(shape, range, o);
    CountAppend([o], body, c);
    assert EnumerateCells(shape, range, o) == [o] + body;
    assert Count([o], c) == (if o == c then 1 else 0) by {
      assert [o][1..] == [];
    }
    if c in body {
      NoDupCountOne(body, c);
    } else {
      CountPositiveIffIn(body, c);
    }
  }
}

=== FILE: attack_tile_director.dfy ===
/** AttackTileDirector: gathers what the overlays should show (how many
    enemies threaten each cell, and from which directions armed traps
    threaten it) and repaints the AttackTileService from scratch. */
module AttackTileDirector {
  import opened Wrappers
  import opened Grid
  import opened Seqs
  import EnemyAI
  import Rays
  import Svc = AttackTileService

  // ---------------------------------------------------------------------
  // Enemy threat counts
  // ---------------------------------------------------------------------

  /** All enemies' preview cells, one enemy after the other. */
  function Flatten(previews: seq<seq<Cell>>): seq<Cell>
    decreases |previews|
  {
    if previews == [] then [] else previews[0] + Flatten(previews[1..])
  }

  /** Adds one to the count of each cell, starting from `m`. */
  function CountInto(m: map<Cell, int>, cells: seq<Cell>): (r: map<Cell, int>)
    ensures r.Keys == m.Keys + set c | c in cells
    ensures forall c :: c in r ==> r[c] == (if c in m then m[c] else 0) + Count(cells, c)
    decreases |cells|
  {
    if cells == [] then m
    else
      var c0 := cells[0];
      var m1 := m[c0 := if c0 in m then m[c0] + 1 else 1];
      var r := CountInto(m1, cells[1..]);
      assert forall c :: c in cells <==> c == c0 || c in cells[1..];
      r
  }

  /** BuildEnemyCounts: each cell's count is the number of (enemy, preview
      cell) pairs naming it; only counted cells are keys. */
  function BuildEnemyCounts(previews: seq<seq<Cell>>): (r: map<Cell, int>)
    ensures forall c :: c in r <==> c in Flatten(previews)
    ensures forall c :: c in r ==> r[c] == Count(Flatten(previews), c) && r[c] >= 1
  {
    var r := CountInto(map[], Flatten(previews));
    forall c | c in r ensures r[c] >= 1 {
      CountPositiveIffIn(Flatten(previews), c);
    }
    r
  }

  /** An enemy as the director finds it. */
  datatype EnemyView = EnemyView(variant: EnemyAI.Variant, hasTilemap: bool, cell: Cell)

  /** Each enemy's `GetAttackCellsPreview`. */
  function EnemyPreviews(es: seq<EnemyView>): (r: seq<seq<Cell>>)
    ensures |r| == |es|
    ensures forall i :: 0 <= i < |es| ==> r[i] == EnemyAI.GetAttackCellsPreview(es[i].variant, es[i].hasTilemap, es[i].cell)
  {
    seq(|es|, i requires 0 <= i < |es| => EnemyAI.GetAttackCellsPreview(es[i].variant, es[i].hasTilemap, es[i].cell))
  }

  /** Flattening adds counts: the count of a cell over all enemies is the
      sum of its counts over each enemy's preview. */
  lemma {:induction false} FlattenCount(previews: seq<seq<Cell>>, c: Cell)
    requires |previews| > 0
    ensures Count(Flatten(previews), c) == Count(previews[0], c) + Count(Flatten(previews[1..]), c)
  {
    CountAppend(previews[0], Flatten(previews[1..]), c);
  }

  // ---------------------------------------------------------------------
  // Trap directions
  // ---------------------------------------------------------------------

  /** The direction recorded for a cell of a trap at `o`: the offset
      clamped to [-1, 1] on each axis. */
  function DirOf(o: Cell, c: Cell): (d: Cell)
    ensures -1 <= d.x <= 1 && -1 <= d.y <= 1
    ensures d == Origin <==> c == o
    ensures d != Origin ==> IsUnitDir(d)
  {
    Cell(Clamp(c.x - o.x, -1, 1), Clamp(c.y - o.y, -1, 1))
  }

  /** The fixed display order: up, right, down, left, then (1,1), (1,-1),
      (-1,1), and everything else last. */
  function Rank(d: Cell): (r: nat)
    ensures r <= 7
  {
    if d == Cell(0, 1) then 0
    else if d == Cell(1, 0) then 1
    else if d == Cell(0, -1) then 2
    else if d == Cell(-1, 0) then 3
    else if d == Cell(1, 1) then 4
    else if d == Cell(1, -1) then 5
    else if d == Cell(-1, 1) then 6
    else 7
  }

  /** On the eight unit directions the rank is a bijection onto 0..7; in
      particular (-1,-1) alone takes the catch-all rank. */
  lemma RankInjective(a: Cell, b: Cell)
    requires IsUnitDir(a) && IsUnitDir(b) && Rank(a) == Rank(b)
    ensures a == b
  {
  }

  /** A trap as the director finds it: whether it has a floor tilemap and
      a wall tilemap, whether it is armed, its cell and its `PreviewCells`
      (meaningful when it has both tilemaps). */
  datatype TrapView = TrapView(hasFloor: bool, hasWalls: bool, armed: bool, origin: Cell, preview: seq<Cell>)

  /** The director asks every armed trap with a floor for its preview, but
      only the floor is checked: a trap kind's rays read the wall tilemap
      at their first cell, so a trap without one throws, and the exception
      leaves the collection unfinished. */
  predicate PreviewThrows(traps: seq<TrapView>) {
    exists i :: 0 <= i < |traps| && traps[i].hasFloor && traps[i].armed && !traps[i].hasWalls
  }

  /** Trap `t` records direction `d` at cell `c`. */
  predicate Contributes(t: TrapView, c: Cell, d: Cell) {
    t.hasFloor && t.armed && c in t.preview && d == DirOf(t.origin, c) && d != Origin
  }

  /** The (cell, direction) pairs of one trap's preview, zero directions
      skipped. */
  function PairsOf(o: Cell, cells: seq<Cell>): (r: seq<(Cell, Cell)>)
    ensures forall p :: p in r <==> p.0 in cells && p.1 == DirOf(o, p.0) && p.1 != Origin
    decreases |cells|
  {
    if cells == [] then []
    else
      var d := DirOf(o, cells[0]);
      var rest := PairsOf(o, cells[1..]);
      assert forall c :: c in cells <==> c == cells[0] || c in cells[1..];
      (if d == Origin then [] else [(cells[0], d)]) + rest
  }

  /** Every pair contributed by the traps, in the order they are visited;
      a disarmed trap or one without a floor adds nothing. */
  function Contributions(traps: seq<TrapView>): (r: seq<(Cell, Cell)>)
    ensures forall c, d :: (c, d) in r <==> exists i :: 0 <= i < |traps| && Contributes(traps[i], c, d)
    ensures forall p :: p in r ==> IsUnitDir(p.1)
    decreases |traps|
  {
    if traps == [] then []
    else
      var t := traps[0];
      var own := if t.hasFloor && t.armed then PairsOf(t.origin, t.preview) else [];
      var rest := Contributions(traps[1..]);
      ContributionsStep(traps, own, rest);
      own + rest
  }

  lemma ContributionsStep(traps: seq<TrapView>, own: seq<(Cell, Cell)>, rest: seq<(Cell, Cell)>)
    requires traps != []
    requires forall c, d :: (c, d) in own <==> Contributes(traps[0], c, d)
    requires forall c, d :: (c, d) in rest <==> exists i :: 0 <= i < |traps[1..]| && Contributes(traps[1..][i], c, d)
    ensures forall c, d :: (c, d) in own + rest <==> exists i :: 0 <= i < |traps| && Contributes(traps[i], c, d)
  {
    forall c, d ensures (c, d) in own + rest <==> exists i :: 0 <= i < |traps| && Contributes(traps[i], c, d) {
      if (c, d) in rest {
        var i :| 0 <= i < |traps[1..]| && Contributes(traps[1..][i], c, d);
        assert Contributes(traps[i + 1], c, d);
      }
      if i :| 0 <= i < |traps| && Contributes(traps[i], c, d) {
        if i > 0 {
          assert Contributes(traps[1..][i - 1], c, d);
        }
      }
    }
  }

  /** The cells named by a list of pairs. */
  function KeysOf(pairs: seq<(Cell, Cell)>): set<Cell> {
    set p | p in pairs :: p.0
  }

  /** Every list is duplicate-free and non-empty. */
  predicate ListsWellFormed(m: map<Cell, seq<Cell>>) {
    forall c :: c in m ==> NoDup(m[c]) && m[c] != []
  }

  /** Adds direction `d` to the list of cell `c`, unless already there. */
  function AddDir(m: map<Cell, seq<Cell>>, c: Cell, d: Cell): (r: map<Cell, seq<Cell>>)
    ensures r.Keys == m.Keys + {c}
    ensures forall e :: e in r[c] <==> (c in m && e in m[c]) || e == d
    ensures forall k :: k in m && k != c ==> r[k] == m[k]
    ensures ListsWellFormed(m) ==> ListsWellFormed(r)
  {
    var prior := if c in m then m[c] else [];
    m[c := AddIfAbsent(prior, d)]
  }

  /** The direction lists after visiting `pairs`, starting from `m`. */
  function Collect(m: map<Cell, seq<Cell>>, pairs: seq<(Cell, Cell)>): (r: map<Cell, seq<Cell>>)
    ensures r.Keys == m.Keys + KeysOf(pairs)
    ensures forall c, d :: c in r ==> (d in r[c] <==> (c in m && d in m[c]) || (c, d) in pairs)
    ensures ListsWellFormed(m) ==> ListsWellFormed(r)
    decreases |pairs|
  {
    if pairs == [] then m
    else
      var m1 := AddDir(m, pairs[0].0, pairs[0].1);
      var r := Collect(m1, pairs[1..]);
      CollectStep(m, m1, r, pairs);
      r
  }

  /** One pair visited: what the lists hold after the rest of the pairs,
      starting from the lists with the first pair added, is what they hold
      after all of them. */
  lemma CollectStep(m: map<Cell, seq<Cell>>, m1: map<Cell, seq<Cell>>, r: map<Cell, seq<Cell>>,
                    pairs: seq<(Cell, Cell)>)
    requires pairs != []
    requires m1 == AddDir(m, pairs[0].0, pairs[0].1)
    requires r.Keys == m1.Keys + KeysOf(pairs[1..])
    requires forall c, d :: c in r ==> (d in r[c] <==> (c in m1 && d in m1[c]) || (c, d) in pairs[1..])
    ensures r.Keys == m.Keys + KeysOf(pairs)
    ensures forall c, d :: c in r ==> (d in r[c] <==> (c in m && d in m[c]) || (c, d) in pairs)
  {
    KeysOfCons(pairs);
    forall c, d | c in r
      ensures d in r[c] <==> (c in m && d in m[c]) || (c, d) in pairs
    {
      PairsCons(pairs, (c, d));
      assert d in r[c] <==> (c in m1 && d in m1[c]) || (c, d) in pairs[1..];
      if c != pairs[0].0 {
        assert c in m1 <==> c in m;
        assert c in m ==> m1[c] == m[c];
      }
    }
  }

  /** The cells named by a non-empty list of pairs. */
  lemma KeysOfCons(pairs: seq<(Cell, Cell)>)
    requires pairs != []
    ensures KeysOf(pairs) == {pairs[0].0} + KeysOf(pairs[1..])
  {
    forall p | p in pairs ensures p == pairs[0] || p in pairs[1..] {
      PairsCons(pairs, p);
    }
  }

  /** Membership in a non-empty list of pairs. */
  lemma PairsCons(pairs: seq<(Cell, Cell)>, p: (Cell, Cell))
    requires pairs != []
    ensures p in pairs <==> p == pairs[0] || p in pairs[1..]
  {
    assert pairs == [pairs[0]] + pairs[1..];
  }

  /** Strictly increasing rank. */
  predicate RankSorted(s: seq<Cell>) {
    forall i, j :: 0 <= i < j < |s| ==> Rank(s[i]) < Rank(s[j])
  }

  /** No two elements share a rank. */
  predicate RanksDistinct(s: seq<Cell>) {
    forall i, j :: 0 <= i < j < |s| ==> Rank(s[i]) != Rank(s[j])
  }

  /** Inserts `x` before the first element of higher rank. */
  function Insert(x: Cell, s: seq<Cell>): (r: seq<Cell>)
    ensures multiset(r) == multiset(s) + multiset{x}
    ensures forall y :: y in r <==> y == x || y in s
    decreases |s|
  {
    if s == [] || Rank(x) < Rank(s[0]) then [x] + s
    else
      assert s == [s[0]] + s[1..];
      [s[0]] + Insert(x, s[1..])
  }

  /** The tail of a rank-sorted list is sorted and ranks above its head. */
  lemma TailSorted(s: seq<Cell>)
    requires s != [] && RankSorted(s)
    ensures RankSorted(s[1..])
    ensures forall y :: y in s[1..] ==> Rank(s[0]) < Rank(y)
  {
    var tail := s[1..];
    forall i, j | 0 <= i < j < |tail| ensures Rank(tail[i]) < Rank(tail[j]) {
      assert tail[i] == s[i + 1] && tail[j] == s[j + 1];
    }
    forall y | y in tail ensures Rank(s[0]) < Rank(y) {
      var k :| 0 <= k < |tail| && tail[k] == y;
      assert s[k + 1] == y;
    }
  }

  /** A head ranked below every element of a sorted list keeps it sorted. */
  lemma ConsSorted(a: Cell, t: seq<Cell>)
    requires RankSorted(t) && forall y :: y in t ==> Rank(a) < Rank(y)
    ensures RankSorted([a] + t)
  {
    var r := [a] + t;
    forall i, j | 0 <= i < j < |r| ensures Rank(r[i]) < Rank(r[j]) {
      assert r[j] == t[j - 1];
      if i > 0 {
        assert r[i] == t[i - 1];
      }
    }
  }

  /** Insertion keeps a rank-sorted list sorted when the new rank is not
      already present. */
  lemma {:induction false} InsertSorted(x: Cell, s: seq<Cell>)
    requires RankSorted(s) && forall y :: y in s ==> Rank(y) != Rank(x)
    ensures RankSorted(Insert(x, s))
    decreases |s|
  {
    if s == [] {
      ConsSorted(x, s);
    } else {
      TailSorted(s);
      assert s == [s[0]] + s[1..];
      if Rank(x) < Rank(s[0]) {
        ConsSorted(x, s);
      } else {
        InsertSorted(x, s[1..]);
        ConsSorted(s[0], Insert(x, s[1..]));
      }
    }
  }

  /** The comparison sort of each list, by rank. */
  function SortByRank(s: seq<Cell>): (r: seq<Cell>)
    ensures multiset(r) == multiset(s)
    ensures RanksDistinct(s) ==> RankSorted(r)
    decreases |s|
  {
    if s == [] then []
    else
      var rest := SortByRank(s[1..]);
      SortStep(s, rest);
      Insert(s[0], rest)
  }

  /** One step of the sort: distinct ranks survive on the tail, and the
      head's rank is not among the sorted tail's, so inserting it keeps
      the order. */
  lemma SortStep(s: seq<Cell>, rest: seq<Cell>)
    requires s != [] && multiset(rest) == multiset(s[1..])
    requires RanksDistinct(s[1..]) ==> RankSorted(rest)
    ensures multiset(Insert(s[0], rest)) == multiset(s)
    ensures RanksDistinct(s) ==> RankSorted(Insert(s[0], rest))
  {
    assert s == [s[0]] + s[1..];
    if RanksDistinct(s) {
      forall i, j | 0 <= i < j < |s[1..]| ensures Rank(s[1..][i]) != Rank(s[1..][j]) {
        assert s[1..][i] == s[i + 1] && s[1..][j] == s[j + 1];
      }
      forall y | y in rest ensures Rank(y) != Rank(s[0]) {
        assert multiset(rest)[y] > 0;
        var k :| 0 <= k < |s[1..]| && s[1..][k] == y;
        assert s[k + 1] == y;
      }
      InsertSorted(s[0], rest);
    }
  }

  /** Duplicate-free unit directions have pairwise distinct ranks. */
  lemma UnitDirsRanksDistinct(s: seq<Cell>)
    requires NoDup(s) && forall d :: d in s ==> IsUnitDir(d)
    ensures RanksDistinct(s)
  {
    forall i, j | 0 <= i < j < |s| ensures Rank(s[i]) != Rank(s[j]) {
      if Rank(s[i]) == Rank(s[j]) {
        RankInjective(s[i], s[j]);
      }
    }
  }

  /** Sorting a well-formed list of unit directions gives a non-empty,
      strictly rank-ordered list of the same directions. */
  lemma SortedList(l: seq<Cell>)
    requires NoDup(l) && l != [] && forall d :: d in l ==> IsUnitDir(d)
    ensures SortByRank(l) != [] && RankSorted(SortByRank(l))
    ensures forall d :: d in SortByRank(l) <==> d in l
  {
    UnitDirsRanksDistinct(l);
    var r := SortByRank(l);
    assert |r| == |l|;
    forall d ensures d in r <==> d in l {
      assert d in r <==> multiset(r)[d] > 0;
      assert d in l <==> multiset(l)[d] > 0;
    }
  }

  /** BuildTrapDirs, when it runs to the end (see `PreviewThrows`): the
      keys are the cells some contributing trap threatens; each list holds
      exactly the directions contributed for its cell, each once, in strict
      rank order. */
  function BuildTrapDirs(traps: seq<TrapView>): (r: map<Cell, seq<Cell>>)
    ensures r.Keys == KeysOf(Contributions(traps))
    ensures forall c, d :: c in r ==> (d in r[c] <==> (c, d) in Contributions(traps))
    ensures forall c :: c in r ==> r[c] != [] && RankSorted(r[c])
  {
    var pairs := Contributions(traps);
    var collected := Collect(map[], pairs);
    SortEachList(collected, pairs);
    SortLists(collected)
  }

  /** Each collected list in rank order, under the same key. */
  function SortLists(collected: map<Cell, seq<Cell>>): (r: map<Cell, seq<Cell>>)
    ensures r.Keys == collected.Keys
    ensures forall c :: c in r ==> r[c] == SortByRank(collected[c])
  {
    map c | c in collected :: SortByRank(collected[c])
  }

  /** The sort step of BuildTrapDirs, on lists collected from `pairs`. */
  lemma SortEachList(collected: map<Cell, seq<Cell>>, pairs: seq<(Cell, Cell)>)
    requires ListsWellFormed(collected)
    requires forall c, d :: c in collected ==> (d in collected[c] <==> (c, d) in pairs)
    requires forall p :: p in pairs ==> IsUnitDir(p.1)
    ensures forall c :: c in collected ==>
              var l := SortByRank(collected[c]);
              l != [] && RankSorted(l) && forall d :: d in l <==> (c, d) in pairs
  {
    forall c | c in collected
      ensures var l := SortByRank(collected[c]);
              l != [] && RankSorted(l) && forall d :: d in l <==> (c, d) in pairs
    {
      forall d | d in collected[c] ensures IsUnitDir(d) {
        assert (c, d) in pairs;
      }
      SortedList(collected[c]);
    }
  }

  /** A cell is shown with a direction iff some armed trap with a floor
      tilemap threatens it from that direction. */
  lemma TrapDirsExact(traps: seq<TrapView>, c: Cell, d: Cell)
    ensures (c in BuildTrapDirs(traps) && d in BuildTrapDirs(traps)[c])
            <==> exists i :: 0 <= i < |traps| && Contributes(traps[i], c, d)
  {
    var pairs := Contributions(traps);
    if (c, d) in pairs {
      assert c in KeysOf(pairs);
    }
  }

  /** A ray trap's arrows point along its rays: every cell of the ray cast
      in direction `dir` is recorded with direction `dir`. */
  lemma RayArrowsAlongRay(b: Rays.Board, self: nat, origin: Cell, dir: Cell, i: nat)
    requires Rays.Valid(b) && Rays.RayDir(dir)
    requires i < |Rays.RayCells(b, self, origin, dir)|
    ensures DirOf(origin, Rays.RayCells(b, self, origin, dir)[i]) == dir
  {
    var c := Rays.RayCells(b, self, origin, dir)[i];
    assert c == Step(origin, dir, i + 1);
    ClampMultiple(i + 1, dir.x);
    ClampMultiple(i + 1, dir.y);
  }

  /** A positive multiple of a unit offset clamps back to the offset. */
  lemma ClampMultiple(k: int, u: int)
    requires k >= 1 && -1 <= u <= 1
    ensures Clamp(k * u, -1, 1) == u
  {
    if u == 1 {
      assert k * u == k;
    } else if u == -1 {
      assert k * u == -k;
    } else {
      assert k * u == 0;
    }
  }

  /** A disarmed trap, or one without a floor tilemap, shows nothing: it
      can be dropped from the list without changing the result. */
  lemma InactiveTrapIgnored(t: TrapView, traps: seq<TrapView>)
    requires !t.armed || !t.hasFloor
    ensures BuildTrapDirs([t] + traps) == BuildTrapDirs(traps)
  {
    assert ([t] + traps)[1..] == traps;
    assert Contributions([t] + traps) == Contributions(traps);
  }

  // ---------------------------------------------------------------------
  // Repaint
  // ---------------------------------------------------------------------

  /** The service cleared and repainted from the given counts and
      directions. */
  function Repaint(s: Svc.Service, counts: map<Cell, int>, dirs: map<Cell, seq<Cell>>): Svc.Service {
    Svc.PaintTrapArrowsLayered(Svc.PaintEnemyStaticLayered(Svc.ClearAll(s), counts), dirs)
  }

  /** What a repaint shows, layer by layer: the overlay slots and tile
      references are kept; enemy layer L holds the symbol at exactly the
      cells counted more than L times (nothing if the symbol tile is
      missing); trap layer L holds at exactly the cells with an L-th
      direction that direction's arrow. Nothing painted before survives. */
  lemma RepaintExact(s: Svc.Service, counts: map<Cell, int>, dirs: map<Cell, seq<Cell>>)
    ensures var r := Repaint(s, counts, dirs);
            r.enemyTileSet == s.enemyTileSet && r.arrowsSet == s.arrowsSet
            && |r.enemyOverlays| == |s.enemyOverlays| && |r.trapOverlays| == |s.trapOverlays|
    ensures var r := Repaint(s, counts, dirs);
            forall L :: 0 <= L < |r.enemyOverlays| ==> (r.enemyOverlays[L].Some? <==> s.enemyOverlays[L].Some?)
    ensures var r := Repaint(s, counts, dirs);
            forall L :: 0 <= L < |r.trapOverlays| ==> (r.trapOverlays[L].Some? <==> s.trapOverlays[L].Some?)
    ensures var r := Repaint(s, counts, dirs);
            forall L: nat, c :: L < |r.enemyOverlays| && r.enemyOverlays[L].Some? ==>
              (c in r.enemyOverlays[L].value <==> s.enemyTileSet && c in counts && counts[c] > L)
              && (c in r.enemyOverlays[L].value ==> r.enemyOverlays[L].value[c] == Svc.EnemyMark)
    ensures var r := Repaint(s, counts, dirs);
            forall L: nat, c :: L < |r.trapOverlays| && r.trapOverlays[L].Some? ==>
              (c in r.trapOverlays[L].value <==> c in dirs && Svc.ArrowAt(s, dirs, c, L).Some?)
              && (c in r.trapOverlays[L].value ==>
                    c in dirs && r.trapOverlays[L].value[c] == Svc.ArrowTile(Svc.ArrowAt(s, dirs, c, L).value))
  {
    var cleared := Svc.ClearAll(s);
    var painted := Svc.PaintEnemyStaticLayered(cleared, counts);
    var r := Repaint(s, counts, dirs);
    forall L: nat, c | L < |r.enemyOverlays| && r.enemyOverlays[L].Some?
      ensures (c in r.enemyOverlays[L].value <==> s.enemyTileSet && c in counts && counts[c] > L)
              && (c in r.enemyOverlays[L].value ==> r.enemyOverlays[L].value[c] == Svc.EnemyMark)
    {
      assert cleared.enemyOverlays[L] == Some(map[]);
      assert r.enemyOverlays[L] == painted.enemyOverlays[L];
      if s.enemyTileSet {
        Svc.ClearedEnemyLayerExact(counts, L, c);
      }
    }
    forall L: nat, c | L < |r.trapOverlays| && r.trapOverlays[L].Some?
      ensures (c in r.trapOverlays[L].value <==> c in dirs && Svc.ArrowAt(s, dirs, c, L).Some?)
              && (c in r.trapOverlays[L].value ==>
                    c in dirs && r.trapOverlays[L].value[c] == Svc.ArrowTile(Svc.ArrowAt(s, dirs, c, L).value))
    {
      assert painted.trapOverlays[L] == Some(map[]);
      Svc.ClearedTrapLayerExact(painted, dirs, L, c);
      if c in dirs {
        assert Svc.ArrowAt(painted, dirs, c, L) == Svc.ArrowAt(s, dirs, c, L);
      }
    }
  }

  /** RefreshAll: without a service nothing happens. When a trap's
      preview throws, the refresh stops before anything is cleared and the
      overlays keep what they showed; the exception itself goes on to the
      caller, which is not modelled. Otherwise every overlay is cleared and
      repainted from the current threats: enemy layer L shows a cell iff
      more than L enemy previews name it, and trap layer L shows at each
      cell the arrow of its L-th threatening direction. RefreshEnemyOnly and
      RefreshTrapsOnly are this same operation. */
  function RefreshAll(svc: Option<Svc.Service>, enemies: seq<EnemyView>, traps: seq<TrapView>): (r: Option<Svc.Service>)
    ensures svc.None? <==> r.None?
    ensures PreviewThrows(traps) ==> r == svc
    ensures svc.Some? ==>
              r.value.enemyTileSet == svc.value.enemyTileSet && r.value.arrowsSet == svc.value.arrowsSet
              && |r.value.enemyOverlays| == |svc.value.enemyOverlays|
              && |r.value.trapOverlays| == |svc.value.trapOverlays|
              && (forall L :: 0 <= L < |r.value.enemyOverlays| ==>
                    (r.value.enemyOverlays[L].Some? <==> svc.value.enemyOverlays[L].Some?))
              && (forall L :: 0 <= L < |r.value.trapOverlays| ==>
                    (r.value.trapOverlays[L].Some? <==> svc.value.trapOverlays[L].Some?))
    ensures svc.Some? && !PreviewThrows(traps) ==>
              forall L: nat, c :: L < |r.value.enemyOverlays| && r.value.enemyOverlays[L].Some? ==>
                (c in r.value.enemyOverlays[L].value <==>
                   svc.value.enemyTileSet && Count(Flatten(EnemyPreviews(enemies)), c) > L)
                && (c in r.value.enemyOverlays[L].value ==> r.value.enemyOverlays[L].value[c] == Svc.EnemyMark)
    ensures svc.Some? && !PreviewThrows(traps) ==>
              forall L: nat, c :: L < |r.value.trapOverlays| && r.value.trapOverlays[L].Some? ==>
                (c in r.value.trapOverlays[L].value <==>
                   c in BuildTrapDirs(traps) && Svc.ArrowAt(svc.value, BuildTrapDirs(traps), c, L).Some?)
                && (c in r.value.trapOverlays[L].value ==>
                      c in BuildTrapDirs(traps)
                      && r.value.trapOverlays[L].value[c]
                         == Svc.ArrowTile(Svc.ArrowAt(svc.value, BuildTrapDirs(traps), c, L).value))
  {
    if svc.None? then None
    else if PreviewThrows(traps) then svc
    else
      var flat := Flatten(EnemyPreviews(enemies));
      var counts := BuildEnemyCounts(EnemyPreviews(enemies));
      var dirs := BuildTrapDirs(traps);
      RepaintExact(svc.value, counts, dirs);
      CountsArePositive(flat);
      Some(Repaint(svc.value, counts, dirs))
  }

  /** A cell occurs in a list iff its count there is positive. */
  lemma CountsArePositive(s: seq<Cell>)
    ensures forall c :: Count(s, c) > 0 <==> c in s
  {
    forall c ensures Count(s, c) > 0 <==> c in s {
      CountPositiveIffIn(s, c);
    }
  }

  /** A refresh that runs to the end depends only on which overlays exist,
      not on what they show: two services that differ only in painted tiles
      refresh alike. A refresh stopped by a throwing preview keeps them. */
  lemma RefreshForgetsOldTiles(a: Svc.Service, b: Svc.Service, enemies: seq<EnemyView>, traps: seq<TrapView>)
    requires Svc.ClearAll(a) == Svc.ClearAll(b)
    ensures !PreviewThrows(traps) ==> RefreshAll(Some(a), enemies, traps) == RefreshAll(Some(b), enemies, traps)
    ensures PreviewThrows(traps) ==> RefreshAll(Some(a), enemies, traps) == Some(a)
  {
  }
}

=== FILE: attack_tile_service.dfy ===
/** AttackTileService: the overlay tilemaps that show threatened cells.
    Enemy threats are stacked one symbol per layer; trap threats are
    arrows, one direction per layer. A tilemap is a map from cells to the
    tile painted there; an unassigned overlay slot is `None`. */
module AttackTileService {
  import opened Wrappers
  import opened Grid

  /** The eight arrow tiles, named by the direction they point. */
  datatype Arrow = ArrowU | ArrowD | ArrowL | ArrowR | ArrowUL | ArrowUR | ArrowDL | ArrowDR

  /** What can be painted on an overlay cell. */
  datatype Tile = EnemyMark | ArrowTile(arrow: Arrow)

  type Tilemap = map<Cell, Tile>

  /** The service's inspector references. An empty overlay array stands
      for both a missing and an empty one; `enemyTileSet` says whether the
      enemy symbol tile is assigned, `arrowsSet` which arrow tiles are. */
  datatype Service = Service(
    enemyOverlays: seq<Option<Tilemap>>,
    enemyTileSet: bool,
    trapOverlays: seq<Option<Tilemap>>,
    arrowsSet: set<Arrow>)

  /** The direction table built in Awake: the eight unit directions, each
      to its own arrow; no other key. */
  function ArrowFor(d: Cell): (r: Option<Arrow>)
    ensures r.Some? <==> IsUnitDir(d)
  {
    if d == Cell(0, 1) then Some(ArrowU)
    else if d == Cell(0, -1) then Some(ArrowD)
    else if d == Cell(-1, 0) then Some(ArrowL)
    else if d == Cell(1, 0) then Some(ArrowR)
    else if d == Cell(-1, 1) then Some(ArrowUL)
    else if d == Cell(1, 1) then Some(ArrowUR)
    else if d == Cell(-1, -1) then Some(ArrowDL)
    else if d == Cell(1, -1) then Some(ArrowDR)
    else None
  }

  /** The inverse of the table: the direction each arrow points. */
  function ArrowDir(a: Arrow): (d: Cell)
    ensures IsUnitDir(d)
  {
    match a
    case ArrowU => Cell(0, 1)
    case ArrowD => Cell(0, -1)
    case ArrowL => Cell(-1, 0)
    case ArrowR => Cell(1, 0)
    case ArrowUL => Cell(-1, 1)
    case ArrowUR => Cell(1, 1)
    case ArrowDL => Cell(-1, -1)
    case ArrowDR => Cell(1, -1)
  }

  /** Each direction has its own arrow slot: the table and `ArrowDir` are
      inverse, so no two directions share an arrow. */
  lemma ArrowTableBijective(d: Cell, a: Arrow)
    ensures ArrowFor(ArrowDir(a)) == Some(a)
    ensures ArrowFor(d) == Some(a) ==> ArrowDir(a) == d
  {
  }

  /** ClearAll: every assigned overlay, enemy or trap, is emptied. */
  function ClearAll(s: Service): (r: Service)
    ensures |r.enemyOverlays| == |s.enemyOverlays| && |r.trapOverlays| == |s.trapOverlays|
    ensures forall i :: 0 <= i < |r.enemyOverlays| ==>
              (r.enemyOverlays[i].Some? <==> s.enemyOverlays[i].Some?)
              && (r.enemyOverlays[i].Some? ==> r.enemyOverlays[i].value == map[])
    ensures forall i :: 0 <= i < |r.trapOverlays| ==>
              (r.trapOverlays[i].Some? <==> s.trapOverlays[i].Some?)
              && (r.trapOverlays[i].Some? ==> r.trapOverlays[i].value == map[])
    ensures r.enemyTileSet == s.enemyTileSet && r.arrowsSet == s.arrowsSet
  {
    s.(enemyOverlays := seq(|s.enemyOverlays|, i requires 0 <= i < |s.enemyOverlays| => Cleared(s.enemyOverlays[i])),
       trapOverlays := seq(|s.trapOverlays|, i requires 0 <= i < |s.trapOverlays| => Cleared(s.trapOverlays[i])))
  }

  function Cleared(o: Option<Tilemap>): Option<Tilemap> {
    if o.Some? then Some(map[]) else None
  }

  /** The cells a layer of the enemy overlay gets: those threatened more
      than `layer` times. */
  function EnemyLayerCells(counts: map<Cell, int>, layer: int): set<Cell> {
    set c | c in counts && counts[c] > layer
  }

  /** Layers are nested: a cell shown on layer L+1 is shown on layer L. */
  lemma EnemyLayersNested(counts: map<Cell, int>, layer: int)
    ensures EnemyLayerCells(counts, layer + 1) <= EnemyLayerCells(counts, layer)
  {
  }

  /** One enemy layer painted: its cells get the enemy symbol, the rest of
      the tilemap is kept. */
  function PaintEnemyLayer(o: Option<Tilemap>, counts: map<Cell, int>, layer: int): (r: Option<Tilemap>)
    ensures r.Some? <==> o.Some?
    ensures o.Some? ==> r.value.Keys == o.value.Keys + EnemyLayerCells(counts, layer)
    ensures o.Some? ==> forall c :: c in r.value ==>
              r.value[c] == (if c in EnemyLayerCells(counts, layer) then EnemyMark else o.value[c])
  {
    if o.None? then None
    else Some(map c | c in o.value.Keys + EnemyLayerCells(counts, layer) ::
                if c in EnemyLayerCells(counts, layer) then EnemyMark else o.value[c])
  }

  /** PaintEnemyStaticLayered: nothing without overlays or without the
      symbol tile; otherwise layer L gets every cell whose count exceeds L. */
  function PaintEnemyStaticLayered(s: Service, counts: map<Cell, int>): (r: Service)
    ensures |s.enemyOverlays| == 0 || !s.enemyTileSet ==> r == s
    ensures r.(enemyOverlays := s.enemyOverlays) == s
    ensures |r.enemyOverlays| == |s.enemyOverlays|
    ensures |s.enemyOverlays| > 0 && s.enemyTileSet ==>
              forall i :: 0 <= i < |r.enemyOverlays| ==> r.enemyOverlays[i] == PaintEnemyLayer(s.enemyOverlays[i], counts, i)
  {
    if |s.enemyOverlays| == 0 || !s.enemyTileSet then s
    else s.(enemyOverlays := seq(|s.enemyOverlays|, i requires 0 <= i < |s.enemyOverlays| =>
                                   PaintEnemyLayer(s.enemyOverlays[i], counts, i)))
  }

  /** The arrow a trap layer paints at a cell: the list's `layer`-th
      direction, if the list is that long, the direction is in the table
      and its tile is assigned. */
  function ArrowAt(s: Service, dirs: map<Cell, seq<Cell>>, c: Cell, layer: nat): (r: Option<Arrow>)
    requires c in dirs
    ensures r.Some? <==> |dirs[c]| > layer && ArrowFor(dirs[c][layer]).Some? && ArrowFor(dirs[c][layer]).value in s.arrowsSet
    ensures r.Some? ==> ArrowDir(r.value) == dirs[c][layer]
  {
    if |dirs[c]| <= layer then None
    else
      var a := ArrowFor(dirs[c][layer]);
      if a.Some? && a.value in s.arrowsSet then a else None
  }

  /** One trap layer painted: each cell with an arrow for this layer gets
      it, the rest of the tilemap is kept. */
  function PaintTrapLayer(s: Service, o: Option<Tilemap>, dirs: map<Cell, seq<Cell>>, layer: nat): (r: Option<Tilemap>)
    ensures r.Some? <==> o.Some?
    ensures o.Some? ==> forall c :: c in dirs && ArrowAt(s, dirs, c, layer).Some? ==>
              c in r.value && r.value[c] == ArrowTile(ArrowAt(s, dirs, c, layer).value)
    ensures o.Some? ==> forall c :: c in r.value ==>
              (c in o.value && r.value[c] == o.value[c]) || (c in dirs && ArrowAt(s, dirs, c, layer).Some?)
  {
    if o.None? then None
    else
      var painted := set c | c in dirs && ArrowAt(s, dirs, c, layer).Some?;
      Some(map c | c in o.value.Keys + painted ::
             if c in painted then ArrowTile(ArrowAt(s, dirs, c, layer).value) else o.value[c])
  }

  /** PaintTrapArrowsLayered: nothing without overlays; otherwise layer L
      gets, at each cell, the arrow of the cell's L-th direction. */
  function PaintTrapArrowsLayered(s: Service, dirs: map<Cell, seq<Cell>>): (r: Service)
    ensures |s.trapOverlays| == 0 ==> r == s
    ensures r.(trapOverlays := s.trapOverlays) == s
    ensures |r.trapOverlays| == |s.trapOverlays|
    ensures forall i :: 0 <= i < |r.trapOverlays| ==> r.trapOverlays[i] == PaintTrapLayer(s, s.trapOverlays[i], dirs, i)
  {
    if |s.trapOverlays| == 0 then s
    else s.(trapOverlays := seq(|s.trapOverlays|, i requires 0 <= i < |s.trapOverlays| =>
                                  PaintTrapLayer(s, s.trapOverlays[i], dirs, i)))
  }

  /** On a cleared overlay an enemy layer shows exactly the cells counted
      more than L times. */
  lemma ClearedEnemyLayerExact(counts: map<Cell, int>, layer: int, c: Cell)
    ensures var r := PaintEnemyLayer(Some(map[]), counts, layer).value;
            (c in r <==> c in counts && counts[c] > layer) && (c in r ==> r[c] == EnemyMark)
  {
  }

  /** On a cleared overlay a trap layer shows exactly the arrows of the
      lists' L-th directions. */
  lemma ClearedTrapLayerExact(s: Service, dirs: map<Cell, seq<Cell>>, layer: nat, c: Cell)
    ensures var r := PaintTrapLayer(s, Some(map[]), dirs, layer).value;
            (c in r <==> c in dirs && ArrowAt(s, dirs, c, layer).Some?)
            && (c in r ==> r[c] == ArrowTile(ArrowAt(s, dirs, c, layer).value))
  {
  }
}

=== FILE: enemy_ai.dfy ===
/** One enemy turn as EnemyAIBase.TryMoveTowardPlayer resolves it, for the
    two enemy kinds: EnemyAI (moves and attacks orthogonally) and EnemyAIX
    (moves and attacks diagonally). Physics overlap queries become cell
    sets; the lunge, sound and movement tween are left out, so each outcome
    is one atomic step. */
module EnemyAI {
  import opened Grid
  import opened Seqs
  import opened Wrappers

  /** EnemyAI (orthogonal) or EnemyAIX (diagonal). */
  datatype Variant = Orthogonal | Diagonal

  /** GetMovementDirections, in enumeration order. */
  function Directions(v: Variant): (r: seq<Cell>)
    ensures |r| == 4 && NoDup(r)
    ensures forall i :: 0 <= i < 4 ==> IsUnitDir(r[i])
    ensures v == Orthogonal ==> forall i :: 0 <= i < 4 ==> Abs(r[i].x) + Abs(r[i].y) == 1
    ensures v == Diagonal ==> forall i :: 0 <= i < 4 ==> Abs(r[i].x) == 1 && Abs(r[i].y) == 1
  {
    match v
    case Orthogonal => [Up, Down, Left, Right]
    case Diagonal => [UpRight, DownRight, UpLeft, DownLeft]
  }

  /** CanAttackPlayer of the two variants. */
  predicate CanAttackPlayer(v: Variant, enemy: Cell, player: Cell) {
    var dx := Abs(enemy.x - player.x);
    var dy := Abs(enemy.y - player.y);
    match v
    case Orthogonal => (dx == 1 && dy == 0) || (dx == 0 && dy == 1)
    case Diagonal => dx == 1 && dy == 1
  }

  /** The orthogonal predicate is Manhattan adjacency: it excludes the
      enemy's own cell and the diagonal neighbours, and it is symmetric. */
  lemma OrthogonalAdjacency(e: Cell, p: Cell)
    ensures CanAttackPlayer(Orthogonal, e, p) <==> Manhattan(e, p) == 1
    ensures CanAttackPlayer(Orthogonal, e, p) <==> CanAttackPlayer(Orthogonal, p, e)
    ensures !CanAttackPlayer(Orthogonal, e, e)
    ensures Abs(e.x - p.x) == 1 && Abs(e.y - p.y) == 1 ==> !CanAttackPlayer(Orthogonal, e, p)
  {
  }

  /** The diagonal predicate holds exactly at the four diagonal neighbours:
      never at the enemy's own cell or an orthogonal neighbour, and it is
      symmetric. */
  lemma DiagonalAdjacency(e: Cell, p: Cell)
    ensures CanAttackPlayer(Diagonal, e, p) <==> Chebyshev(e, p) == 1 && Manhattan(e, p) == 2
    ensures CanAttackPlayer(Diagonal, e, p) <==> CanAttackPlayer(Diagonal, p, e)
    ensures !CanAttackPlayer(Diagonal, e, e)
    ensures Manhattan(e, p) == 1 ==> !CanAttackPlayer(Diagonal, e, p)
  {
  }

  /** What the physics queries of one enemy turn would report. `player` is
      the player's cell, absent when there is no player transform;
      `playerBodies`, `obstacles` and `bullets` are the cells where a
      collider of the player, obstacle and bullet layers is found. */
  datatype World = World(
    player: Option<Cell>,
    hasTilemap: bool,
    playerBodies: set<Cell>,
    obstacles: set<Cell>,
    bullets: set<Cell>)

  /** The result of one enemy turn. */
  datatype Outcome =
    | Idle                      // no player or no tilemap
    | AttackPlayer(damage: int) // GameManager.TakeDamage(attackPower)
    | BreakBullet(at: Cell)     // the bullet on that cell is destroyed
    | MoveTo(to: Cell)          // one step
    | Stay                      // nothing qualified

  /** The neighbour of `cur` in direction number `i`. */
  function Neighbour(v: Variant, cur: Cell, i: nat): Cell
    requires i < 4
  {
    Add(cur, Directions(v)[i])
  }

  /** TryDestroyBulletRoutine's choice: the first direction whose neighbour
      holds a bullet. */
  function BulletDir(v: Variant, cur: Cell, bullets: set<Cell>): (r: Option<nat>)
    ensures r.Some? ==> r.value < 4 && Neighbour(v, cur, r.value) in bullets
    ensures r.Some? ==> forall j :: 0 <= j < r.value ==> Neighbour(v, cur, j) !in bullets
    ensures r.None? <==> forall j :: 0 <= j < 4 ==> Neighbour(v, cur, j) !in bullets
  {
    FindFirst(Directions(v), (d: Cell) => Add(cur, d) in bullets)
  }

  /** The conditions of the movement loop for one candidate cell: no player,
      obstacle or bullet collider there, and strictly closer to the player
      in Euclidean distance. */
  predicate CanStepTo(w: World, cur: Cell, p: Cell, next: Cell) {
    next !in w.playerBodies && next !in w.obstacles && next !in w.bullets
    && SqDist(next, p) < SqDist(cur, p)
  }

  /** The movement loop's choice: the first qualifying direction. */
  function StepDir(v: Variant, w: World, cur: Cell, p: Cell): (r: Option<nat>)
    ensures r.Some? ==> r.value < 4 && CanStepTo(w, cur, p, Neighbour(v, cur, r.value))
    ensures r.Some? ==> forall j :: 0 <= j < r.value ==> !CanStepTo(w, cur, p, Neighbour(v, cur, j))
    ensures r.None? <==> forall j :: 0 <= j < 4 ==> !CanStepTo(w, cur, p, Neighbour(v, cur, j))
  {
    FindFirst(Directions(v), (d: Cell) => CanStepTo(w, cur, p, Add(cur, d)))
  }

  /** TryMoveTowardPlayer: attack if adjacent, else break a neighbouring
      bullet, else take the first step that brings the enemy closer. */
  function TryMoveTowardPlayer(v: Variant, attackPower: int, cur: Cell, w: World): (r: Outcome)
    ensures w.player.None? || !w.hasTilemap ==> r == Idle
    ensures r.AttackPlayer? <==> w.player.Some? && w.hasTilemap && CanAttackPlayer(v, cur, w.player.value)
    ensures r.AttackPlayer? ==> r.damage == attackPower
    ensures r.BreakBullet? ==> w.player.Some? && !CanAttackPlayer(v, cur, w.player.value)
    ensures r.BreakBullet? ==> r.at in w.bullets && exists i :: 0 <= i < 4 && r.at == Neighbour(v, cur, i)
    ensures r.MoveTo? ==> w.player.Some? && !CanAttackPlayer(v, cur, w.player.value)
    ensures r.MoveTo? ==> CanStepTo(w, cur, w.player.value, r.to)
    ensures r.MoveTo? ==> Sub(r.to, cur) in Directions(v)
    ensures r.MoveTo? || r.Stay? ==> forall j :: 0 <= j < 4 ==> Neighbour(v, cur, j) !in w.bullets
    ensures r.Stay? ==> forall j :: 0 <= j < 4 ==> !CanStepTo(w, cur, w.player.value, Neighbour(v, cur, j))
  {
    if w.player.None? || !w.hasTilemap then Idle
    else
      var p := w.player.value;
      if CanAttackPlayer(v, cur, p) then AttackPlayer(attackPower)
      else
        match BulletDir(v, cur, w.bullets)
        case Some(i) => BreakBullet(Neighbour(v, cur, i))
        case None =>
          match StepDir(v, w, cur, p)
          case Some(i) =>
            assert Sub(Neighbour(v, cur, i), cur) == Directions(v)[i];
            MoveTo(Neighbour(v, cur, i))
          case None => Stay
  }

  /** The three priorities are exhaustive once a player and tilemap exist:
      a non-adjacent enemy breaks the first bullet in direction order if
      there is one, else moves to the first qualifying neighbour, else
      stays. */
  lemma TurnPriority(v: Variant, attackPower: int, cur: Cell, w: World)
    requires w.player.Some? && w.hasTilemap && !CanAttackPlayer(v, cur, w.player.value)
    ensures var r := TryMoveTowardPlayer(v, attackPower, cur, w);
            var b := BulletDir(v, cur, w.bullets);
            var s := StepDir(v, w, cur, w.player.value);
            && (b.Some? ==> r == BreakBullet(Neighbour(v, cur, b.value)))
            && (b.None? && s.Some? ==> r == MoveTo(Neighbour(v, cur, s.value)))
            && (b.None? && s.None? ==> r == Stay)
  {
  }

  /** A step never leaves the player's reach test behind unmet: moving
      strictly reduces the squared distance, and a move is exactly one
      direction vector. */
  lemma StepMakesProgress(v: Variant, attackPower: int, cur: Cell, w: World)
    ensures var r := TryMoveTowardPlayer(v, attackPower, cur, w);
            r.MoveTo? ==>
              r.to !in w.playerBodies && r.to !in w.obstacles && r.to !in w.bullets
              && SqDist(r.to, w.player.value) < SqDist(cur, w.player.value)
              && Chebyshev(r.to, cur) == 1
  {
    var r := TryMoveTowardPlayer(v, attackPower, cur, w);
    if r.MoveTo? {
      assert CanStepTo(w, cur, w.player.value, r.to);
      DirectionIsKingMove(v, cur, r.to);
    }
  }

  /** Every movement direction is a king move. */
  lemma DirectionIsKingMove(v: Variant, cur: Cell, to: Cell)
    requires Sub(to, cur) in Directions(v)
    ensures Chebyshev(to, cur) == 1
  {
    var i :| 0 <= i < 4 && Directions(v)[i] == Sub(to, cur);
    assert IsUnitDir(Sub(to, cur));
  }

  /** The end-to-end example: player at (0,0), orthogonal enemy at (1,0);
      the enemy attacks for its attack power and does not move. */
  lemma AdjacentEnemyAttacks(attackPower: int, w: World)
    requires w.player == Some(Cell(0, 0)) && w.hasTilemap
    ensures TryMoveTowardPlayer(Orthogonal, attackPower, Cell(1, 0), w) == AttackPlayer(attackPower)
  {
    assert CanAttackPlayer(Orthogonal, Cell(1, 0), Cell(0, 0));
  }

  /** The two cells' x + y have the same parity: the colour of a
      chequerboard square. */
  predicate SameParity(a: Cell, b: Cell) {
    (a.x + a.y) % 2 == (b.x + b.y) % 2
  }

  /** A diagonal enemy can only attack a player whose x + y has the same
      parity as its own. */
  lemma DiagonalAttackSameParity(e: Cell, p: Cell)
    requires CanAttackPlayer(Diagonal, e, p)
    ensures SameParity(e, p)
  {
    var k := (e.x + e.y) - (p.x + p.y);
    ParityShift(p.x + p.y, k);
    assert e.x + e.y == p.x + p.y + k;
  }

  /** A diagonal enemy's step keeps the parity of x + y, so a diagonal
      enemy on the other parity than a player who stands still never gets
      to attack. */
  lemma DiagonalStepKeepsParity(attackPower: int, cur: Cell, w: World)
    ensures var r := TryMoveTowardPlayer(Diagonal, attackPower, cur, w);
            r.MoveTo? ==> SameParity(r.to, cur)
  {
    var r := TryMoveTowardPlayer(Diagonal, attackPower, cur, w);
    if r.MoveTo? {
      var to := r.to;
      assert Sub(to, cur) in Directions(Diagonal);
      DiagonalOffsetKeepsParity(cur, to);
    }
  }

  lemma DiagonalOffsetKeepsParity(cur: Cell, to: Cell)
    requires Sub(to, cur) in Directions(Diagonal)
    ensures SameParity(to, cur)
  {
    var d := Sub(to, cur);
    var k := d.x + d.y;
    assert k == -2 || k == 0 || k == 2;
    ParityShift(cur.x + cur.y, k);
    assert to.x + to.y == cur.x + cur.y + k;
  }

  lemma ParityShift(a: int, k: int)
    requires k == -2 || k == 0 || k == 2
    ensures (a + k) % 2 == a % 2
  {
  }

  /** A diagonal enemy orthogonally beside the player can neither attack
      nor get closer: with no bullet around, it stays put. */
  lemma DiagonalStuckBesidePlayer(attackPower: int, cur: Cell, w: World)
    requires w.player.Some? && w.hasTilemap && w.bullets == {}
    requires Manhattan(cur, w.player.value) == 1
    ensures TryMoveTowardPlayer(Diagonal, attackPower, cur, w) == Stay
  {
    var p := w.player.value;
    assert SqDist(cur, p) == 1;
    forall j | 0 <= j < 4 ensures !CanStepTo(w, cur, p, Neighbour(Diagonal, cur, j)) {
      var n := Neighbour(Diagonal, cur, j);
      var dx := n.x - p.x;
      var dy := n.y - p.y;
      assert Abs(dx) + Abs(dy) == 1 || Abs(dx) + Abs(dy) == 3;
      assert Abs(dx) >= 1 || Abs(dy) >= 1;
      assert dx * dx >= Abs(dx) && dy * dy >= Abs(dy);
      assert SqDist(n, p) == dx * dx + dy * dy;
    }
  }

  /** GetAttackCellsPreview over a list of directions. */
  function PreviewOver(v: Variant, cur: Cell, dirs: seq<Cell>): (r: seq<Cell>)
    ensures |r| <= |dirs|
    ensures forall c :: c in r ==> CanAttackPlayer(v, cur, c)
    ensures forall i :: 0 <= i < |dirs| && CanAttackPlayer(v, cur, Add(cur, dirs[i])) ==> Add(cur, dirs[i]) in r
  {
    if dirs == [] then []
    else
      var c := Add(cur, dirs[0]);
      var rest := PreviewOver(v, cur, dirs[1..]);
      assert forall i :: 1 <= i < |dirs| ==> dirs[i] == dirs[1..][i - 1];
      if CanAttackPlayer(v, cur, c) then [c] + rest else rest
  }

  /** GetAttackCellsPreview: the neighbours in direction order where
      CanAttackPlayer would hold; nothing without a tilemap. */
  function GetAttackCellsPreview(v: Variant, hasTilemap: bool, cur: Cell): (r: seq<Cell>)
    ensures !hasTilemap ==> r == []
    ensures forall c :: c in r ==> CanAttackPlayer(v, cur, c)
  {
    if !hasTilemap then [] else PreviewOver(v, cur, Directions(v))
  }

  /** For either variant the preview is exactly its four neighbours, in
      direction order: each variant's directions and attack predicate
      agree. */
  lemma PreviewIsNeighbours(v: Variant, cur: Cell)
    ensures GetAttackCellsPreview(v, true, cur) ==
              [Neighbour(v, cur, 0), Neighbour(v, cur, 1), Neighbour(v, cur, 2), Neighbour(v, cur, 3)]
  {
    var d := Directions(v);
    var n0, n1, n2, n3 := Neighbour(v, cur, 0), Neighbour(v, cur, 1), Neighbour(v, cur, 2), Neighbour(v, cur, 3);
    assert CanAttackPlayer(v, cur, n0) && CanAttackPlayer(v, cur, n1);
    assert CanAttackPlayer(v, cur, n2) && CanAttackPlayer(v, cur, n3);
    assert d[3..][1..] == [];
    assert PreviewOver(v, cur, d[3..]) == [n3];
    assert d[2..][1..] == d[3..];
    assert PreviewOver(v, cur, d[2..]) == [n2, n3];
    assert d[1..][1..] == d[2..];
    assert PreviewOver(v, cur, d[1..]) == [n1, n2, n3];
  }
}

=== FILE: enemy_health.dfy ===
/** EnemyHealth: an enemy's hit points, clamped to [0, maxHP], and the
    death that follows a hit bringing them to zero. */
module EnemyHealth {
  import opened Grid

  datatype Health = Health(current: int, max: int)

  /** The invariant the component keeps once awake. */
  predicate Valid(h: Health) {
    0 <= h.current <= h.max
  }

  /** Awake: an unset (non-positive) current HP starts full, and the result
      is clamped with `Mathf.Clamp(current, 0, maxHP)`. */
  function Awake(current: int, max: int): (r: Health)
    ensures r.max == max
    ensures max >= 0 ==> Valid(r)
    ensures max >= 0 && current <= 0 ==> r.current == max
    ensures 0 < current <= max ==> r.current == current
    ensures 0 <= max < current ==> r.current == max
  {
    var start := if current <= 0 then max else current;
    Health(Clamp(start, 0, max), max)
  }

  /** The result of a hit: the new health and whether the enemy died (and
      so was unregistered from the GameManager and destroyed). */
  datatype Hit = Hit(health: Health, died: bool)

  /** TakeDamage: a non-positive amount is ignored; otherwise HP drops by
      the amount, not below zero, and the enemy dies iff HP reached zero. */
  function TakeDamage(h: Health, amount: int): (r: Hit)
    ensures amount <= 0 ==> r == Hit(h, false)
    ensures amount > 0 ==> r.health.current == Max(h.current - amount, 0)
    ensures r.health.max == h.max
    ensures r.died <==> amount > 0 && r.health.current == 0
    ensures Valid(h) ==> Valid(r.health)
    ensures Valid(h) ==> r.health.current <= h.current
  {
    if amount <= 0 then Hit(h, false)
    else
      var cur := Max(h.current - amount, 0);
      Hit(h.(current := cur), cur <= 0)
  }

  /** Heal: a non-positive amount is ignored; otherwise HP rises by the
      amount, not above the maximum. */
  function Heal(h: Health, amount: int): (r: Health)
    ensures amount <= 0 ==> r == h
    ensures amount > 0 ==> r.current == Min(h.current + amount, h.max)
    ensures r.max == h.max
    ensures Valid(h) ==> Valid(r)
    ensures Valid(h) ==> r.current >= h.current
  {
    if amount <= 0 then h
    else h.(current := Min(h.current + amount, h.max))
  }

  /** Healing undoes a hit that did not reach the zero floor: damage and
      heal by the same amount are inverse on a valid health. */
  lemma HealUndoesDamage(h: Health, amount: int)
    requires Valid(h) && amount < h.current
    ensures !TakeDamage(h, amount).died
    ensures Heal(TakeDamage(h, amount).health, amount) == h
  {
  }

  /** Death is exactly the hit that is at least the remaining HP. */
  lemma DeathThreshold(h: Health, amount: int)
    requires Valid(h)
    ensures TakeDamage(h, amount).died <==> amount > 0 && amount >= h.current
  {
  }
}

=== FILE: game_manager.dfy ===
/** GameManager: the phase machine (NextState / SwitchPhase), the player's
    hit points and the game-over latch, the enemy and trap registries, the
    per-phase trap countdown and the enemy turn, which runs every enemy in
    registration order and then every eligible trap.

    The coroutine `SwitchPhase` is split at its one wait (the banner or the
    fixed delay) into `BeginSwitch`, which runs up to the wait, and
    `CompleteSwitch`, which runs after it; anything may happen in between,
    in particular damage ending the game. */
module GameManager {
  import opened Wrappers
  import opened Grid
  import opened Seqs
  import opened Phases
  import TrapCycle
  import EnemyHealth
  import TrapAttack
  import Rays

  /** A registered trap's inspector settings and cycle state. */
  datatype Trap = Trap(cfg: TrapCycle.TrapConfig, state: TrapCycle.TrapState)

  /** The manager's state. `pending` is the target of the switch in flight
      and means something only while `advancing`. `hasBanner` says whether
      a TurnBanner is attached. Enemies and traps are identified by number;
      a trap id in `trapOrder` without an entry in `traps` is a destroyed
      trap, which every loop skips as the source skips `null`. `enemyHP`
      holds the hit points of the enemies' EnemyHealth components, which
      trap fire lowers. */
  datatype Manager = Manager(
    phase: Phase,
    advancing: bool,
    pending: Phase,
    inputLocked: bool,
    gameOver: bool,
    hp: int,
    maxHP: int,
    hasBanner: bool,
    cycleIndex: int,
    firstBannerShown: bool,
    enemies: seq<nat>,
    trapOrder: seq<nat>,
    traps: map<nat, Trap>,
    enemyHP: map<nat, EnemyHealth.Health>)

  /** The state before Start: `phase` is the enum's default value. */
  function Fresh(maxHP: int, hasBanner: bool, phase: Phase, traps: map<nat, Trap>,
                 enemyHP: map<nat, EnemyHealth.Health>): Manager {
    Manager(phase, false, phase, false, false, 0, maxHP, hasBanner, 1, false, [], [], traps, enemyHP)
  }

  // ---------------------------------------------------------------------
  // Phase machine
  // ---------------------------------------------------------------------

  /** The first half of SwitchPhase: refused while a switch is in flight or
      after game over; otherwise locks input and, when a banner is attached
      and the target is the player's move phase, counts the cycle (the
      first banner shows 1, every later one one more). */
  function BeginSwitch(m: Manager, next: Phase): (r: Manager)
    ensures m.advancing || m.gameOver ==> r == m
    ensures !m.advancing && !m.gameOver ==>
              r.advancing && r.inputLocked && r.pending == next
              && r.phase == m.phase && r.traps == m.traps
              && r.enemies == m.enemies && r.trapOrder == m.trapOrder
              && r.hp == m.hp && !r.gameOver
    ensures !m.advancing && !m.gameOver ==>
              (r.cycleIndex == m.cycleIndex + 1
               <==> m.hasBanner && next == PlayerMove && m.firstBannerShown)
    ensures r.cycleIndex == m.cycleIndex || r.cycleIndex == m.cycleIndex + 1
    ensures r.firstBannerShown <==> m.firstBannerShown || (m.hasBanner && next == PlayerMove && !m.advancing && !m.gameOver)
  {
    if m.advancing || m.gameOver then m
    else
      var counts := m.hasBanner && next == PlayerMove;
      m.(advancing := true, pending := next, inputLocked := true,
         cycleIndex := if counts && m.firstBannerShown then m.cycleIndex + 1 else m.cycleIndex,
         firstBannerShown := m.firstBannerShown || counts)
  }

  /** The second half of SwitchPhase: if the game ended during the wait the
      switch is abandoned; otherwise the phase changes, every registered
      trap's countdown is advanced for the new phase, and input is unlocked
      for the two player phases (the enemy phase keeps it locked; its turn
      is started separately, see `HandleEnemyTurn`). */
  function CompleteSwitch(m: Manager): (r: Manager)
    ensures !r.advancing || r == m
    ensures !m.advancing ==> r == m
    ensures m.advancing && m.gameOver ==> r == m.(advancing := false)
    ensures m.advancing && !m.gameOver ==>
              r.phase == m.pending
              && (r.inputLocked <==> m.inputLocked && m.pending != PlayerMove && m.pending != PlayerAction)
              && r.traps.Keys == m.traps.Keys
    ensures r.gameOver == m.gameOver && r.hp == m.hp && r.cycleIndex == m.cycleIndex
    ensures r.firstBannerShown == m.firstBannerShown && r.hasBanner == m.hasBanner
    ensures r.enemies == m.enemies && r.trapOrder == m.trapOrder && r.enemyHP == m.enemyHP
    ensures m.advancing && !m.gameOver && NoDup(m.trapOrder) ==>
              forall t :: t in m.traps ==>
                r.traps[t] == if t in m.trapOrder
                              then m.traps[t].(state := TrapCycle.OnTurnAdvanced(m.traps[t].cfg, m.traps[t].state, m.pending))
                              else m.traps[t]
  {
    if !m.advancing then m
    else if m.gameOver then m.(advancing := false)
    else
      var next := m.pending;
      m.(phase := next,
         traps := AdvanceTraps(m.traps, m.trapOrder, next),
         inputLocked := if next == PlayerMove || next == PlayerAction then false else m.inputLocked,
         advancing := false)
  }

  /** SwitchPhase run to the end with nothing interleaved at its wait. A
      call made while another switch waits returns at once and leaves that
      switch to finish on its own. */
  function SwitchPhase(m: Manager, next: Phase): (r: Manager)
    ensures m.advancing || m.gameOver ==> r == m
    ensures !m.advancing && !m.gameOver ==>
              r.phase == next && !r.advancing
              && (r.inputLocked <==> next == EnemyTurn || next == PlayerTurn)
    ensures r.hp == m.hp && r.gameOver == m.gameOver
    ensures r.enemies == m.enemies && r.trapOrder == m.trapOrder && r.enemyHP == m.enemyHP
    ensures r.traps.Keys == m.traps.Keys
    ensures !m.advancing && !m.gameOver && NoDup(m.trapOrder) ==>
              forall t :: t in m.traps ==>
                r.traps[t] == if t in m.trapOrder
                              then m.traps[t].(state := TrapCycle.OnTurnAdvanced(m.traps[t].cfg, m.traps[t].state, next))
                              else m.traps[t]
  {
    if m.advancing || m.gameOver then m else CompleteSwitch(BeginSwitch(m, next))
  }

  /** NextState: refused while a switch is in flight or after game over;
      otherwise starts a switch to the successor phase. */
  function NextState(m: Manager): (r: Manager)
    ensures m.advancing || m.gameOver ==> r == m
    ensures !m.advancing && !m.gameOver ==> r.advancing && r.pending == NextPhase(m.phase)
    ensures r.phase == m.phase && r.hp == m.hp && r.gameOver == m.gameOver
  {
    if m.advancing || m.gameOver then m
    else BeginSwitch(m, NextPhase(m.phase))
  }

  /** The `_advancing` guard: a second NextState issued while the first
      switch waits is ignored. Only a switch that waits opens that window;
      with a banner, the switch into PlayerAction does not wait, so there
      `CompleteSwitch` follows `BeginSwitch` at once and a later NextState
      advances again. */
  lemma NextStateGuarded(m: Manager)
    ensures NextState(NextState(m)) == NextState(m)
    ensures forall p :: SwitchPhase(NextState(m), p) == NextState(m)
  {
  }

  /** Registrations in order, each guarded by Contains. */
  function RegisterEnemies(m: Manager, es: seq<nat>): (r: Manager)
    ensures forall x :: x in r.enemies <==> x in m.enemies || x in es
    ensures NoDup(m.enemies) ==> NoDup(r.enemies)
    ensures r.(enemies := m.enemies) == m
    decreases |es|
  {
    if es == [] then m
    else
      assert forall x :: x in es <==> x == es[0] || x in es[1..];
      RegisterEnemies(RegisterEnemy(m, es[0]), es[1..])
  }

  function RegisterTraps(m: Manager, ts: seq<nat>): (r: Manager)
    ensures forall x :: x in r.trapOrder <==> x in m.trapOrder || x in ts
    ensures NoDup(m.trapOrder) ==> NoDup(r.trapOrder)
    ensures r.(trapOrder := m.trapOrder) == m
    decreases |ts|
  {
    if ts == [] then m
    else
      assert forall x :: x in ts <==> x == ts[0] || x in ts[1..];
      RegisterTraps(RegisterTrap(m, ts[0]), ts[1..])
  }

  /** Start: full hit points, then a switch to the player's move phase.
      The switch always waits (on the banner or on the fixed delay), and in
      that wait every enemy and trap of the scene runs its own Start and
      registers, in the order given; `traps` holds each trap's settings and
      its state after its own Start, `enemyHP` each enemy's hit points. So the switch's countdown tick already
      reaches the scene's traps: the first player phase is cycle 1, input
      opens, and every registered trap has been ticked once for the move
      phase. */
  function Start(maxHP: int, hasBanner: bool, phase: Phase, traps: map<nat, Trap>,
                 enemyHP: map<nat, EnemyHealth.Health>, sceneEnemies: seq<nat>, sceneTraps: seq<nat>): (r: Manager)
    ensures r.phase == PlayerMove && !r.advancing && !r.inputLocked && !r.gameOver
    ensures r.hp == maxHP && r.maxHP == maxHP
    ensures r.cycleIndex == 1
    ensures r.firstBannerShown == hasBanner
    ensures forall e :: e in r.enemies <==> e in sceneEnemies
    ensures forall t :: t in r.trapOrder <==> t in sceneTraps
    ensures NoDup(r.enemies) && NoDup(r.trapOrder)
    ensures r.traps.Keys == traps.Keys
    ensures forall t :: t in traps && t in sceneTraps ==>
              r.traps[t] == traps[t].(state := TrapCycle.OnTurnAdvanced(traps[t].cfg, traps[t].state, PlayerMove))
    ensures forall t :: t in traps && t !in sceneTraps ==> r.traps[t] == traps[t]
    ensures r.enemyHP == enemyHP
  {
    var waiting := BeginSwitch(Fresh(maxHP, hasBanner, phase, traps, enemyHP).(hp := maxHP), PlayerMove);
    CompleteSwitch(RegisterTraps(RegisterEnemies(waiting, sceneEnemies), sceneTraps))
  }

  /** A trap acting in both phases, needing no arming, with initialOffset 2,
      placed in the scene: the opening move phase ticks it to 1, the first
      enemy phase to 0, and it fires in that first enemy phase. */
  lemma OffsetTwoFiresInFirstEnemyPhase(maxHP: int, hasBanner: bool, phase: Phase, cfg: TrapCycle.TrapConfig)
    requires cfg.actOnPlayerTurn && cfg.actOnEnemyTurn && !cfg.requireArmed && cfg.initialOffset == 2
    ensures var m0 := Start(maxHP, hasBanner, phase, map[0 := Trap(cfg, TrapCycle.Initial(cfg))], map[], [], [0]);
            var m2 := CompleteSwitch(NextState(CompleteSwitch(NextState(m0))));
            m0.traps[0].state.turnsUntilFire == 1
            && m2.phase == EnemyTurn && 0 in m2.traps
            && TrapCycle.Act(cfg, m2.traps[0].state, EnemyTurn, true).fired
  {
    var m0 := Start(maxHP, hasBanner, phase, map[0 := Trap(cfg, TrapCycle.Initial(cfg))], map[], [], [0]);
    assert 0 in m0.trapOrder && NoDup(m0.trapOrder);
    var m1 := CompleteSwitch(NextState(m0));
    assert m1.phase == PlayerAction && m1.traps[0] == m0.traps[0];
    var m2 := CompleteSwitch(NextState(m1));
    assert m2.phase == EnemyTurn && m2.traps[0].state.turnsUntilFire == 0;
  }

  /** Switches applied one after the other, each run to the end. */
  function RunSwitches(m: Manager, targets: seq<Phase>): Manager
    decreases |targets|
  {
    if targets == [] then m else RunSwitches(SwitchPhase(m, targets[0]), targets[1..])
  }

  /** The cycle counter counts the entries into the player's move phase
      after the first, as long as a banner is attached; without one it
      never moves. */
  lemma {:induction false} CycleIndexCountsPlayerPhases(m: Manager, targets: seq<Phase>)
    requires !m.advancing && !m.gameOver
    requires m.firstBannerShown || !m.hasBanner
    ensures m.hasBanner ==> RunSwitches(m, targets).cycleIndex == m.cycleIndex + Count(targets, PlayerMove)
    ensures !m.hasBanner ==> RunSwitches(m, targets).cycleIndex == m.cycleIndex
    decreases |targets|
  {
    if targets != [] {
      var m1 := SwitchPhase(m, targets[0]);
      assert m1.hasBanner == m.hasBanner && m1.firstBannerShown == m.firstBannerShown;
      CycleIndexCountsPlayerPhases(m1, targets[1..]);
      assert targets == [targets[0]] + targets[1..];
      CountAppend([targets[0]], targets[1..], PlayerMove);
    }
  }

  /** From a settled player-move phase, three NextState switches come back
      to the player's move phase one cycle later. */
  lemma FullRound(m: Manager)
    requires m.phase == PlayerMove && !m.advancing && !m.gameOver
    requires m.hasBanner && m.firstBannerShown
    ensures var r := CompleteSwitch(NextState(CompleteSwitch(NextState(CompleteSwitch(NextState(m))))));
            r.phase == PlayerMove && r.cycleIndex == m.cycleIndex + 1 && !r.inputLocked
  {
  }

  // ---------------------------------------------------------------------
  // Trap countdown at phase start
  // ---------------------------------------------------------------------

  /** Ticks one trap, skipping a destroyed one. */
  function TickTrap(traps: map<nat, Trap>, t: nat, phase: Phase): (r: map<nat, Trap>)
    ensures r.Keys == traps.Keys
    ensures t in traps ==> r[t] == traps[t].(state := TrapCycle.OnTurnAdvanced(traps[t].cfg, traps[t].state, phase))
    ensures forall u :: u in traps && u != t ==> r[u] == traps[u]
  {
    if t in traps then
      traps[t := traps[t].(state := TrapCycle.OnTurnAdvanced(traps[t].cfg, traps[t].state, phase))]
    else traps
  }

  /** AdvanceTrapsForPhase: every registered, live trap is ticked once for
      the new phase, in registration order; nothing else changes. */
  function AdvanceTraps(traps: map<nat, Trap>, order: seq<nat>, phase: Phase): (r: map<nat, Trap>)
    ensures r.Keys == traps.Keys
    ensures forall t :: t in traps && t !in order ==> r[t] == traps[t]
    ensures forall t :: t in traps ==> r[t].cfg == traps[t].cfg
    ensures NoDup(order) ==>
              forall t :: t in traps && t in order ==>
                r[t] == traps[t].(state := TrapCycle.OnTurnAdvanced(traps[t].cfg, traps[t].state, phase))
    decreases |order|
  {
    if order == [] then traps
    else
      var rest := AdvanceTraps(TickTrap(traps, order[0], phase), order[1..], phase);
      assert NoDup(order) ==> NoDup(order[1..]) && order[0] !in order[1..] by {
        if NoDup(order) {
          forall i, j | 0 <= i < j < |order[1..]| ensures order[1..][i] != order[1..][j] {
            assert order[1..][i] == order[i + 1] && order[1..][j] == order[j + 1];
          }
          forall k | 0 <= k < |order[1..]| ensures order[1..][k] != order[0] {
            assert order[1..][k] == order[k + 1];
          }
        }
      }
      rest
  }

  // ---------------------------------------------------------------------
  // Hit points and game over
  // ---------------------------------------------------------------------

  /** TakeDamage: ignored after game over; otherwise HP drops by the damage,
      not below zero, and reaching zero ends the game and locks input. */
  function TakeDamage(m: Manager, damage: int): (r: Manager)
    ensures m.gameOver ==> r == m
    ensures !m.gameOver ==> r.hp == Max(m.hp - damage, 0)
    ensures !m.gameOver ==> (r.gameOver <==> r.hp == 0)
    ensures r.gameOver ==> r.inputLocked || m.gameOver
    ensures r.(hp := m.hp, gameOver := m.gameOver, inputLocked := m.inputLocked) == m
    ensures !m.gameOver && damage >= 0 && 0 <= m.hp <= m.maxHP ==> 0 <= r.hp <= m.hp
  {
    if m.gameOver then m
    else
      var hp := Max(m.hp - damage, 0);
      if hp <= 0 then m.(hp := hp, gameOver := true, inputLocked := true)
      else m.(hp := hp)
  }

  /** Heal: ignored after game over; otherwise HP rises by the amount, not
      above the maximum. A negative amount is not rejected and lowers HP
      without a game-over check, as in the source. */
  function Heal(m: Manager, amount: int): (r: Manager)
    ensures m.gameOver ==> r == m
    ensures !m.gameOver ==> r.hp == Min(m.hp + amount, m.maxHP)
    ensures !m.gameOver && amount >= 0 && 0 <= m.hp <= m.maxHP ==> m.hp <= r.hp <= m.maxHP
    ensures r.(hp := m.hp) == m
  {
    if m.gameOver then m else m.(hp := Min(m.hp + amount, m.maxHP))
  }

  /** Damage below the remaining HP is undone by the same heal. */
  lemma HealUndoesDamage(m: Manager, amount: int)
    requires !m.gameOver && 0 <= amount < m.hp <= m.maxHP
    ensures !TakeDamage(m, amount).gameOver
    ensures Heal(TakeDamage(m, amount), amount) == m
  {
  }

  /** A series of hits, counting the calls that switched the game over on. */
  function DamageSeries(m: Manager, hits: seq<int>): (r: (Manager, nat))
    ensures m.gameOver ==> r.0.gameOver
    decreases |hits|
  {
    if hits == [] then (m, 0)
    else
      var m1 := TakeDamage(m, hits[0]);
      var rest := DamageSeries(m1, hits[1..]);
      (rest.0, rest.1 + (if m1.gameOver && !m.gameOver then 1 else 0))
  }

  /** GameOverRoutine runs at most once: over any series of hits the game
      is switched over exactly once if it ends over and was not over
      before, and never otherwise. */
  lemma {:induction false} GameOverOnce(m: Manager, hits: seq<int>)
    ensures DamageSeries(m, hits).1 <= 1
    ensures DamageSeries(m, hits).1 == 1 <==> DamageSeries(m, hits).0.gameOver && !m.gameOver
    decreases |hits|
  {
    if hits != [] {
      var m1 := TakeDamage(m, hits[0]);
      GameOverOnce(m1, hits[1..]);
      if m1.gameOver {
        GameOverStays(m1, hits[1..]);
      }
    }
  }

  /** After game over every hit is ignored. */
  lemma {:induction false} GameOverStays(m: Manager, hits: seq<int>)
    requires m.gameOver
    ensures DamageSeries(m, hits) == (m, 0)
    decreases |hits|
  {
    if hits != [] {
      GameOverStays(TakeDamage(m, hits[0]), hits[1..]);
    }
  }

  // ---------------------------------------------------------------------
  // Registries
  // ---------------------------------------------------------------------

  /** RegisterEnemy: appended once; a second registration changes nothing. */
  function RegisterEnemy(m: Manager, e: nat): (r: Manager)
    ensures e in r.enemies
    ensures forall x :: x in r.enemies <==> x in m.enemies || x == e
    ensures NoDup(m.enemies) ==> NoDup(r.enemies)
    ensures e in m.enemies ==> r == m
    ensures r.(enemies := m.enemies) == m
  {
    m.(enemies := AddIfAbsent(m.enemies, e))
  }

  /** UnregisterEnemy: the first occurrence is removed, if any. */
  function UnregisterEnemy(m: Manager, e: nat): (r: Manager)
    ensures e !in m.enemies ==> r == m
    ensures e in m.enemies ==> multiset(r.enemies) == multiset(m.enemies) - multiset{e}
    ensures NoDup(m.enemies) ==> e !in r.enemies && NoDup(r.enemies)
    ensures r.(enemies := m.enemies) == m
  {
    RemoveFirstNoDupIfNoDup(m.enemies, e);
    m.(enemies := RemoveFirst(m.enemies, e))
  }

  /** RegisterTrap: appended once. */
  function RegisterTrap(m: Manager, t: nat): (r: Manager)
    ensures t in r.trapOrder
    ensures forall x :: x in r.trapOrder <==> x in m.trapOrder || x == t
    ensures NoDup(m.trapOrder) ==> NoDup(r.trapOrder)
    ensures t in m.trapOrder ==> r == m
    ensures r.(trapOrder := m.trapOrder) == m
  {
    m.(trapOrder := AddIfAbsent(m.trapOrder, t))
  }

  /** UnregisterTrap: the first occurrence is removed, if any. */
  function UnregisterTrap(m: Manager, t: nat): (r: Manager)
    ensures t !in m.trapOrder ==> r == m
    ensures t in m.trapOrder ==> multiset(r.trapOrder) == multiset(m.trapOrder) - multiset{t}
    ensures NoDup(m.trapOrder) ==> t !in r.trapOrder && NoDup(r.trapOrder)
    ensures r.(trapOrder := m.trapOrder) == m
  {
    RemoveFirstNoDupIfNoDup(m.trapOrder, t);
    m.(trapOrder := RemoveFirst(m.trapOrder, t))
  }

  lemma RemoveFirstNoDupIfNoDup(s: seq<nat>, x: nat)
    ensures NoDup(s) ==> x !in RemoveFirst(s, x) && NoDup(RemoveFirst(s, x))
  {
    if NoDup(s) {
      RemoveFirstNoDup(s, x);
    }
  }

  /** Unregistering undoes a fresh registration, for enemies and traps. */
  lemma RegisterRoundTrip(m: Manager, e: nat, t: nat)
    requires e !in m.enemies && t !in m.trapOrder
    ensures UnregisterEnemy(RegisterEnemy(m, e), e) == m
    ensures UnregisterTrap(RegisterTrap(m, t), t) == m
  {
    RemoveAfterAdd(m.enemies, e);
    RemoveAfterAdd(m.trapOrder, t);
  }

  /** An enemy hit as the enemy's own component handles it: a hit that
      kills the enemy unregisters it from the manager. */
  function DamageEnemy(m: Manager, e: nat, h: EnemyHealth.Health, amount: int): (r: (Manager, EnemyHealth.Health))
    ensures r.1 == EnemyHealth.TakeDamage(h, amount).health
    ensures EnemyHealth.TakeDamage(h, amount).died && NoDup(m.enemies) ==> e !in r.0.enemies
    ensures !EnemyHealth.TakeDamage(h, amount).died ==> r.0 == m
    ensures r.0.(enemies := m.enemies) == m
    ensures forall x :: x in r.0.enemies ==> x in m.enemies
    ensures forall x :: x in m.enemies && x != e ==> x in r.0.enemies
    ensures NoDup(m.enemies) ==> NoDup(r.0.enemies)
  {
    var hit := EnemyHealth.TakeDamage(h, amount);
    (if hit.died then UnregisterEnemy(m, e) else m, hit.health)
  }

  /** The enemies a trap fire damaged, each hit with the trap's power in
      turn; `healths` holds the live enemies' hit points. */
  function DamageEnemies(m: Manager, healths: map<nat, EnemyHealth.Health>, ids: seq<nat>, power: int)
    : (r: (Manager, map<nat, EnemyHealth.Health>))
    ensures r.1.Keys == healths.Keys
    ensures forall id :: id in healths && id !in ids ==> r.1[id] == healths[id]
    ensures NoDup(ids) ==> forall id :: id in healths && id in ids ==>
              r.1[id] == EnemyHealth.TakeDamage(healths[id], power).health
    ensures NoDup(ids) && NoDup(m.enemies) ==>
              forall id :: (id in healths && id in ids && EnemyHealth.TakeDamage(healths[id], power).died)
                ==> id !in r.0.enemies
    ensures forall x :: x in r.0.enemies ==> x in m.enemies
    ensures forall x :: x in m.enemies && x !in ids ==> x in r.0.enemies
    ensures NoDup(m.enemies) ==> NoDup(r.0.enemies)
    ensures r.0.(enemies := m.enemies) == m
    decreases |ids|
  {
    if ids == [] then (m, healths)
    else if ids[0] !in healths then DamageEnemies(m, healths, ids[1..], power)
    else
      var id := ids[0];
      var (m1, h1) := DamageEnemy(m, id, healths[id], power);
      var rest := DamageEnemies(m1, healths[id := h1], ids[1..], power);
      assert NoDup(ids) ==> id !in ids[1..] && NoDup(ids[1..]) by {
        if NoDup(ids) {
          forall i, j | 0 <= i < j < |ids[1..]| ensures ids[1..][i] != ids[1..][j] {
            assert ids[1..][i] == ids[i + 1] && ids[1..][j] == ids[j + 1];
          }
          forall k | 0 <= k < |ids[1..]| ensures ids[1..][k] != id {
            assert ids[1..][k] == ids[k + 1];
          }
        }
      }
      assert forall x :: x in ids <==> x == id || x in ids[1..];
      rest
  }

  /** What one trap fire reaches (the `TrapAttack.DoAttack` effects over the board of that
      moment) and its attack power. */
  datatype Fire = Fire(effects: TrapAttack.Effects, power: int)

  /** The effects of one trap fire reaching the manager: the damaged
      enemies lose the trap's power (dying and unregistering at zero), and
      the player, if covered, takes it once. Enemy and player damage touch
      disjoint state, so applying them in two groups gives the same result
      as the per-cell interleaving. */
  function ApplyTrapFire(m: Manager, f: Fire): (r: Manager)
    ensures r.enemyHP.Keys == m.enemyHP.Keys
    ensures forall id :: id in m.enemyHP && id !in f.effects.damaged ==> r.enemyHP[id] == m.enemyHP[id]
    ensures f.effects.playerHit && !m.gameOver ==> r.hp == Max(m.hp - f.power, 0)
    ensures !f.effects.playerHit ==> r.hp == m.hp && r.gameOver == m.gameOver
    ensures m.gameOver ==> r.hp == m.hp && r.gameOver
    ensures NoDup(f.effects.damaged) ==> forall id :: id in m.enemyHP && id in f.effects.damaged ==>
              r.enemyHP[id] == EnemyHealth.TakeDamage(m.enemyHP[id], f.power).health
    ensures NoDup(f.effects.damaged) && NoDup(m.enemies) ==>
              forall id :: (id in m.enemyHP && id in f.effects.damaged
                            && EnemyHealth.TakeDamage(m.enemyHP[id], f.power).died) ==> id !in r.enemies
    ensures forall x :: x in r.enemies ==> x in m.enemies
    ensures forall x :: x in m.enemies && x !in f.effects.damaged ==> x in r.enemies
    ensures NoDup(m.enemies) ==> NoDup(r.enemies)
    ensures r.gameOver ==> r.inputLocked || m.gameOver
    ensures r.(hp := m.hp, gameOver := m.gameOver, inputLocked := m.inputLocked,
               enemies := m.enemies, enemyHP := m.enemyHP) == m
  {
    var (m1, h1) := DamageEnemies(m, m.enemyHP, f.effects.damaged, f.power);
    var m2 := m1.(enemyHP := h1);
    if f.effects.playerHit then TakeDamage(m2, f.power) else m2
  }

  /** Within one fire each enemy on the rays takes the trap's power exactly
      once, however many cells of its rays reach it. */
  lemma TrapFireHitsEachEnemyOnce(m: Manager, hasTilemaps: bool,
                                  kind: Rays.RayKind, b: Rays.Board, self: nat, origin: Cell,
                                  hitsAt: Cell -> seq<TrapAttack.Occupant>, power: int, id: nat)
    requires Rays.Valid(b)
    requires id in m.enemyHP && id in TrapAttack.DoAttack(hasTilemaps, kind, b, self, origin, hitsAt).damaged
    ensures ApplyTrapFire(m, Fire(TrapAttack.DoAttack(hasTilemaps, kind, b, self, origin, hitsAt), power)).enemyHP[id]
            == EnemyHealth.TakeDamage(m.enemyHP[id], power).health
  {
  }

  // ---------------------------------------------------------------------
  // The enemy turn
  // ---------------------------------------------------------------------

  /** An actor of the enemy turn, in the order it ran. */
  datatype Actor = EnemyActor(enemy: nat) | TrapActor(trap: nat)

  function EnemyActors(es: seq<nat>): (r: seq<Actor>)
    ensures |r| == |es| && forall i :: 0 <= i < |es| ==> r[i] == EnemyActor(es[i])
  {
    seq(|es|, i requires 0 <= i < |es| => EnemyActor(es[i]))
  }

  function TrapActors(ts: seq<nat>): (r: seq<Actor>)
    ensures |r| == |ts| && forall i :: 0 <= i < |ts| ==> r[i] == TrapActor(ts[i])
  {
    seq(|ts|, i requires 0 <= i < |ts| => TrapActor(ts[i]))
  }

  /** The test HandleTrapsAfterEnemies applies before offering `Act`: a live
      trap that acts in the enemy phase and is ready. */
  predicate Eligible(traps: map<nat, Trap>, t: nat, ready: nat -> bool) {
    t in traps && TrapCycle.ShouldActOnPhase(traps[t].cfg, EnemyTurn) && ready(t)
  }

  /** The traps, in registration order, that are offered `Act`. */
  function Offered(traps: map<nat, Trap>, ts: seq<nat>, ready: nat -> bool): (r: seq<nat>)
    ensures forall t :: t in r <==> t in ts && Eligible(traps, t, ready)
    decreases |ts|
  {
    if ts == [] then []
    else
      var rest := Offered(traps, ts[1..], ready);
      assert forall t :: t in ts <==> t == ts[0] || t in ts[1..];
      if Eligible(traps, ts[0], ready) then [ts[0]] + rest else rest
  }

  /** Eligibility reads only the keys and the settings, so ticking or
      firing traps does not change which ones are offered. */
  lemma {:induction false} OfferedIgnoresState(a: map<nat, Trap>, b: map<nat, Trap>, ts: seq<nat>, ready: nat -> bool)
    requires a.Keys == b.Keys
    requires forall t :: t in a ==> a[t].cfg == b[t].cfg
    ensures Offered(a, ts, ready) == Offered(b, ts, ready)
    decreases |ts|
  {
    if ts != [] {
      OfferedIgnoresState(a, b, ts[1..], ready);
      assert Eligible(a, ts[0], ready) == Eligible(b, ts[0], ready);
    }
  }

  /** The enemies' loop: each enemy in snapshot order takes its turn, the
      loop stopping as soon as the game is over. `strike(e)` is the damage
      enemy `e` deals the player on its turn (the AttackPlayer outcome of
      EnemyAI), if any. Returns the enemies that ran. */
  function RunEnemies(m: Manager, es: seq<nat>, strike: nat -> Option<int>): (r: (Manager, seq<nat>))
    ensures r.1 <= es
    ensures !r.0.gameOver ==> r.1 == es
    ensures m.gameOver ==> r == (m, [])
    ensures m.gameOver ==> r.0.gameOver
    ensures r.0.gameOver ==> r.0.inputLocked || m.gameOver
    ensures r.0.(hp := m.hp, gameOver := m.gameOver, inputLocked := m.inputLocked) == m
    decreases |es|
  {
    if es == [] || m.gameOver then (m, [])
    else
      var m1 := match strike(es[0]) case Some(d) => TakeDamage(m, d) case None => m;
      var rest := RunEnemies(m1, es[1..], strike);
      assert es == [es[0]] + es[1..];
      (rest.0, [es[0]] + rest.1)
  }

  /** What `Act` does for trap `t` in the enemy phase, once it is ready. */
  function EnemyAct(m: Manager, t: nat): TrapCycle.ActResult
    requires t in m.traps
  {
    TrapCycle.Act(m.traps[t].cfg, m.traps[t].state, EnemyTurn, true)
  }

  /** Replaces the state of trap `t`, keeping everything else. */
  function StepTrap(m: Manager, t: nat, s: TrapCycle.TrapState): (r: Manager)
    requires t in m.traps
    ensures r.traps.Keys == m.traps.Keys
    ensures forall u :: u in m.traps ==> r.traps[u].cfg == m.traps[u].cfg
    ensures forall u :: u in m.traps && u != t ==> r.traps[u] == m.traps[u]
    ensures r.traps[t].state == s
    ensures r.(traps := m.traps) == m
  {
    m.(traps := m.traps[t := m.traps[t].(state := s)])
  }

  /** Offers `Act` to one eligible trap. A fire applies its effects: each
      enemy it reached takes the trap's power, dying and unregistering at
      zero, and the player, if reached, takes it once. A trap that does not
      fire changes nothing but its own state. */
  function OfferAct(m: Manager, t: nat, ready: nat -> bool, fire: nat -> Fire): (r: Manager)
    requires Eligible(m.traps, t, ready)
    ensures r.traps.Keys == m.traps.Keys
    ensures forall u :: u in m.traps ==> r.traps[u].cfg == m.traps[u].cfg
    ensures forall u :: u in m.traps && u != t ==> r.traps[u] == m.traps[u]
    ensures r.traps[t].state == EnemyAct(m, t).state
    ensures !EnemyAct(m, t).fired ==> r == m.(traps := r.traps)
    ensures EnemyAct(m, t).fired ==> r == ApplyTrapFire(m.(traps := r.traps), fire(t))
    ensures r.hp != m.hp || r.gameOver != m.gameOver ==> EnemyAct(m, t).fired && fire(t).effects.playerHit
    ensures forall x :: x in r.enemies ==> x in m.enemies
    ensures forall x :: x in m.enemies && x !in fire(t).effects.damaged ==> x in r.enemies
    ensures NoDup(m.enemies) ==> NoDup(r.enemies)
    ensures r.enemyHP.Keys == m.enemyHP.Keys
    ensures r.(traps := m.traps, hp := m.hp, gameOver := m.gameOver, inputLocked := m.inputLocked,
               enemies := m.enemies, enemyHP := m.enemyHP) == m
    ensures m.gameOver ==> r.gameOver
    ensures r.gameOver ==> r.inputLocked || m.gameOver
  {
    var m1 := StepTrap(m, t, EnemyAct(m, t).state);
    if EnemyAct(m, t).fired then ApplyTrapFire(m1, fire(t)) else m1
  }

  /** HandleTrapsAfterEnemies: every eligible trap, in snapshot order, is
      offered `Act`, the loop stopping as soon as the game is over. Returns
      the traps offered. Enemies leave the registry only when a fire of one
      of them killed them. */
  function RunTraps(m: Manager, ts: seq<nat>, ready: nat -> bool, fire: nat -> Fire): (r: (Manager, seq<nat>))
    ensures r.1 <= Offered(m.traps, ts, ready)
    ensures !r.0.gameOver ==> r.1 == Offered(m.traps, ts, ready)
    ensures m.gameOver ==> r == (m, [])
    ensures m.gameOver ==> r.0.gameOver
    ensures r.0.gameOver ==> r.0.inputLocked || m.gameOver
    ensures r.0.traps.Keys == m.traps.Keys
    ensures forall u :: u in m.traps ==> r.0.traps[u].cfg == m.traps[u].cfg
    ensures forall u :: u in m.traps && u !in r.1 ==> r.0.traps[u] == m.traps[u]
    ensures r.0.enemyHP.Keys == m.enemyHP.Keys
    ensures forall x :: x in r.0.enemies ==> x in m.enemies
    ensures forall x :: x in m.enemies && (forall u :: u in r.1 ==> x !in fire(u).effects.damaged) ==> x in r.0.enemies
    ensures NoDup(m.enemies) ==> NoDup(r.0.enemies)
    ensures r.0.(traps := m.traps, hp := m.hp, gameOver := m.gameOver, inputLocked := m.inputLocked,
                 enemies := m.enemies, enemyHP := m.enemyHP) == m
    decreases |ts|
  {
    if ts == [] || m.gameOver then (m, [])
    else if !Eligible(m.traps, ts[0], ready) then
      RunTraps(m, ts[1..], ready, fire)
    else
      var m1 := OfferAct(m, ts[0], ready, fire);
      var rest := RunTraps(m1, ts[1..], ready, fire);
      OfferedIgnoresState(m.traps, m1.traps, ts[1..], ready);
      (rest.0, [ts[0]] + rest.1)
  }

  /** The order the enemy turn would run if the game did not end: every
      registered enemy, then every eligible trap. */
  function Schedule(m: Manager, ready: nat -> bool): seq<Actor> {
    EnemyActors(m.enemies) + TrapActors(Offered(m.traps, m.trapOrder, ready))
  }

  /** HandleEnemyTurn followed by its closing switch to the player's move
      phase. The actors run in the schedule's order and stop as soon as
      the game is over; a game that survives the turn returns to the
      player's move phase with input unlocked. */
  function HandleEnemyTurn(m: Manager, ready: nat -> bool, enemyStrike: nat -> Option<int>,
                           fire: nat -> Fire): (r: (Manager, seq<Actor>))
    ensures r.1 <= Schedule(m, ready)
    ensures !r.0.gameOver ==> r.1 == Schedule(m, ready)
    ensures !r.0.gameOver && !m.advancing ==> r.0.phase == PlayerMove && !r.0.inputLocked && !r.0.advancing
    ensures m.gameOver ==> r.0.gameOver && r.1 == []
    ensures r.0.gameOver ==> r.0.inputLocked
    ensures r.0.trapOrder == m.trapOrder && r.0.maxHP == m.maxHP && r.0.enemyHP.Keys == m.enemyHP.Keys
    ensures forall x :: x in r.0.enemies ==> x in m.enemies
    ensures NoDup(m.enemies) ==> NoDup(r.0.enemies)
    ensures forall x :: x in m.enemies && (forall u :: TrapActor(u) in r.1 ==> x !in fire(u).effects.damaged) ==>
              x in r.0.enemies
  {
    var m0 := m.(inputLocked := true);
    if m0.gameOver then (m0, [])
    else
      var (m1, ran) := RunEnemies(m0, m0.enemies, enemyStrike);
      if m1.gameOver then (m1, EnemyActors(ran))
      else
        var (m2, fired) := RunTraps(m1, m1.trapOrder, ready, fire);
        assert m1.traps == m.traps;
        EnemyActorsPrefix(ran, m.enemies);
        var log := EnemyActors(ran) + TrapActors(fired);
        TrapActorsPrefix(fired, Offered(m.traps, m.trapOrder, ready));
        TrapsInLog(ran, fired);
        if m2.gameOver then (m2, log) else (SwitchPhase(m2, PlayerMove), log)
  }

  /** A trap appears in the turn's log exactly when it ran. */
  lemma TrapsInLog(es: seq<nat>, ts: seq<nat>)
    ensures forall u :: TrapActor(u) in EnemyActors(es) + TrapActors(ts) <==> u in ts
  {
    forall u ensures TrapActor(u) in EnemyActors(es) + TrapActors(ts) <==> u in ts {
      if u in ts {
        var i :| 0 <= i < |ts| && ts[i] == u;
        assert (EnemyActors(es) + TrapActors(ts))[|es| + i] == TrapActor(u);
      }
    }
  }

  lemma EnemyActorsPrefix(a: seq<nat>, b: seq<nat>)
    requires a <= b
    ensures EnemyActors(a) <= EnemyActors(b)
  {
  }

  lemma TrapActorsPrefix(a: seq<nat>, b: seq<nat>)
    requires a <= b
    ensures TrapActors(a) <= TrapActors(b)
  {
  }

  /** All enemies act before any trap: once a trap has run, only traps
      follow. */
  lemma EnemiesBeforeTraps(m: Manager, ready: nat -> bool, enemyStrike: nat -> Option<int>,
                           fire: nat -> Fire)
    ensures var log := HandleEnemyTurn(m, ready, enemyStrike, fire).1;
            forall i, j :: 0 <= i < j < |log| && log[i].TrapActor? ==> log[j].TrapActor?
  {
    var log := HandleEnemyTurn(m, ready, enemyStrike, fire).1;
    var s := Schedule(m, ready);
    forall i, j | 0 <= i < j < |log| && log[i].TrapActor? ensures log[j].TrapActor? {
      assert log[i] == s[i] && log[j] == s[j];
    }
  }

  /** Nothing in the game offers a trap `Act` outside the enemy
      phase, so a trap that acts only in the player's phase is never run by
      the enemy turn (its countdown still ticks at each player phase). */
  lemma PlayerPhaseTrapNeverActs(m: Manager, ready: nat -> bool, enemyStrike: nat -> Option<int>,
                                 fire: nat -> Fire, t: nat)
    requires t in m.traps && !m.traps[t].cfg.actOnEnemyTurn
    ensures TrapActor(t) !in HandleEnemyTurn(m, ready, enemyStrike, fire).1
  {
    var log := HandleEnemyTurn(m, ready, enemyStrike, fire).1;
    var off := Offered(m.traps, m.trapOrder, ready);
    TrapsInLog(m.enemies, off);
    assert TrapActor(t) !in Schedule(m, ready);
  }

  /** The trap cycle the manager runs: entering the enemy phase ticks every
      registered trap's countdown, and the offer later in the same phase
      calls `Act`, so an offered trap goes through exactly
      `TrapCycle.EnemyPhase`, tick first, fire second. */
  lemma EnemyPhaseAsRun(m: Manager, t: nat, ready: nat -> bool, fire: nat -> Fire)
    requires m.advancing && !m.gameOver && m.pending == EnemyTurn
    requires NoDup(m.trapOrder) && t in m.trapOrder
    requires Eligible(m.traps, t, ready)
    ensures var r := CompleteSwitch(m);
            Eligible(r.traps, t, ready)
            && OfferAct(r, t, ready, fire).traps[t].state
               == TrapCycle.EnemyPhase(m.traps[t].cfg, m.traps[t].state, true).state
  {
  }
}

=== FILE: grid.dfy ===
/** Integer grid geometry. The engine's `Vector3Int` cells always carry
    z = 0 in this game, so a cell is a pair of unbounded integers; offsets
    (`Vector2Int` directions) use the same type. */
module Grid {

  datatype Cell = Cell(x: int, y: int)

  const Origin := Cell(0, 0)

  /** `Vector3Int.up`, `.down`, `.left`, `.right`. */
  const Up := Cell(0, 1)
  const Down := Cell(0, -1)
  const Left := Cell(-1, 0)
  const Right := Cell(1, 0)

  /** The four diagonal unit offsets, named by their signs. */
  const UpRight := Cell(1, 1)
  const DownRight := Cell(1, -1)
  const UpLeft := Cell(-1, 1)
  const DownLeft := Cell(-1, -1)

  function Add(a: Cell, b: Cell): Cell {
    Cell(a.x + b.x, a.y + b.y)
  }

  function Sub(a: Cell, b: Cell): Cell {
    Cell(a.x - b.x, a.y - b.y)
  }

  /** `origin + k * dir`. */
  function Step(origin: Cell, dir: Cell, k: int): Cell {
    Cell(origin.x + k * dir.x, origin.y + k * dir.y)
  }

  function Abs(n: int): nat {
    if n < 0 then -n else n
  }

  function Max(a: int, b: int): int {
    if a < b then b else a
  }

  function Min(a: int, b: int): int {
    if a < b then a else b
  }

  /** Unity's `Mathf.Clamp(v, lo, hi)`: the lower bound is checked first, so
      with `lo > hi` a value below `lo` still yields `lo`. */
  function Clamp(v: int, lo: int, hi: int): int {
    if v < lo then lo else if v > hi then hi else v
  }

  /** Chebyshev (king-move) distance. */
  function Chebyshev(a: Cell, b: Cell): nat {
    Max(Abs(a.x - b.x), Abs(a.y - b.y))
  }

  /** Manhattan (rook-path) distance. */
  function Manhattan(a: Cell, b: Cell): nat {
    Abs(a.x - b.x) + Abs(a.y - b.y)
  }

  /** Squared Euclidean distance: compares exactly like `Vector3.Distance`
      on integer cells, without a square root. */
  function SqDist(a: Cell, b: Cell): nat {
    (a.x - b.x) * (a.x - b.x) + (a.y - b.y) * (a.y - b.y)
  }

  /** One of the eight king-move offsets. */
  predicate IsUnitDir(d: Cell) {
    -1 <= d.x <= 1 && -1 <= d.y <= 1 && d != Origin
  }
}

=== FILE: phases.dfy ===
/** The turn phases of the game's `TurnState` enum. `PlayerTurn` is the
    single player phase of the later PlayerMover revision; the GameManager
    revision never enters it and treats it as "any other state". */
module Phases {

  datatype Phase = PlayerMove | PlayerAction | EnemyTurn | PlayerTurn

  /** GameManager.NextState's successor table. */
  function NextPhase(p: Phase): (r: Phase)
    ensures r != PlayerTurn
    ensures r == PlayerAction <==> p == PlayerMove
    ensures r == EnemyTurn <==> p == PlayerAction
    ensures r == PlayerMove <==> p == EnemyTurn || p == PlayerTurn
  {
    match p
    case PlayerMove => PlayerAction
    case PlayerAction => EnemyTurn
    case EnemyTurn => PlayerMove
    case PlayerTurn => PlayerMove
  }

  /** Three successor steps bring any of the three managed phases back to
      itself: the phase machine is a 3-cycle. */
  lemma NextPhaseCycle(p: Phase)
    requires p != PlayerTurn
    ensures NextPhase(NextPhase(NextPhase(p))) == p
    ensures NextPhase(p) != p
  {
  }
}

=== FILE: player.dfy ===
/** Player (the two-phase revision, whose class is also named PlayerMover
    in the source): a move phase, in which a click moves one step or
    stays, and an action phase, in which the player either throws
    (Search mode) or attacks a neighbour (Attack mode). Every action that
    happens ends with one GameManager.NextState. */
module Player {
  import opened Wrappers
  import opened Grid
  import opened Phases
  import EnemyHealth
  import opened Strike
  import GM = GameManager
  import PlayerMover

  datatype Mode = Search | Attack

  /** The right-click toggle. */
  function Toggle(m: Mode): (r: Mode)
    ensures r != m
  {
    if m == Search then Attack else Search
  }

  /** Two toggles restore the mode. */
  lemma ToggleInvolution(m: Mode)
    ensures Toggle(Toggle(m)) == m
  {
  }

  /** The state Update reads: whether a manager exists, input is locked,
      the phase, whether a move or an action is running. */
  datatype Gates = Gates(hasManager: bool, inputLocked: bool, phase: Phase, moving: bool, actionLocked: bool)

  /** This frame's mouse buttons and the clicked cell. */
  datatype Input = Input(left: bool, right: bool, clicked: Cell)

  /** What the frame started. Every variant but `NoAction` ends with
      exactly one NextState (after the move, after the thrown bullet
      finishes or the delay, after the attack's delay). */
  datatype Action = NoAction | Stay | MoveTo(to: Cell) | Throw | AttackAt(target: Cell)

  /** The grid as a click sees it. */
  datatype Surroundings = Surroundings(floor: set<Cell>, obstacles: set<Cell>)

  predicate Reachable(cur: Cell, c: Cell) {
    Chebyshev(cur, c) <= 1
  }

  /** The move-phase click. */
  function MoveClick(cur: Cell, clicked: Cell, s: Surroundings): (r: Action)
    ensures r != NoAction ==> Reachable(cur, clicked) && clicked in s.floor
    ensures r == Stay <==> clicked == cur && clicked in s.floor
    ensures r.MoveTo? <==> clicked != cur && Reachable(cur, clicked) && clicked in s.floor && clicked !in s.obstacles
    ensures r.MoveTo? ==> r.to == clicked && IsUnitDir(Sub(clicked, cur))
    ensures !r.Throw? && !r.AttackAt?
  {
    if !Reachable(cur, clicked) || clicked !in s.floor then NoAction
    else if clicked == cur then Stay
    else if clicked in s.obstacles then NoAction
    else MoveTo(clicked)
  }

  /** The action-phase left click in the given mode. */
  function ActionClick(mode: Mode, cur: Cell, clicked: Cell): (r: Action)
    ensures mode == Search ==> r == Throw
    ensures mode == Attack ==> (r != NoAction <==> IsUnitDir(Sub(clicked, cur)))
    ensures r.AttackAt? ==> r.target == clicked && clicked != cur && Reachable(cur, clicked)
  {
    if mode == Search then Throw
    else if IsUnitDir(Sub(clicked, cur)) then AttackAt(clicked)
    else NoAction
  }

  /** Update: returns the mode after the frame and what it started. The
      right-click toggle comes before the left click of the same frame. */
  function Update(g: Gates, mode: Mode, inp: Input, cur: Cell, s: Surroundings): (r: (Mode, Action))
    ensures !g.hasManager || g.inputLocked || g.moving ==> r == (mode, NoAction)
    ensures g.phase != PlayerMove && g.phase != PlayerAction ==> r == (mode, NoAction)
    ensures g.phase == PlayerMove ==> r.0 == mode && !r.1.Throw? && !r.1.AttackAt?
    ensures g.phase == PlayerAction && g.actionLocked ==> r == (mode, NoAction)
    ensures r.0 != mode ==> g.phase == PlayerAction && inp.right && r.0 == Toggle(mode)
    ensures r.1 != NoAction ==> inp.left
    ensures (r.1.Stay? || r.1.MoveTo?) ==> g.phase == PlayerMove
    ensures (r.1.Throw? || r.1.AttackAt?) ==> g.phase == PlayerAction
    ensures g.hasManager && !g.inputLocked && !g.moving && g.phase == PlayerMove ==>
              r == (mode, if inp.left then MoveClick(cur, inp.clicked, s) else NoAction)
    ensures g.hasManager && !g.inputLocked && !g.moving && g.phase == PlayerAction && !g.actionLocked ==>
              r.0 == (if inp.right then Toggle(mode) else mode)
              && r.1 == (if inp.left then ActionClick(r.0, cur, inp.clicked) else NoAction)
  {
    if !g.hasManager || g.inputLocked then (mode, NoAction)
    else if g.phase != PlayerMove && g.phase != PlayerAction then (mode, NoAction)
    else if g.moving then (mode, NoAction)
    else if g.phase == PlayerMove then
      (mode, if inp.left then MoveClick(cur, inp.clicked, s) else NoAction)
    else if g.actionLocked then (mode, NoAction)
    else
      var m := if inp.right then Toggle(mode) else mode;
      (m, if inp.left then ActionClick(m, cur, inp.clicked) else NoAction)
  }

  /** Attack mode never attacks the player's own cell, and only ever one
      of the eight neighbours. */
  lemma AttackOnlyNeighbours(g: Gates, mode: Mode, inp: Input, cur: Cell, s: Surroundings)
    ensures var r := Update(g, mode, inp, cur, s);
            r.1.AttackAt? ==> r.1.target != cur && IsUnitDir(Sub(r.1.target, cur))
  {
  }

  /** A right and a left click in the same frame act in the toggled mode:
      from Attack mode the left click throws. */
  lemma ToggleBeforeClick(g: Gates, cur: Cell, clicked: Cell, s: Surroundings)
    requires g.hasManager && !g.inputLocked && !g.moving && !g.actionLocked && g.phase == PlayerAction
    ensures Update(g, Attack, Input(true, true, clicked), cur, s) == (Search, Throw)
  {
  }

  /** PerformAttack: a "Bullet"-tagged target is destroyed; otherwise an
      EnemyHealth takes exactly `attackPower`; a trap is left alone. */
  function PerformAttack(attackPower: int, hit: Option<Hittable>): (r: Effect)
    ensures !r.TrapArmed?
    ensures r == BulletDestroyed <==> hit.Some? && hit.value.bulletTag
    ensures r.EnemyDamaged? <==> hit.Some? && !hit.value.bulletTag && hit.value.enemy.Some?
    ensures r.EnemyDamaged? && attackPower > 0 ==>
              r.hit.health.current == Max(hit.value.enemy.value.current - attackPower, 0)
    ensures r.EnemyDamaged? && attackPower <= 0 ==> r.hit == EnemyHealth.Hit(hit.value.enemy.value, false)
  {
    if hit.None? then NoEffect
    else if hit.value.bulletTag then BulletDestroyed
    else if hit.value.enemy.Some? then EnemyDamaged(EnemyHealth.TakeDamage(hit.value.enemy.value, attackPower))
    else NoEffect
  }

  /** The two revisions agree on an untagged enemy and differ on traps:
      this one ignores a trap that the single-phase revision force-arms. */
  lemma RevisionsCompared(attackPower: int, h: Hittable)
    ensures !h.bulletTag && h.enemy.Some? ==>
              PerformAttack(attackPower, Some(h)) == PlayerMover.PerformAttack(attackPower, Some(h))
    ensures h.enemy.None? && h.trap.Some? && !h.bulletTag ==>
              PerformAttack(attackPower, Some(h)) == NoEffect
              && PlayerMover.PerformAttack(attackPower, Some(h)).TrapArmed?
  {
  }

  /** An action that happened, followed by its NextState, advances the
      manager one phase: from the move phase to the action phase, and from
      the action phase to the enemy phase. */
  lemma ActionAdvancesPhase(m: GM.Manager, a: Action)
    requires !m.advancing && !m.gameOver
    requires m.phase == PlayerMove || m.phase == PlayerAction
    ensures var r := GM.CompleteSwitch(GM.NextState(m));
            r.phase == NextPhase(m.phase)
            && (m.phase == PlayerMove ==> r.phase == PlayerAction && !r.inputLocked)
            && (m.phase == PlayerAction ==> r.phase == EnemyTurn && r.inputLocked)
  {
  }
}

=== FILE: player_mover.dfy ===
/** PlayerMover (the single-phase revision): a left click in the player's
    turn is classified as stay, cancel, attack or move; an attack then
    damages an enemy or force-arms a trap. Every accepted action ends the
    turn with exactly one ConsumeAction; a cancelled one with none. This
    revision talks to a GameManager with `TryBeginAction` and
    `ConsumeAction`, which is not part of this model: the gate's answer is
    a parameter and the consumption is counted. */
module PlayerMover {
  import opened Wrappers
  import opened Grid
  import opened Phases
  import EnemyHealth
  import TrapCycle
  import opened Strike

  /** The checks at the head of Update: a manager exists, input is
      unlocked, the phase is the player's turn, a tilemap is assigned, no
      move or action is running, the left button went down and a camera
      exists. */
  datatype Gates = Gates(
    hasManager: bool,
    inputLocked: bool,
    phase: Phase,
    hasTilemap: bool,
    moving: bool,
    actionLocked: bool,
    leftClick: bool,
    hasCamera: bool)

  predicate Open(g: Gates) {
    g.hasManager && !g.inputLocked && g.phase == PlayerTurn && g.hasTilemap
    && !g.moving && !g.actionLocked && g.leftClick && g.hasCamera
  }

  /** What a click resolves to. `Ignored`: nothing happened (a gate was
      closed or TryBeginAction refused). `Cancel`: no ConsumeAction, and
      input is ignored for one frame. */
  datatype Click = Ignored | Stay | Cancel | Attack(target: Cell) | Move(to: Cell)

  /** The grid as the click sees it: floor tiles, obstacle-layer and
      attackable-layer colliders, each as the cells they cover. */
  datatype Surroundings = Surroundings(floor: set<Cell>, obstacles: set<Cell>, attackable: set<Cell>)

  /** Update's click resolution. `begun` is TryBeginAction's answer. */
  function Resolve(g: Gates, begun: bool, cur: Cell, clicked: Cell, s: Surroundings): (r: Click)
    ensures !Open(g) || !begun ==> r == Ignored
    ensures Open(g) && begun ==> r != Ignored
    ensures r == Stay <==> Open(g) && begun && clicked == cur
    ensures Open(g) && begun && Chebyshev(cur, clicked) > 1 ==> r == Cancel
    ensures r.Attack? ==> r.target == clicked && IsUnitDir(Sub(clicked, cur)) && clicked in s.attackable
    ensures r.Move? ==> r.to == clicked && IsUnitDir(Sub(clicked, cur))
                        && clicked in s.floor && clicked !in s.obstacles && clicked !in s.attackable
  {
    if !Open(g) || !begun then Ignored
    else if clicked == cur then Stay
    else if Chebyshev(cur, clicked) > 1 then Cancel
    else if clicked in s.attackable then Attack(clicked)
    else if clicked in s.floor && clicked !in s.obstacles then Move(clicked)
    else Cancel
  }

  /** ConsumeAction calls each outcome leads to: stay consumes at once,
      a move after it lands, an attack after its delay (in the `finally`,
      whether or not anything was hit). */
  function Consumes(c: Click): (r: nat)
    ensures r <= 1
    ensures c == Ignored || c == Cancel ==> r == 0
  {
    match c
    case Stay => 1
    case Move(_) => 1
    case Attack(_) => 1
    case _ => 0
  }

  /** Every accepted click is one step within reach, and ends the turn
      exactly once; a cancelled or ignored click never does. */
  lemma ReachAndConsume(g: Gates, begun: bool, cur: Cell, clicked: Cell, s: Surroundings)
    ensures var r := Resolve(g, begun, cur, clicked, s);
            (Consumes(r) == 1 <==> r.Stay? || r.Move? || r.Attack?)
            && (Consumes(r) == 1 ==> Chebyshev(cur, clicked) <= 1)
            && (Consumes(r) == 0 <==> r == Ignored || r == Cancel)
  {
  }

  /** Attack priority: an attackable neighbour is attacked even when it
      would also be a legal move. */
  lemma AttackBeforeMove(g: Gates, cur: Cell, clicked: Cell, s: Surroundings)
    requires Open(g) && IsUnitDir(Sub(clicked, cur))
    requires clicked in s.attackable && clicked in s.floor && clicked !in s.obstacles
    ensures Resolve(g, true, cur, clicked, s) == Attack(clicked)
  {
  }

  /** A neighbour that is neither attackable nor open floor cancels. */
  lemma BlockedNeighbourCancels(g: Gates, cur: Cell, clicked: Cell, s: Surroundings)
    requires Open(g) && IsUnitDir(Sub(clicked, cur)) && clicked !in s.attackable
    ensures Resolve(g, true, cur, clicked, s) == Cancel <==> clicked !in s.floor || clicked in s.obstacles
  {
  }

  /** PerformAttack: an EnemyHealth takes exactly `attackPower`; otherwise
      a trap is force-armed; anything else, or nothing, is left alone. */
  function PerformAttack(attackPower: int, hit: Option<Hittable>): (r: Effect)
    ensures r != BulletDestroyed
    ensures r.EnemyDamaged? <==> hit.Some? && hit.value.enemy.Some?
    ensures r.EnemyDamaged? && attackPower > 0 ==>
              r.hit.health.current == Max(hit.value.enemy.value.current - attackPower, 0)
              && r.hit.health.max == hit.value.enemy.value.max
    ensures r.EnemyDamaged? && attackPower <= 0 ==> r.hit == EnemyHealth.Hit(hit.value.enemy.value, false)
    ensures r.TrapArmed? <==> hit.Some? && hit.value.enemy.None? && hit.value.trap.Some?
    ensures r.TrapArmed? ==> r.state.armed && r.state.turnsUntilFire == hit.value.trap.value.turnsUntilFire
  {
    if hit.None? then NoEffect
    else if hit.value.enemy.Some? then EnemyDamaged(EnemyHealth.TakeDamage(hit.value.enemy.value, attackPower))
    else if hit.value.trap.Some? then TrapArmed(TrapCycle.ForceArm(hit.value.trap.value))
    else NoEffect
  }

  /** A force-armed trap that needs arming can fire at its next eligible
      phase once its countdown is zero. */
  lemma ForceArmEnablesFire(cfg: TrapCycle.TrapConfig, st: TrapCycle.TrapState, attackPower: int)
    requires cfg.actOnEnemyTurn && st.turnsUntilFire == 0
    ensures var e := PerformAttack(attackPower, Some(Hittable(false, None, Some(st))));
            e.TrapArmed? && TrapCycle.Act(cfg, e.state, EnemyTurn, true).fired
  {
  }
}

=== FILE: rays.dfy ===
/** The ray geometry of TrapBaseSequenced.RayCells and of the two trap
    kinds built on it: TrapRayOrthoTrap (up, down, left, right rays) and
    TrapRayDiagonalTrap (the four diagonal rays). The tilemap and physics
    queries become a Board of finite cell sets. */
module Rays {
  import opened Grid
  import opened Seqs

  /** What a ray can see. `floor` and `walls` are the cells holding a tile
      of the floor and wall tilemaps; `trapAt` gives the cell of every other
      trap of the scene (a trap's identity is a number); `extent` bounds the
      floor tilemap, as its cell bounds do, and is what makes a ray finite. */
  datatype Board = Board(
    floor: set<Cell>,
    walls: set<Cell>,
    trapAt: map<nat, Cell>,
    stopRayOnTrap: bool,
    extent: nat)

  predicate InExtent(c: Cell, n: nat) {
    Abs(c.x) <= n && Abs(c.y) <= n
  }

  predicate Bounded(cells: set<Cell>, n: nat) {
    forall c :: c in cells ==> InExtent(c, n)
  }

  /** Every floor cell lies inside the extent square. */
  predicate Valid(b: Board) {
    Bounded(b.floor, b.extent)
  }

  /** A finite floor always fits in some extent, so requiring Valid only
      asks that the floor tilemap be finite. */
  lemma {:induction false} FiniteFloorHasExtent(floor: set<Cell>)
    ensures exists n: nat :: Bounded(floor, n)
    decreases floor
  {
    if floor == {} {
      assert Bounded(floor, 0);
    } else {
      var c :| c in floor;
      FiniteFloorHasExtent(floor - {c});
      var n: nat :| Bounded(floor - {c}, n);
      var m: nat := Max(n, Max(Abs(c.x), Abs(c.y)));
      forall d | d in floor ensures InExtent(d, m) {
        if d != c {
          assert d in floor - {c};
        }
      }
      assert Bounded(floor, m);
    }
  }

  /** IsTrapBlockingCell, as "some trap other than `self` stands on `c`",
      where `trapAt` holds the cells of the traps with a floor tilemap (the
      scan of all traps skips the others). The trap layer overlap answers
      the same only while that layer holds trap colliders alone: it looks
      at the one collider found on the cell. */
  predicate TrapBlocks(b: Board, self: nat, c: Cell) {
    exists t :: t in b.trapAt && t != self && b.trapAt[t] == c
  }

  /** The three stop conditions of RayCells, in the order they are checked. */
  predicate Stops(b: Board, self: nat, c: Cell) {
    c in b.walls || c !in b.floor || (b.stopRayOnTrap && TrapBlocks(b, self, c))
  }

  /** A ray is cast only along a king-move direction. */
  predicate RayDir(d: Cell) {
    IsUnitDir(d)
  }

  /** The cells `origin + k * dir` for `k = from, from + 1, ...`, up to and
      excluding the first one that stops the ray. */
  function RayFrom(b: Board, self: nat, origin: Cell, dir: Cell, from: nat): (r: seq<Cell>)
    requires Valid(b) && RayDir(dir) && from >= 1
    ensures forall i :: 0 <= i < |r| ==> r[i] == Step(origin, dir, from + i)
    ensures forall i :: 0 <= i < |r| ==> !Stops(b, self, r[i])
    ensures Stops(b, self, Step(origin, dir, from + |r|))
    decreases b.extent + Abs(origin.x) + Abs(origin.y) + 1 - from
  {
    var c := Step(origin, dir, from);
    if Stops(b, self, c) then []
    else
      assert c in b.floor;
      assert from <= b.extent + Abs(origin.x) + Abs(origin.y) by {
        if dir.x != 0 {
          assert Abs(origin.x + from * dir.x) <= b.extent;
        } else {
          assert Abs(origin.y + from * dir.y) <= b.extent;
        }
      }
      [c] + RayFrom(b, self, origin, dir, from + 1)
  }

  /** RayCells: the ray of trap `self` from `origin` along `dir`. */
  function RayCells(b: Board, self: nat, origin: Cell, dir: Cell): (r: seq<Cell>)
    requires Valid(b) && RayDir(dir)
    ensures forall i :: 0 <= i < |r| ==> r[i] == Step(origin, dir, i + 1)
    ensures forall i :: 0 <= i < |r| ==> !Stops(b, self, r[i])
    ensures Stops(b, self, Step(origin, dir, |r| + 1))
  {
    RayFrom(b, self, origin, dir, 1)
  }

  /** The ray is determined by its stop rule: any sequence of contiguous
      cells from distance one that contains no stop cell and ends just
      before a stop cell is the ray. */
  lemma {:induction false} RayUnique(b: Board, self: nat, origin: Cell, dir: Cell, s: seq<Cell>)
    requires Valid(b) && RayDir(dir)
    requires forall i :: 0 <= i < |s| ==> s[i] == Step(origin, dir, i + 1)
    requires forall i :: 0 <= i < |s| ==> !Stops(b, self, s[i])
    requires Stops(b, self, Step(origin, dir, |s| + 1))
    ensures s == RayCells(b, self, origin, dir)
  {
    var r := RayCells(b, self, origin, dir);
    forall k | 1 <= k <= |s| ensures !Stops(b, self, Step(origin, dir, k)) {
      assert s[k - 1] == Step(origin, dir, k);
    }
    forall k | 1 <= k <= |r| ensures !Stops(b, self, Step(origin, dir, k)) {
      assert r[k - 1] == Step(origin, dir, k);
    }
    StopIsFirst(b, self, origin, dir, |s|, |r|);
    StopIsFirst(b, self, origin, dir, |r|, |s|);
  }

  /** A stop cell at distance `m + 1` lies beyond any stop-free prefix of
      length `n`. */
  lemma StopIsFirst(b: Board, self: nat, origin: Cell, dir: Cell, n: nat, m: nat)
    requires forall k :: 1 <= k <= n ==> !Stops(b, self, Step(origin, dir, k))
    requires Stops(b, self, Step(origin, dir, m + 1))
    ensures n <= m
  {
  }

  /** A ray never contains its origin, and every ray cell lies on the ray's
      line at a positive multiple of the direction. */
  lemma RayOffOrigin(b: Board, self: nat, origin: Cell, dir: Cell)
    requires Valid(b) && RayDir(dir)
    ensures origin !in RayCells(b, self, origin, dir)
    ensures forall c :: c in RayCells(b, self, origin, dir) ==>
              exists k :: 1 <= k && c == Step(origin, dir, k)
  {
    var r := RayCells(b, self, origin, dir);
    forall i | 0 <= i < |r| ensures r[i] != origin {
      StepNotOrigin(origin, dir, i + 1);
    }
  }

  lemma StepNotOrigin(origin: Cell, dir: Cell, k: int)
    requires RayDir(dir) && k >= 1
    ensures Step(origin, dir, k) != origin
  {
    if dir.x != 0 {
      assert k * dir.x != 0;
    } else {
      assert k * dir.y != 0;
    }
  }

  /** A ray never repeats a cell: its cells are distinct multiples of a
      nonzero direction. */
  lemma RayNoDup(b: Board, self: nat, origin: Cell, dir: Cell)
    requires Valid(b) && RayDir(dir)
    ensures NoDup(RayCells(b, self, origin, dir))
  {
    var r := RayCells(b, self, origin, dir);
    forall i, j | 0 <= i < j < |r| ensures r[i] != r[j] {
      assert r[i] == Step(origin, dir, i + 1);
      assert r[j] == Step(origin, dir, j + 1);
      StepInjective(origin, dir, i + 1, j + 1);
    }
  }

  lemma StepInjective(origin: Cell, dir: Cell, k1: int, k2: int)
    requires RayDir(dir) && k1 != k2
    ensures Step(origin, dir, k1) != Step(origin, dir, k2)
  {
    if dir.x == 1 || dir.x == -1 {
      assert k1 * dir.x != k2 * dir.x;
    } else {
      assert dir.y == 1 || dir.y == -1;
      assert k1 * dir.y != k2 * dir.y;
    }
  }

  /** Rays along two different directions share no cell. */
  lemma RaysDisjoint(b: Board, self: nat, origin: Cell, d1: Cell, d2: Cell)
    requires Valid(b) && RayDir(d1) && RayDir(d2) && d1 != d2
    ensures forall c :: c in RayCells(b, self, origin, d1) ==> c !in RayCells(b, self, origin, d2)
  {
    var r1 := RayCells(b, self, origin, d1);
    var r2 := RayCells(b, self, origin, d2);
    forall i, j | 0 <= i < |r1| && 0 <= j < |r2| ensures r1[i] != r2[j] {
      StepsOnDistinctRays(origin, d1, d2, i + 1, j + 1);
    }
  }

  /** Two positive multiples of distinct king-move directions differ. */
  lemma StepsOnDistinctRays(origin: Cell, d1: Cell, d2: Cell, k1: int, k2: int)
    requires RayDir(d1) && RayDir(d2) && d1 != d2 && k1 >= 1 && k2 >= 1
    ensures Step(origin, d1, k1) != Step(origin, d2, k2)
  {
  }

  /** TrapRayOrthoTrap.EnumerateAttackCells. */
  function OrthoAttackCells(b: Board, self: nat, origin: Cell): seq<Cell>
    requires Valid(b)
  {
    RayCells(b, self, origin, Up) + RayCells(b, self, origin, Down)
    + RayCells(b, self, origin, Left) + RayCells(b, self, origin, Right)
  }

  /** TrapRayDiagonalTrap.EnumerateAttackCells. */
  function DiagonalAttackCells(b: Board, self: nat, origin: Cell): seq<Cell>
    requires Valid(b)
  {
    RayCells(b, self, origin, UpRight) + RayCells(b, self, origin, DownRight)
    + RayCells(b, self, origin, UpLeft) + RayCells(b, self, origin, DownLeft)
  }

  /** The two trap kinds built on TrapBaseSequenced. */
  datatype RayKind = Ortho | Diagonal

  /** EnumerateAttackCells, dispatched on the trap kind. */
  function AttackCells(kind: RayKind, b: Board, self: nat, origin: Cell): (r: seq<Cell>)
    requires Valid(b)
    ensures origin !in r
    ensures NoDup(r)
    ensures forall c :: c in r ==> !Stops(b, self, c)
  {
    match kind
    case Ortho =>
      OrthoAttackCellsShape(b, self, origin);
      OrthoAttackCellsNoDup(b, self, origin);
      OrthoAttackCells(b, self, origin)
    case Diagonal =>
      DiagonalAttackCellsShape(b, self, origin);
      DiagonalAttackCellsNoDup(b, self, origin);
      DiagonalAttackCells(b, self, origin)
  }

  /** Attack cells of an orthogonal trap: each differs from the origin in
      exactly one coordinate, the origin is never among them, and no cell
      appears twice (the four rays are pairwise disjoint and each ray walks
      away from the origin). */
  lemma OrthoAttackCellsShape(b: Board, self: nat, origin: Cell)
    requires Valid(b)
    ensures forall c :: c in OrthoAttackCells(b, self, origin) ==>
              (c.x == origin.x) != (c.y == origin.y)
    ensures origin !in OrthoAttackCells(b, self, origin)
    ensures forall c :: c in OrthoAttackCells(b, self, origin) ==> !Stops(b, self, c)
  {
    var u := RayCells(b, self, origin, Up);
    var d := RayCells(b, self, origin, Down);
    var l := RayCells(b, self, origin, Left);
    var r := RayCells(b, self, origin, Right);
    forall c | c in OrthoAttackCells(b, self, origin)
      ensures (c.x == origin.x) != (c.y == origin.y) && !Stops(b, self, c)
    {
      assert c in u || c in d || c in l || c in r;
    }
  }

  /** The four rays of the orthogonal trap are pairwise disjoint; with the
      contiguity of each ray this means the attack cells are duplicate-free. */
  lemma OrthoRaysPairwiseDisjoint(b: Board, self: nat, origin: Cell)
    requires Valid(b)
    ensures var dirs := [Up, Down, Left, Right];
            forall i, j :: 0 <= i < j < 4 ==>
              forall c :: c in RayCells(b, self, origin, dirs[i]) ==> c !in RayCells(b, self, origin, dirs[j])
  {
    var dirs := [Up, Down, Left, Right];
    forall i, j | 0 <= i < j < 4
      ensures forall c :: c in RayCells(b, self, origin, dirs[i]) ==> c !in RayCells(b, self, origin, dirs[j])
    {
      RaysDisjoint(b, self, origin, dirs[i], dirs[j]);
    }
  }

  /** Four pairwise disjoint rays concatenate to a duplicate-free list. */
  lemma FourRaysNoDup(b: Board, self: nat, origin: Cell, d1: Cell, d2: Cell, d3: Cell, d4: Cell)
    requires Valid(b) && RayDir(d1) && RayDir(d2) && RayDir(d3) && RayDir(d4)
    requires d1 != d2 && d1 != d3 && d1 != d4 && d2 != d3 && d2 != d4 && d3 != d4
    ensures NoDup(RayCells(b, self, origin, d1) + RayCells(b, self, origin, d2)
                  + RayCells(b, self, origin, d3) + RayCells(b, self, origin, d4))
  {
    var r1 := RayCells(b, self, origin, d1);
    var r2 := RayCells(b, self, origin, d2);
    var r3 := RayCells(b, self, origin, d3);
    var r4 := RayCells(b, self, origin, d4);
    RayNoDup(b, self, origin, d1);
    RayNoDup(b, self, origin, d2);
    RayNoDup(b, self, origin, d3);
    RayNoDup(b, self, origin, d4);
    RaysDisjoint(b, self, origin, d1, d2);
    RaysDisjoint(b, self, origin, d1, d3);
    RaysDisjoint(b, self, origin, d1, d4);
    RaysDisjoint(b, self, origin, d2, d3);
    RaysDisjoint(b, self, origin, d2, d4);
    RaysDisjoint(b, self, origin, d3, d4);
    NoDupAppend(r1, r2);
    NoDupAppend(r1 + r2, r3);
    NoDupAppend(r1 + r2 + r3, r4);
  }

  /** An orthogonal trap's attack list names no cell twice. */
  lemma OrthoAttackCellsNoDup(b: Board, self: nat, origin: Cell)
    requires Valid(b)
    ensures NoDup(OrthoAttackCells(b, self, origin))
  {
    FourRaysNoDup(b, self, origin, Up, Down, Left, Right);
  }

  /** A diagonal trap's attack list names no cell twice. */
  lemma DiagonalAttackCellsNoDup(b: Board, self: nat, origin: Cell)
    requires Valid(b)
    ensures NoDup(DiagonalAttackCells(b, self, origin))
  {
    FourRaysNoDup(b, self, origin, UpRight, DownRight, UpLeft, DownLeft);
  }

  /** Attack cells of a diagonal trap: each lies on a diagonal through the
      origin at distance at least one, and the origin is never among them. */
  lemma DiagonalAttackCellsShape(b: Board, self: nat, origin: Cell)
    requires Valid(b)
    ensures forall c :: c in DiagonalAttackCells(b, self, origin) ==>
              Abs(c.x - origin.x) == Abs(c.y - origin.y) >= 1
    ensures origin !in DiagonalAttackCells(b, self, origin)
    ensures forall c :: c in DiagonalAttackCells(b, self, origin) ==> !Stops(b, self, c)
  {
    var ur := RayCells(b, self, origin, UpRight);
    var dr := RayCells(b, self, origin, DownRight);
    var ul := RayCells(b, self, origin, UpLeft);
    var dl := RayCells(b, self, origin, DownLeft);
    forall c | c in DiagonalAttackCells(b, self, origin)
      ensures Abs(c.x - origin.x) == Abs(c.y - origin.y) >= 1 && !Stops(b, self, c)
    {
      assert c in ur || c in dr || c in ul || c in dl;
    }
  }

  /** The four rays of the diagonal trap are pairwise disjoint. */
  lemma DiagonalRaysPairwiseDisjoint(b: Board, self: nat, origin: Cell)
    requires Valid(b)
    ensures var dirs := [UpRight, DownRight, UpLeft, DownLeft];
            forall i, j :: 0 <= i < j < 4 ==>
              forall c :: c in RayCells(b, self, origin, dirs[i]) ==> c !in RayCells(b, self, origin, dirs[j])
  {
    var dirs := [UpRight, DownRight, UpLeft, DownLeft];
    forall i, j | 0 <= i < j < 4
      ensures forall c :: c in RayCells(b, self, origin, dirs[i]) ==> c !in RayCells(b, self, origin, dirs[j])
    {
      RaysDisjoint(b, self, origin, dirs[i], dirs[j]);
    }
  }

  /** A trap standing on a ray's path cuts it: when another trap occupies
      the cell at distance `k` and rays stop on traps, the ray has fewer
      than `k` cells. */
  lemma RayStopsBeforeTrap(b: Board, self: nat, origin: Cell, dir: Cell, k: nat, t: nat)
    requires Valid(b) && RayDir(dir) && k >= 1 && b.stopRayOnTrap
    requires t in b.trapAt && t != self && b.trapAt[t] == Step(origin, dir, k)
    ensures |RayCells(b, self, origin, dir)| < k
  {
    var r := RayCells(b, self, origin, dir);
    if |r| >= k {
      assert r[k - 1] == Step(origin, dir, k);
      assert TrapBlocks(b, self, r[k - 1]);
    }
  }
}

=== FILE: seqs.dfy ===
/** Sequence helpers shared by the model: duplicate-freedom, occurrence
    counting, first-match search and the add/remove operations of the C#
    `List<T>` registries. */
module Seqs {
  import opened Wrappers

  /** No element occurs twice. */
  predicate NoDup<T(==)>(s: seq<T>) {
    forall i, j :: 0 <= i < j < |s| ==> s[i] != s[j]
  }

  /** Number of occurrences of `x` in `s`; the reference for every "how many
      times is this cell yielded" statement. */
  function Count<T(==)>(s: seq<T>, x: T): nat {
    if s == [] then 0
    else (if s[0] == x then 1 else 0) + Count(s[1..], x)
  }

  lemma {:induction false} CountAppend<T>(a: seq<T>, b: seq<T>, x: T)
    ensures Count(a + b, x) == Count(a, x) + Count(b, x)
  {
    if a == [] {
      assert a + b == b;
    } else {
      assert (a + b)[1..] == a[1..] + b;
      CountAppend(a[1..], b, x);
    }
  }

  lemma {:induction false} CountPositiveIffIn<T>(s: seq<T>, x: T)
    ensures Count(s, x) > 0 <==> x in s
  {
    if s != [] {
      CountPositiveIffIn(s[1..], x);
      assert s == [s[0]] + s[1..];
    }
  }

  /** Concatenating two duplicate-free, disjoint sequences gives a
      duplicate-free sequence. */
  lemma NoDupAppend<T>(a: seq<T>, b: seq<T>)
    requires NoDup(a) && NoDup(b)
    requires forall x :: x in a ==> x !in b
    ensures NoDup(a + b)
  {
    var s := a + b;
    forall i, j | 0 <= i < j < |s| ensures s[i] != s[j] {
      if j >= |a| && i < |a| {
        assert s[i] in a && s[j] == b[j - |a|];
      } else if i >= |a| {
        assert s[i] == b[i - |a|] && s[j] == b[j - |a|];
      }
    }
  }

  /** Index of the first element of `s` satisfying `p`, if any: the
      "first match in enumeration order" of every `foreach ... break` loop. */
  function FindFirst<T>(s: seq<T>, p: T -> bool): (r: Option<nat>)
    ensures r.Some? ==> r.value < |s| && p(s[r.value])
    ensures r.Some? ==> forall j :: 0 <= j < r.value ==> !p(s[j])
    ensures r.None? <==> forall j :: 0 <= j < |s| ==> !p(s[j])
  {
    if s == [] then None
    else if p(s[0]) then Some(0)
    else
      match FindFirst(s[1..], p)
      case None => None
      case Some(k) => Some(k + 1)
  }

  /** `List.Add` guarded by `List.Contains`: the registration of
      GameManager.RegisterEnemy and RegisterTrap. */
  function AddIfAbsent<T(==,!new)>(s: seq<T>, x: T): (r: seq<T>)
    ensures x in r
    ensures forall y :: y in r <==> y in s || y == x
    ensures NoDup(s) ==> NoDup(r)
    ensures |s| <= |r| && r[..|s|] == s
  {
    if x in s then s else s + [x]
  }

  /** Index of the first occurrence of `x`. */
  function IndexOf<T(==)>(s: seq<T>, x: T): (i: nat)
    requires x in s
    ensures i < |s| && s[i] == x && x !in s[..i]
  {
    if s[0] == x then 0
    else
      var k := IndexOf(s[1..], x);
      assert s[..k + 1] == [s[0]] + s[1..][..k];
      k + 1
  }

  /** `List.Remove`: deletes the first occurrence of `x`, if any. */
  function RemoveFirst<T(==)>(s: seq<T>, x: T): (r: seq<T>)
    ensures x !in s ==> r == s
    ensures x in s ==> |r| == |s| - 1
    ensures x in s ==> multiset(r) == multiset(s) - multiset{x}
    ensures forall y :: y in s && y != x ==> y in r
  {
    if x !in s then s
    else
      var i := IndexOf(s, x);
      assert s == s[..i] + [x] + s[i + 1..];
      s[..i] + s[i + 1..]
  }

  /** On a duplicate-free list, removal deletes exactly `x` and keeps the
      list duplicate-free. */
  lemma RemoveFirstNoDup<T(!new)>(s: seq<T>, x: T)
    requires NoDup(s)
    ensures NoDup(RemoveFirst(s, x))
    ensures x !in RemoveFirst(s, x)
    ensures forall y :: y != x ==> (y in RemoveFirst(s, x) <==> y in s)
  {
    var r := RemoveFirst(s, x);
    if x in s {
      var i := IndexOf(s, x);
      forall a, b | 0 <= a < b < |r| ensures r[a] != r[b] {
        var a' := if a < i then a else a + 1;
        var b' := if b < i then b else b + 1;
        assert r[a] == s[a'] && r[b] == s[b'];
      }
      forall y ensures y in r <==> y in s && y != x {
        assert multiset(r) == multiset(s) - multiset{x};
        assert y in r <==> multiset(r)[y] > 0;
        assert y in s <==> multiset(s)[y] > 0;
        assert multiset(s)[x] == 1 by {
          forall j | 0 <= j < |s| && j != i ensures s[j] != x { }
          MultisetOfUnique(s, i);
        }
      }
    }
  }

  /** In a duplicate-free list the element at `i` occurs exactly once. */
  lemma {:induction false} MultisetOfUnique<T>(s: seq<T>, i: int)
    requires 0 <= i < |s|
    requires forall j :: 0 <= j < |s| && j != i ==> s[j] != s[i]
    ensures multiset(s)[s[i]] == 1
  {
    var x := s[i];
    assert s == s[..i] + [x] + s[i + 1..];
    assert x !in s[..i];
    var tail := s[i + 1..];
    assert x !in tail by {
      forall k | 0 <= k < |tail| ensures tail[k] != x {
        assert tail[k] == s[i + 1 + k];
      }
    }
    assert multiset(s) == multiset(s[..i]) + multiset{x} + multiset(s[i + 1..]);
  }

  /** Registering an absent element and then unregistering it restores the
      list: the two operations are inverse on absent elements. */
  lemma RemoveAfterAdd<T(!new)>(s: seq<T>, x: T)
    requires x !in s
    ensures RemoveFirst(AddIfAbsent(s, x), x) == s
  {
    var t := s + [x];
    var i := IndexOf(t, x);
    assert t[..|s|] == s;
    assert i == |s|;
  }

  /** In a duplicate-free sequence a present element occurs exactly once. */
  lemma {:induction false} NoDupCountOne<T>(s: seq<T>, x: T)
    requires NoDup(s) && x in s
    ensures Count(s, x) == 1
  {
    if s[0] == x {
      assert x !in s[1..];
      CountPositiveIffIn(s[1..], x);
    } else {
      NoDupCountOne(s[1..], x);
    }
  }
}

=== FILE: strike.dfy ===
/** What a player attack finds on the clicked cell and what it does there.
    Both player revisions overlap one box on the cell; the object found is
    described by the components and tag it carries. */
module Strike {
  import opened Wrappers
  import EnemyHealth
  import TrapCycle

  /** The collider found: its "Bullet" tag, its EnemyHealth component and
      its trap component (with their current state), when present. */
  datatype Hittable = Hittable(bulletTag: bool, enemy: Option<EnemyHealth.Health>, trap: Option<TrapCycle.TrapState>)

  /** The effect of an attack on its target. */
  datatype Effect =
    | NoEffect
    | BulletDestroyed
    | EnemyDamaged(hit: EnemyHealth.Hit)
    | TrapArmed(state: TrapCycle.TrapState)
}

=== FILE: trap_attack.dfy ===
/** TrapBaseSequenced.DoAttack: one fire of a trap. Every attack cell is
    probed with an overlap query; bullets are destroyed, enemies and the
    player are damaged, and three "already processed" records make sure no
    object is affected twice within the same fire even when several attack
    cells reach it. */
module TrapAttack {
  import opened Grid
  import opened Seqs
  import opened Wrappers
  import Rays

  /** One collider returned by the overlap query: the identity of its game
      object, whether it carries the "Bullet" tag, the identity of its
      EnemyHealth component if it has one, and whether it carries the
      "Player" tag. */
  datatype Occupant = Occupant(obj: nat, bulletTag: bool, enemy: Option<nat>, playerTag: bool)

  /** The three branches of the hit loop, checked in the source's order. */
  predicate IsBullet(h: Occupant) {
    h.bulletTag
  }

  predicate IsEnemy(h: Occupant) {
    !h.bulletTag && h.enemy.Some?
  }

  predicate IsPlayer(h: Occupant) {
    !h.bulletTag && h.enemy.None? && h.playerTag
  }

  /** What one fire does: bullet objects destroyed and enemies damaged, in
      the order they were first reached, and whether the player was hit. */
  datatype Effects = Effects(destroyed: seq<nat>, damaged: seq<nat>, playerHit: bool)

  const NoEffects := Effects([], [], false)

  /** Reference sets: every bullet object, every enemy and whether the
      player occurs among the hits, with no regard to repetition. */
  function BulletsOf(hs: seq<Occupant>): set<nat> {
    if hs == [] then {}
    else (if IsBullet(hs[0]) then {hs[0].obj} else {}) + BulletsOf(hs[1..])
  }

  function EnemiesOf(hs: seq<Occupant>): set<nat> {
    if hs == [] then {}
    else (if IsEnemy(hs[0]) then {hs[0].enemy.value} else {}) + EnemiesOf(hs[1..])
  }

  predicate PlayerAmong(hs: seq<Occupant>) {
    exists i :: 0 <= i < |hs| && IsPlayer(hs[i])
  }

  /** The body of the inner `foreach (var h in hits)` loop for one hit: a
      `HashSet.Add` that only acts on a first sighting. */
  function ProcessHit(acc: Effects, h: Occupant): (r: Effects)
    ensures forall x :: x in r.destroyed <==> x in acc.destroyed || (IsBullet(h) && x == h.obj)
    ensures forall e :: e in r.damaged <==> e in acc.damaged || (IsEnemy(h) && e == h.enemy.value)
    ensures r.playerHit <==> acc.playerHit || IsPlayer(h)
    ensures NoDup(acc.destroyed) ==> NoDup(r.destroyed)
    ensures NoDup(acc.damaged) ==> NoDup(r.damaged)
    ensures |acc.destroyed| <= |r.destroyed| && r.destroyed[..|acc.destroyed|] == acc.destroyed
    ensures |acc.damaged| <= |r.damaged| && r.damaged[..|acc.damaged|] == acc.damaged
  {
    if IsBullet(h) then acc.(destroyed := AddIfAbsent(acc.destroyed, h.obj))
    else if IsEnemy(h) then acc.(damaged := AddIfAbsent(acc.damaged, h.enemy.value))
    else if IsPlayer(h) && !acc.playerHit then acc.(playerHit := true)
    else acc
  }

  /** The hit loop over a sequence of hits, starting from the records
      `acc`: the records only grow, stay duplicate-free, and end up holding
      exactly the objects seen before plus those among `hs`. */
  function ProcessHits(acc: Effects, hs: seq<Occupant>): (r: Effects)
    ensures NoDup(acc.destroyed) ==> NoDup(r.destroyed)
    ensures NoDup(acc.damaged) ==> NoDup(r.damaged)
    ensures forall x :: x in r.destroyed <==> x in acc.destroyed || x in BulletsOf(hs)
    ensures forall e :: e in r.damaged <==> e in acc.damaged || e in EnemiesOf(hs)
    ensures r.playerHit <==> acc.playerHit || PlayerAmong(hs)
    ensures |acc.destroyed| <= |r.destroyed| && r.destroyed[..|acc.destroyed|] == acc.destroyed
    ensures |acc.damaged| <= |r.damaged| && r.damaged[..|acc.damaged|] == acc.damaged
    decreases |hs|
  {
    if hs == [] then acc
    else
      var next := ProcessHit(acc, hs[0]);
      var r := ProcessHits(next, hs[1..]);
      HitsStep(hs);
      PrefixKept(acc.destroyed, next.destroyed, r.destroyed);
      PrefixKept(acc.damaged, next.damaged, r.damaged);
      r
  }

  /** The reference sets of a non-empty hit list split into its head and
      its tail. */
  lemma HitsStep(hs: seq<Occupant>)
    requires hs != []
    ensures PlayerAmong(hs) <==> IsPlayer(hs[0]) || PlayerAmong(hs[1..])
  {
    if PlayerAmong(hs[1..]) {
      var i :| 0 <= i < |hs[1..]| && IsPlayer(hs[1..][i]);
      assert IsPlayer(hs[i + 1]);
    }
    if PlayerAmong(hs) && !IsPlayer(hs[0]) {
      var i :| 0 <= i < |hs| && IsPlayer(hs[i]);
      assert IsPlayer(hs[1..][i - 1]);
    }
  }

  /** A prefix of a prefix is a prefix. */
  lemma PrefixKept(a: seq<nat>, b: seq<nat>, c: seq<nat>)
    requires |a| <= |b| && b[..|a|] == a
    requires |b| <= |c| && c[..|b|] == b
    ensures |a| <= |c| && c[..|a|] == a
  {
    assert c[..|a|] == c[..|b|][..|a|];
  }

  /** All hits of all attack cells, in probing order. */
  function AllHits(cells: seq<Cell>, hitsAt: Cell -> seq<Occupant>): (r: seq<Occupant>)
    ensures forall h :: h in r <==> exists c :: c in cells && h in hitsAt(c)
  {
    if cells == [] then []
    else
      var rest := AllHits(cells[1..], hitsAt);
      assert forall c :: c in cells <==> c == cells[0] || c in cells[1..];
      hitsAt(cells[0]) + rest
  }

  /** DoAttack over the given attack cells; with a missing floor or wall
      tilemap nothing happens. */
  function DoAttackOn(hasTilemaps: bool, cells: seq<Cell>, hitsAt: Cell -> seq<Occupant>): (r: Effects)
    ensures NoDup(r.destroyed) && NoDup(r.damaged)
    ensures !hasTilemaps ==> r == NoEffects
    ensures hasTilemaps ==> forall x :: x in r.destroyed <==> x in BulletsOf(AllHits(cells, hitsAt))
    ensures hasTilemaps ==> forall e :: e in r.damaged <==> e in EnemiesOf(AllHits(cells, hitsAt))
    ensures hasTilemaps ==> (r.playerHit <==> PlayerAmong(AllHits(cells, hitsAt)))
  {
    if !hasTilemaps then NoEffects
    else ProcessHits(NoEffects, AllHits(cells, hitsAt))
  }

  /** DoAttack of trap `self` standing on `origin`. */
  function DoAttack(hasTilemaps: bool, kind: Rays.RayKind, b: Rays.Board, self: nat, origin: Cell,
                    hitsAt: Cell -> seq<Occupant>): (r: Effects)
    requires Rays.Valid(b)
    ensures NoDup(r.destroyed) && NoDup(r.damaged)
  {
    DoAttackOn(hasTilemaps, Rays.AttackCells(kind, b, self, origin), hitsAt)
  }

  /** Once-per-fire damage: an enemy standing in any of the attack cells,
      however many of them report it (a large collider, or overlapping
      probes), is damaged exactly once. */
  lemma OncePerFire(cells: seq<Cell>, hitsAt: Cell -> seq<Occupant>, c1: Cell, h1: Occupant)
    requires c1 in cells && h1 in hitsAt(c1)
    requires IsEnemy(h1)
    ensures Count(DoAttackOn(true, cells, hitsAt).damaged, h1.enemy.value) == 1
  {
    var r := DoAttackOn(true, cells, hitsAt);
    var e := h1.enemy.value;
    assert h1 in AllHits(cells, hitsAt);
    EnemiesOfHas(AllHits(cells, hitsAt), h1);
    NoDupCountOne(r.damaged, e);
  }

  lemma {:induction false} EnemiesOfHas(hs: seq<Occupant>, h: Occupant)
    requires h in hs && IsEnemy(h)
    ensures h.enemy.value in EnemiesOf(hs)
  {
    if hs[0] != h {
      EnemiesOfHas(hs[1..], h);
    }
  }
}

=== FILE: trap_cycle.dfy ===
/** The arm/countdown/fire cycle of TrapBaseSequenced: when a trap may act,
    how its "turns until fire" counter is ticked and reloaded, how a vision
    trigger arms it, and the gate that decides whether a call to `Act`
    fires. The ray geometry and the damage of a fire live in Rays and
    TrapAttack. */
module TrapCycle {
  import opened Grid
  import opened Phases

  /** The inspector settings of the trap's vision trigger. `visionLayer` is
      the result of `LayerMask.NameToLayer`, negative when no such layer
      exists; an empty tag disables that tag test. */
  datatype ArmTrigger = ArmTrigger(
    useLayerCheck: bool,
    useTagCheck: bool,
    visionLayer: int,
    playerVisionTag: string,
    bulletVisionTag: string)

  /** The collider that entered the trap's trigger box. */
  datatype Collider = Collider(layer: int, tag: string)

  /** The inspector settings that drive the cycle. `intervalTurns` and
      `initialOffset` carry `[Min]` attributes, which only the editor
      enforces, so they are plain integers here. */
  datatype TrapConfig = TrapConfig(
    actOnPlayerTurn: bool,
    actOnEnemyTurn: bool,
    requireArmed: bool,
    disarmAfterAct: bool,
    intervalTurns: int,
    initialOffset: int,
    trigger: ArmTrigger)

  /** The mutable part of a trap: the arm latch and the countdown. */
  datatype TrapState = TrapState(armed: bool, turnsUntilFire: int)

  /** The countdown invariant every write maintains. */
  predicate Valid(s: TrapState) {
    s.turnsUntilFire >= 0
  }

  /** ShouldActOnPhase: the phases in which the trap counts down and acts. */
  predicate ShouldActOnPhase(cfg: TrapConfig, phase: Phase) {
    (phase == PlayerMove && cfg.actOnPlayerTurn) || (phase == EnemyTurn && cfg.actOnEnemyTurn)
  }

  /** Only the player's move phase and the enemy phase can ever be
      eligible, each exactly when its flag is set. */
  lemma EligiblePhases(cfg: TrapConfig, phase: Phase)
    ensures ShouldActOnPhase(cfg, phase) ==> phase == PlayerMove || phase == EnemyTurn
    ensures ShouldActOnPhase(cfg, PlayerMove) <==> cfg.actOnPlayerTurn
    ensures ShouldActOnPhase(cfg, EnemyTurn) <==> cfg.actOnEnemyTurn
    ensures !ShouldActOnPhase(cfg, PlayerAction) && !ShouldActOnPhase(cfg, PlayerTurn)
  {
  }

  /** SetTurnsRemaining: every write to the counter goes through
      `Mathf.Max(0, value)`. */
  function SetTurnsRemaining(s: TrapState, value: int): (r: TrapState)
    ensures Valid(r)
    ensures value >= 0 ==> r.turnsUntilFire == value
    ensures value < 0 ==> r.turnsUntilFire == 0
    ensures r.armed == s.armed
  {
    s.(turnsUntilFire := Max(0, value))
  }

  /** ResetCycle: the countdown restarts at the initial offset, never below
      zero; the arm latch is untouched. */
  function ResetCycle(cfg: TrapConfig, s: TrapState): (r: TrapState)
    ensures Valid(r)
    ensures r.turnsUntilFire == Max(0, cfg.initialOffset)
    ensures r.armed == s.armed
  {
    SetTurnsRemaining(s, cfg.initialOffset)
  }

  /** The state of a trap after `Start`: disarmed, countdown reset. */
  function Initial(cfg: TrapConfig): (r: TrapState)
    ensures Valid(r) && !r.armed
    ensures r.turnsUntilFire == Max(0, cfg.initialOffset)
  {
    ResetCycle(cfg, TrapState(false, 0))
  }

  /** OnTurnAdvanced: called at the start of every phase; in an eligible
      phase a positive counter goes down by exactly one, otherwise nothing
      changes. */
  function OnTurnAdvanced(cfg: TrapConfig, s: TrapState, phase: Phase): (r: TrapState)
    ensures ShouldActOnPhase(cfg, phase) && s.turnsUntilFire > 0 ==>
              r == s.(turnsUntilFire := s.turnsUntilFire - 1)
    ensures !(ShouldActOnPhase(cfg, phase) && s.turnsUntilFire > 0) ==> r == s
    ensures Valid(s) ==> Valid(r)
  {
    if !ShouldActOnPhase(cfg, phase) then s
    else if s.turnsUntilFire > 0 then SetTurnsRemaining(s, s.turnsUntilFire - 1)
    else s
  }

  /** ReloadCycleAfterAct: after a fire the counter is `intervalTurns - 1`,
      clamped at zero. */
  function ReloadCycleAfterAct(cfg: TrapConfig, s: TrapState): (r: TrapState)
    ensures Valid(r)
    ensures cfg.intervalTurns >= 1 ==> r.turnsUntilFire == cfg.intervalTurns - 1
    ensures cfg.intervalTurns < 1 ==> r.turnsUntilFire == 0
    ensures r.armed == s.armed
  {
    SetTurnsRemaining(s, cfg.intervalTurns - 1)
  }

  /** The match test of OnTriggerEnter2D: the vision layer, else either of
      the two non-empty vision tags. */
  predicate TriggerMatches(t: ArmTrigger, other: Collider) {
    (t.useLayerCheck && t.visionLayer >= 0 && other.layer == t.visionLayer)
    || (t.useTagCheck
        && ((t.playerVisionTag != "" && other.tag == t.playerVisionTag)
            || (t.bulletVisionTag != "" && other.tag == t.bulletVisionTag)))
  }

  /** OnTriggerEnter2D followed by Arm: an armed trap ignores triggers, a
      matching trigger arms a disarmed one; the countdown is never touched. */
  function OnTriggerEnter(cfg: TrapConfig, s: TrapState, other: Collider): (r: TrapState)
    ensures r.turnsUntilFire == s.turnsUntilFire
    ensures s.armed ==> r == s
    ensures r.armed <==> s.armed || TriggerMatches(cfg.trigger, other)
  {
    if s.armed then s
    else if TriggerMatches(cfg.trigger, other) then s.(armed := true)
    else s
  }

  /** The latch is idempotent: a second identical trigger changes nothing,
      and no trigger ever disarms a trap. */
  lemma TriggerLatched(cfg: TrapConfig, s: TrapState, a: Collider, b: Collider)
    ensures OnTriggerEnter(cfg, OnTriggerEnter(cfg, s, a), a) == OnTriggerEnter(cfg, s, a)
    ensures OnTriggerEnter(cfg, s, a).armed ==> OnTriggerEnter(cfg, OnTriggerEnter(cfg, s, a), b).armed
  {
  }

  /** ForceArm, called by the later PlayerMover revision when the player
      attacks a trap: arms it whatever the trigger settings. It is not part
      of this TrapBaseSequenced revision, so it is modelled as Arm
      without the trigger test. */
  function ForceArm(s: TrapState): (r: TrapState)
    ensures r.armed
    ensures r.turnsUntilFire == s.turnsUntilFire
  {
    s.(armed := true)
  }

  /** The four guards at the head of `Act`. */
  predicate FireGate(cfg: TrapConfig, s: TrapState, phase: Phase, ready: bool) {
    ShouldActOnPhase(cfg, phase) && s.turnsUntilFire <= 0 && ready && (s.armed || !cfg.requireArmed)
  }

  /** What a call to `Act` leaves behind, and whether it fired (ran
      DoAttack). */
  datatype ActResult = ActResult(state: TrapState, fired: bool)

  /** Act: `ready` is the virtual `IsReadyToAct`, which no trap kind
      overrides. A fire disarms the trap when `disarmAfterAct` and reloads
      the countdown; a call that does not fire changes nothing. */
  function Act(cfg: TrapConfig, s: TrapState, phase: Phase, ready: bool): (r: ActResult)
    ensures r.fired <==> ShouldActOnPhase(cfg, phase) && s.turnsUntilFire <= 0 && ready && (s.armed || !cfg.requireArmed)
    ensures !r.fired ==> r.state == s
    ensures r.fired ==> r.state.turnsUntilFire == Max(0, cfg.intervalTurns - 1)
    ensures r.fired ==> (r.state.armed <==> s.armed && !cfg.disarmAfterAct)
    ensures Valid(s) ==> Valid(r.state)
  {
    if !FireGate(cfg, s, phase, ready) then ActResult(s, false)
    else
      var afterAttack := if cfg.disarmAfterAct then s.(armed := false) else s;
      ActResult(ReloadCycleAfterAct(cfg, afterAttack), true)
  }

  /** A trap that requires arming never fires while disarmed, and no trap
      fires while its countdown is positive. */
  lemma NoFireWhenDisarmedOrCounting(cfg: TrapConfig, s: TrapState, phase: Phase, ready: bool)
    requires (cfg.requireArmed && !s.armed) || s.turnsUntilFire > 0
    ensures !Act(cfg, s, phase, ready).fired
    ensures Act(cfg, s, phase, ready).state == s
  {
  }

  /** One enemy phase of a trap as GameManager runs it: the countdown is
      ticked when the phase starts, and the trap is offered `Act` later in
      the same phase. */
  function EnemyPhase(cfg: TrapConfig, s: TrapState, ready: bool): (r: ActResult)
    ensures Valid(s) ==> Valid(r.state)
    ensures r.fired ==> cfg.actOnEnemyTurn && ready
  {
    Act(cfg, OnTurnAdvanced(cfg, s, EnemyTurn), EnemyTurn, ready)
  }

  /** The ticks a trap receives between two enemy phases: the starts of
      the move phase and of the action phase (GameManager.cs:122-123). The
      second never counts, and the first counts only for a trap that also
      acts on the player turn. */
  function PlayerTicks(cfg: TrapConfig, s: TrapState): (r: TrapState)
    ensures !cfg.actOnPlayerTurn ==> r == s
    ensures cfg.actOnPlayerTurn && Valid(s) ==> r.turnsUntilFire == Max(0, s.turnsUntilFire - 1)
    ensures r.armed == s.armed && (Valid(s) ==> Valid(r))
  {
    OnTurnAdvanced(cfg, OnTurnAdvanced(cfg, s, PlayerMove), PlayerAction)
  }

  /** One round of one trap as the game runs it: the player's two phases,
      then the enemy phase, the only one in which the trap is offered
      `Act` (GameManager.cs:217). */
  function Round(cfg: TrapConfig, s: TrapState): (r: ActResult)
    ensures Valid(s) ==> Valid(r.state)
    ensures !cfg.actOnPlayerTurn ==> r == EnemyPhase(cfg, s, true)
    ensures r.fired ==> cfg.actOnEnemyTurn
  {
    EnemyPhase(cfg, PlayerTicks(cfg, s), true)
  }

  /** `n` consecutive rounds of one trap; `fires[i]` tells whether the
      i-th of them fired. */
  function Rounds(cfg: TrapConfig, s: TrapState, n: nat): (r: (TrapState, seq<bool>))
    ensures |r.1| == n
    ensures Valid(s) ==> Valid(r.0)
    decreases n
  {
    if n == 0 then (s, [])
    else
      var step := Round(cfg, s);
      var rest := Rounds(cfg, step.state, n - 1);
      (rest.0, [step.fired] + rest.1)
  }

  /** The round in which a counter of `k` first fires as the code is
      written: the enemy phase's tick comes before `Act`, and a trap acting
      on the player turn also ticks at every move phase. */
  function FirstFireAsWritten(cfg: TrapConfig, k: nat): (r: nat)
    ensures r >= 1
  {
    if cfg.actOnPlayerTurn then Max((k + 1) / 2, 1) else Max(k, 1)
  }

  /** A trap with a counter of `k` that never needs arming fires, as the
      code is written, in round `FirstFireAsWritten(cfg, k)` (round max(k, 1)
      for a trap that does not act on the player turn, the default,
      TrapBaseSequenced.cs:14), and is silent in the rounds before it. */
  lemma {:induction false} CountdownAsWritten(cfg: TrapConfig, s: TrapState, k: nat)
    requires cfg.actOnEnemyTurn && !cfg.requireArmed
    requires s.turnsUntilFire == k
    ensures var p := FirstFireAsWritten(cfg, k);
            var r := Rounds(cfg, s, p).1;
            r[p - 1] && forall i :: 0 <= i < p - 1 ==> !r[i]
    decreases k
  {
    var d := if cfg.actOnPlayerTurn then 2 else 1;
    var p := FirstFireAsWritten(cfg, k);
    var step := Round(cfg, s);
    if k > d {
      assert !step.fired && step.state.turnsUntilFire == k - d;
      assert p == FirstFireAsWritten(cfg, k - d) + 1;
      CountdownAsWritten(cfg, step.state, k - d);
      var rest := Rounds(cfg, step.state, p - 1).1;
      assert Rounds(cfg, s, p).1 == [false] + rest;
    } else {
      assert p == 1 && step.fired;
      assert Rounds(cfg, s, 1).1 == [step.fired];
    }
  }

  /** Counterexample to the interval's documented meaning ("fires once
      every `intervalTurns` turns"): with an interval of 3 a freshly fired
      trap fires again in the second round, not the third; a trap that
      also acts on the player turn even fires again in the first. */
  lemma IntervalThreeFiresEverySecondPhase(cfg: TrapConfig)
    requires cfg.actOnEnemyTurn && !cfg.requireArmed && cfg.intervalTurns == 3
    ensures var fired := Round(cfg, TrapState(true, 0));
            fired.fired
            && (!cfg.actOnPlayerTurn ==> Rounds(cfg, fired.state, 2).1 == [false, true])
            && (cfg.actOnPlayerTurn ==> Rounds(cfg, fired.state, 1).1 == [true])
  {
    var fired := Round(cfg, TrapState(true, 0));
    assert fired.state.turnsUntilFire == 2;
    CountdownAsWritten(cfg, fired.state, 2);
  }

  /** The period as written: after a fire, an interval of `K` gives the
      next fire in round max(K - 1, 1), one round early for K >= 2; a trap
      that also acts on the player turn refires in round max(K / 2, 1). */
  lemma AsWrittenPeriod(cfg: TrapConfig, s: TrapState)
    requires cfg.actOnEnemyTurn && !cfg.requireArmed && cfg.intervalTurns >= 1
    requires s.turnsUntilFire == 0
    ensures var first := Round(cfg, s);
            var p := if cfg.actOnPlayerTurn then Max(cfg.intervalTurns / 2, 1) else Max(cfg.intervalTurns - 1, 1);
            var next := Rounds(cfg, first.state, p).1;
            first.fired && next[p - 1] && forall i :: 0 <= i < p - 1 ==> !next[i]
  {
    var first := Round(cfg, s);
    CountdownAsWritten(cfg, first.state, cfg.intervalTurns - 1);
  }

  /** The intended enemy phase: the countdown is consumed by the phases in
      which the trap does not fire, so a counter of `k` means `k` silent
      phases before the fire. */
  function EnemyPhaseIntended(cfg: TrapConfig, s: TrapState, ready: bool): (r: ActResult)
    ensures Valid(s) ==> Valid(r.state)
    ensures r.fired ==> s.turnsUntilFire <= 0
    ensures s.turnsUntilFire > 0 && cfg.actOnEnemyTurn ==> r.state.turnsUntilFire == s.turnsUntilFire - 1
  {
    if s.turnsUntilFire > 0 then ActResult(OnTurnAdvanced(cfg, s, EnemyTurn), false)
    else Act(cfg, s, EnemyTurn, ready)
  }

  /** A round with the intended enemy phase; the player's ticks are kept. */
  function RoundIntended(cfg: TrapConfig, s: TrapState): (r: ActResult)
    ensures Valid(s) ==> Valid(r.state)
    ensures !cfg.actOnPlayerTurn ==> r == EnemyPhaseIntended(cfg, s, true)
  {
    EnemyPhaseIntended(cfg, PlayerTicks(cfg, s), true)
  }

  function RoundsIntended(cfg: TrapConfig, s: TrapState, n: nat): (r: (TrapState, seq<bool>))
    ensures |r.1| == n
    decreases n
  {
    if n == 0 then (s, [])
    else
      var step := RoundIntended(cfg, s);
      var rest := RoundsIntended(cfg, step.state, n - 1);
      (rest.0, [step.fired] + rest.1)
  }

  /** The round in which a counter of `k` fires under the intended phase:
      `k` silent rounds first, or half as many when the move phases count
      too. */
  function FirstFireIntended(cfg: TrapConfig, k: nat): (r: nat)
    ensures r >= 1
  {
    if cfg.actOnPlayerTurn then k / 2 + 1 else k + 1
  }

  /** With the intended phase, a counter of `k` gives exactly `k` silent
      rounds followed by a fire (for a trap that does not act on the player
      turn; one that does counts its move phases as well). */
  lemma {:induction false} CountdownIntended(cfg: TrapConfig, s: TrapState, k: nat)
    requires cfg.actOnEnemyTurn && !cfg.requireArmed
    requires s.turnsUntilFire == k
    ensures var p := FirstFireIntended(cfg, k);
            var r := RoundsIntended(cfg, s, p).1;
            r[p - 1] && forall i :: 0 <= i < p - 1 ==> !r[i]
    decreases k
  {
    var d := if cfg.actOnPlayerTurn then 2 else 1;
    var p := FirstFireIntended(cfg, k);
    var step := RoundIntended(cfg, s);
    if k >= d {
      assert !step.fired && step.state.turnsUntilFire == k - d;
      assert p == FirstFireIntended(cfg, k - d) + 1;
      CountdownIntended(cfg, step.state, k - d);
      var rest := RoundsIntended(cfg, step.state, p - 1).1;
      assert RoundsIntended(cfg, s, p).1 == [false] + rest;
    } else {
      assert p == 1 && step.fired;
      assert RoundsIntended(cfg, s, 1).1 == [step.fired];
    }
  }

  /** The intended cycle keeps the documented period: after a fire, an
      interval of `K >= 1` gives `K - 1` silent rounds and a fire in the
      K-th; a trap that also acts on the player turn, whose move phases
      count too, refires in round (K - 1) / 2 + 1. */
  lemma IntendedPeriod(cfg: TrapConfig, s: TrapState)
    requires cfg.actOnEnemyTurn && !cfg.requireArmed && cfg.intervalTurns >= 1
    requires s.turnsUntilFire == 0
    ensures var first := RoundIntended(cfg, s);
            var p := if cfg.actOnPlayerTurn then (cfg.intervalTurns - 1) / 2 + 1 else cfg.intervalTurns;
            var next := RoundsIntended(cfg, first.state, p).1;
            first.fired && next[p - 1] && forall i :: 0 <= i < p - 1 ==> !next[i]
  {
    var first := RoundIntended(cfg, s);
    CountdownIntended(cfg, first.state, cfg.intervalTurns - 1);
  }
}

=== FILE: wrappers.dfy ===
/** Optional values, standing in for the null references and `TryGetValue`
    misses of the game's engine code. */
module Wrappers {

  datatype Option<+T> = None | Some(value: T) {

    /** The wrapped value, or `default` when there is none. */
    function GetOr(default: T): T {
      match this
      case Some(v) => v
      case None => default
    }
  }
}
